=== FILE: README.md ===
# Ten-Minute Transformation Journal — a Dafny model of its logic

The Ten-Minute Transformation Journal is a small journaling app. Its
Express server keeps four record kinds in an in-memory store: weekly goals
(tasks), daily entries, reflections and weekly reviews. A JSON API sits in
front of the store. The React client adds these parts:

- a daily page that suggests a ten-minute activity, counts the "promise
  kept" streak and validates what it saves;
- goal and review pages that count kept promises and grow a tree;
- a journal log that merges the four record kinds into one searchable list;
- reflection prompts;
- a few small state machines: the welcome carousel, the onboarding pager,
  the 66-day milestone stepper and the home page's chapter switch.

This project models that logic as pure functions over immutable
datatypes. It proves what the code promises about each piece:

- what a store operation keeps, changes and returns, and which status code
  each API answer carries;
- that the activity picker chooses the first matching category;
- what the streak walk counts;
- that filters keep exactly the matching records, in order;
- that the small state machines stay in range and undo each other where
  they should.

Files (one module each):

| file | module | what it holds |
|---|---|---|
| wrappers.dfy | Wrappers | `Option`, `Result`, and `Field` for a JSON field that is absent, `null` or a value |
| seqs.dfy | Seqs | `Array.prototype.filter` and `.filter(...).length`, with membership, order and complement lemmas |
| sorting.dfy | Sorting | a descending sort on an integer key, standing in for `Array.prototype.sort` with a `b - a` comparator |
| text.dfy | Text | lower-casing, `trim`, `includes`, `split`/`join`, `startsWith`, string order, and `replace` with a global pattern |
| tables.dfy | Tables | a JavaScript `Map` as rows plus insertion order; fresh ids |
| records.dfy | Records | the four record kinds, their insert and patch shapes, and how `createX` and `updateX` build records |
| store.dfy | MemStorage | the in-memory store's operations |
| routes.dfy | Routes | route matching, the handlers' status codes, and the request-log line |
| activity.dfy | Activity | the keyword activity suggester and the energy bands |
| daily.dfy | DailyPage | the streak, the save check, list edits, and the milestone check |
| weekly.dfy | Weekly | week bounds, the goal split, title validation, swipes, counts, the growth level, and the review form |
| journal.dfy | JournalLog | the unified journal list, its summaries, filter, edit buffer, and edit/delete requests |
| reflections.dfy | ReflectionPrompts | the prompt catalog, the response drafts, follow-up text, and what gets saved |
| growth_tree.dfy | GrowthTree | tree size, maturity, and the flower and leaf counts and positions |
| welcome.dfy | Welcome | the looping welcome carousel with autoplay |
| onboarding.dfy | Onboarding | the clamped onboarding pager and its flag |
| milestone.dfy | Milestone | the three-step 66-day milestone stepper |
| home.dfy | Home | the chapter switch with its 200 ms transition, and the onboarding modal on load |

Conventions:

- Dates on the client are integer day numbers, with `today` passed in.
  A `dayOf: string -> int` parameter stands for parsing a stored date.
- `new Date(d).getTime()` is a `dateValue: string -> int` parameter, and the
  server's clock is a `now: int` parameter.
- Every `Math.random()` pick is an index parameter that must be in bounds.
- `localStorage` is the `Onboarding.Flags` record. Timers are events.

## Model

| member | source | states |
|---|---|---|
| Tables.FreshId | dist/index.js:115 | a new id differs from every id already in the table and, like a `randomUUID`, contains a `-` |
| Tables.Remove | dist/index.js:178-180 | `Map.delete`: reports whether the key was present; afterwards the key is gone, every other key stays, and the remaining keys keep their insertion order (an order-preserving subsequence of the old one) |
| Tables.RemoveSplices | dist/index.js:178-180 | in a valid table a removed key is taken out of its one position in the insertion order and nothing else moves |
| Tables.Update | dist/index.js:128-134 | an unknown key leaves the table unchanged and yields nothing; a known key is rewritten in place, keeping its insertion position |
| Tables.FindFirst | dist/index.js:143-145 | the first value in insertion order that satisfies the test; nothing exactly when no value does |
| Seqs.Filter | src/components/journal-log.tsx:183-191 | the filter keeps only passing elements of the input, keeps every passing element, and adds no element more often than the input holds it |
| Seqs.FilterDropsOne | dist/index.js:178-180 | a test that fails on one element alone removes exactly that element and keeps the rest in order |
| Seqs.FilterComplement | src/components/weekly-tasks-list.tsx:35-36 | filtering by a test and by its negation splits the input: the two results together are the input, as a multiset |
| Sorting.SortDesc | dist/index.js:106-110 | the result is ordered by key, newest first, and is a permutation of the input |
| Text.Trim | src/components/weekly-tasks-list.tsx:195 | the trimmed string occurs inside the original with only white space before and after it, has no white space at either end, and is empty exactly when the original is all white space |
| Text.SplitJoin | src/components/journal-log.tsx:223 | joining the pieces of a split with the separator gives back the original string |
| Text.JoinSplit | src/components/journal-log.tsx:223 | splitting a join of separator-free pieces gives back the pieces |
| Records.NewTask | dist/index.js:114-127 | `createTask`: a falsy description becomes null; an absent `isActive` becomes true, and a present one, null included, is kept; `isCompleted` is stored true only when the input is true |
| Records.MergeTask | dist/index.js:128-134 | an update copies exactly the patch's fields over the stored task; id and creation time never change |
| Records.NewDailyEntry | dist/index.js:151-170 | `createDailyEntry`: every optional text, number, flag or list that is falsy is stored as null, and the rest as given |
| Records.MergeDaily | dist/index.js:171-177 | the patch's fields, and only those, overwrite the stored entry |
| Records.NewReflection | dist/index.js:199-212 | `createReflection` keeps the required fields and nulls a falsy follow-up |
| Records.MergeReflection | dist/index.js:213-219 | the patch's fields, and only those, overwrite the stored reflection |
| Records.NewWeeklyReview | dist/index.js:232-250 | `createWeeklyReview`: falsy texts and counts, a zero count included, are stored as null |
| Records.MergeReview | dist/index.js:251-257 | the patch's fields, and only those, overwrite the stored review |
| Records.MergeIdempotent | dist/index.js:128-134 | applying the same patch twice is the same as applying it once, for all four record kinds |
| Records.EmptyPatchIsIdentity | dist/index.js:128-134 | an empty patch leaves a task as it was |
| Records.CompletionPatch | dist/index.js:411-423 | the completion route patches `isCompleted` alone; a body without the flag clears it (`undefined` is spread over the stored value) |
| MemStorage.NewStorage | dist/index.js:92-97 | the store starts with four empty, consistent tables |
| MemStorage.GetTasks | dist/index.js:99-105 | only tasks not marked inactive are listed, and with a non-empty `weekStart` only that week's tasks, in insertion order |
| MemStorage.GetAllTasks | dist/index.js:106-110 | the active tasks, newest first, each exactly once |
| MemStorage.GetTask | dist/index.js:111-113 | the task under the id, or none exactly when the id is unknown |
| MemStorage.CreateTask | dist/index.js:114-127 | the new task gets an id not yet used, is built from the input, and is the only change to the store |
| MemStorage.UpdateTask | dist/index.js:128-134 | an unknown id changes nothing and returns undefined; a known id stores and returns the merged task |
| MemStorage.DeleteTask | dist/index.js:135-141 | a soft delete: it reports whether the id exists, and then keeps the record with `isActive` false |
| MemStorage.SoftDeleteHides | dist/index.js:99-141 | after a soft delete the task can still be fetched by id, but is listed for no week |
| MemStorage.DeleteTaskTwice | dist/index.js:135-141 | a second soft delete of a known task again returns true and changes nothing more |
| MemStorage.CreatedTaskListed | dist/index.js:99-127 | a task not created with `isActive` false (a missing or null flag included) can be fetched and is listed for its own week and for all weeks |
| MemStorage.CreateThenRetitle | dist/index.js:114-134 | retitling a just-created task returns that task with only its title changed, and stores it |
| MemStorage.GetDailyEntry | dist/index.js:143-145 | the first entry in insertion order with that date; none exactly when no entry has it |
| MemStorage.GetAllDailyEntries | dist/index.js:146-150 | every entry once, latest date first |
| MemStorage.CreateDailyEntry | dist/index.js:151-170 | a fresh id, the record built from the input, and no other change |
| MemStorage.UpdateDailyEntry | dist/index.js:171-177 | an unknown id changes nothing; a known id stores and returns the merged entry |
| MemStorage.DeleteDailyEntry | dist/index.js:178-180 | a hard delete: it reports whether the id existed; afterwards the id is gone, the other entries keep their insertion order, the other tables are untouched, and an unknown id changes nothing |
| MemStorage.DeleteSplices | dist/index.js:178-261 | a hard delete of a daily entry, reflection or review takes the id out of its one place in the insertion order; the other records keep theirs, as later first-match reads and stable sorts observe |
| MemStorage.HardDeleteOnce | dist/index.js:178-260 | deleting a daily entry, a reflection or a review succeeds once; a second delete of the same id returns false |
| MemStorage.GetDailyEntriesForWeek | dist/index.js:181-186 | exactly the entries with `weekStart <= date <= weekEnd` in string order, in insertion order |
| MemStorage.GetReflections | dist/index.js:187-193 | with no or an empty date, every reflection; otherwise exactly those on that date |
| MemStorage.GetAllReflections | dist/index.js:194-198 | every reflection once, newest first |
| MemStorage.CreateReflection | dist/index.js:199-212 | a fresh id, the record built from the input, and no other change |
| MemStorage.UpdateReflection | dist/index.js:213-219 | an unknown id changes nothing; a known id stores and returns the merged reflection |
| MemStorage.DeleteReflection | dist/index.js:220-223 | a hard delete: it reports whether the id existed; afterwards the id is gone, the other reflections keep their insertion order, the other tables are untouched, and an unknown id changes nothing |
| MemStorage.GetWeeklyReview | dist/index.js:224-226 | the first review stored for that week start, or none when there is none |
| MemStorage.GetAllWeeklyReviews | dist/index.js:227-231 | every review once, newest first |
| MemStorage.CreateWeeklyReview | dist/index.js:232-250 | a fresh id, the record built from the input, and no other change |
| MemStorage.UpdateWeeklyReview | dist/index.js:251-257 | an unknown id changes nothing; a known id stores and returns the merged review |
| MemStorage.DeleteWeeklyReview | dist/index.js:258-261 | a hard delete: it reports whether the id existed; afterwards the id is gone, the other reviews keep their insertion order, the other tables are untouched, and an unknown id changes nothing |
| Routes.RouteApi | dist/index.js:368-591 | every route that takes an id matches a non-empty, slash-free id |
| Routes.RouteApiAddress | dist/index.js:368-591 | each registered endpoint is matched back from its own method and path segments |
| Routes.RouteAddress | dist/index.js:368-591 | the router maps each endpoint's canonical request back to that endpoint |
| Routes.Handle | dist/index.js:368-596 | a schema failure answers 400; an unknown id on update or delete answers 404; anything else answers 200; a failed request or a read leaves the store unchanged; an unregistered path gets the app page |
| Routes.Dispatch | dist/index.js:368-591 | the same status promise for an endpoint already matched |
| Routes.Read | dist/index.js:424-440 | a read answers 200 and changes nothing; a lookup by date or week start answers `null` exactly when the store has no match |
| Routes.Write | dist/index.js:377-567 | every writing handler keeps the status promise |
| Routes.PostTask | dist/index.js:377-385 | 400 when the body fails the task schema, otherwise 200 with the created task |
| Routes.PutTask | dist/index.js:386-398 | 400 on a bad patch, 404 on an unknown id, otherwise 200 |
| Routes.RemoveTask | dist/index.js:399-410 | 404 on an unknown id, otherwise 200 |
| Routes.PatchCompletion | dist/index.js:411-423 | 404 on an unknown id, otherwise 200 with `isCompleted` set |
| Routes.PostDaily | dist/index.js:441-449 | 400 when the body fails the schema, otherwise 200 |
| Routes.PutDaily | dist/index.js:450-462 | 400 on a bad patch, 404 on an unknown id, otherwise 200 |
| Routes.RemoveDaily | dist/index.js:463-474 | 404 on an unknown id, otherwise 200 |
| Routes.PostReflection | dist/index.js:493-501 | 400 when the body fails the schema, otherwise 200 |
| Routes.PutReflection | dist/index.js:502-514 | 400 on a bad patch, 404 on an unknown id, otherwise 200 |
| Routes.RemoveReflection | dist/index.js:515-526 | 404 on an unknown id, otherwise 200 |
| Routes.PostReview | dist/index.js:536-544 | 400 when the body fails the schema, otherwise 200 |
| Routes.PutReview | dist/index.js:545-557 | 400 on a bad patch, 404 on an unknown id, otherwise 200 |
| Routes.RemoveReview | dist/index.js:558-569 | 404 on an unknown id, otherwise 200 |
| Routes.LogLine | dist/index.js:735-742 | only `/api` requests are logged; a line never exceeds 80 characters; a longer line keeps its first 79 characters and ends in `…` |
| Routes.FullLogLine | dist/index.js:736-739 | the untruncated line is the method, the path, the status and `in <duration>ms`, followed by ` :: ` and the body exactly when a body was sent |
| Activity.AnyKeyword | src/components/daily-journal-page.tsx:113-115 | true exactly when some keyword of the list occurs in the lower-cased title |
| Activity.CategoryOf | src/components/daily-journal-page.tsx:111-115 | the first category, in listed order, with a keyword in the lower-cased title; none exactly when no category matches |
| Activity.TemplatesFor | src/components/daily-journal-page.tsx:117-118 | the matched category's five templates, or the six defaults when nothing matches |
| Activity.Generate | src/components/daily-journal-page.tsx:18-125 | for a title without `$`, the suggestion is the picked template of the title's category with the original-case title in place of `{title}`, provided the template has no other `{`; it always contains the title |
| Activity.Fill | src/components/daily-journal-page.tsx:124 | for a title without `$` and a template with no other `{`, the result is the text before the placeholder, the title, and the text after it |
| Activity.FillExact | src/components/daily-journal-page.tsx:124 | the global replacement hits only the placeholder, so a `$`-free title lands verbatim between the two sides of the template |
| Text.ReplaceAllFromSkips | src/components/daily-journal-page.tsx:124 | a stretch of text holding no first character of the pattern is copied unchanged by `replace` |
| Activity.KeywordBoundsCategory | src/components/daily-journal-page.tsx:111-115 | a keyword of category k in the title means a category no later than k is chosen |
| Activity.TrainIsNotExercise | src/components/daily-journal-page.tsx:31-51 | "train" selects learning or an earlier category, never exercise |
| Activity.DesignIsNotMaking | src/components/daily-journal-page.tsx:61-81 | "design" selects planning or an earlier category, never making |
| Activity.DefaultFallback | src/components/daily-journal-page.tsx:102-118 | with no keyword anywhere, the six default templates are used |
| Activity.Energy | src/components/daily-journal-page.tsx:345 | a missing or zero level counts as 5 |
| Activity.BandOf | src/components/daily-journal-page.tsx:386-390 | at most 3 selects low, at least 8 selects high, and anything between selects medium |
| Activity.BandActivities | src/components/daily-journal-page.tsx:346-385 | each energy list has ten activities |
| Activity.EnergyActivity | src/components/daily-journal-page.tsx:344-392 | the chosen activity comes from the list of the level's band |
| Activity.BandMonotone | src/components/daily-journal-page.tsx:344-392 | more energy never selects a calmer list |
| DailyPage.RunLength | src/components/daily-journal-page.tsx:199-210 | the run is the longest prefix of days equal to today, today - 1, and so on |
| DailyPage.KeptByDay | src/components/daily-journal-page.tsx:190-192 | latest date first, and the same multiset as the kept-promise entries of the input |
| DailyPage.KeptByDayMembers | src/components/daily-journal-page.tsx:190-192 | every listed entry kept its promise and is an input entry; every input entry that kept its promise is listed |
| DailyPage.CalculateConsecutiveDays | src/components/daily-journal-page.tsx:188-213 | the streak is at most the number of kept promises; the first k kept entries by date fall on today, yesterday, and so on, and the next does not |
| DailyPage.RunLengthExact | src/components/daily-journal-page.tsx:199-210 | any prefix length with the consecutive-days property that stops there is the run length |
| DailyPage.SameDayStopsRun | src/components/daily-journal-page.tsx:199-210 | two kept entries on the same day end the run |
| DailyPage.NoStreakWithoutToday | src/components/daily-journal-page.tsx:188-213 | no kept promises, or a latest kept promise not today, gives a streak of 0 |
| DailyPage.InitialForm | src/components/daily-journal-page.tsx:158-184 | without a stored entry, all eleven fields take the blank defaults: energy 7, empty texts and lists, and no task, activity or completion; with one, each of the eleven fields is the entry's own |
| DailyPage.HandleSave | src/components/daily-journal-page.tsx:404-421 | nothing is sent exactly when intention and reflection are blank after trimming and energy is unset; otherwise the form goes with today's date, the suggested task and the shown activity, and nothing else changed |
| DailyPage.SaveRequest | src/components/daily-journal-page.tsx:218-225 | an existing entry is saved to its update route, a new one to the create route |
| DailyPage.AddVoiceNote | src/components/daily-journal-page.tsx:428-435 | a voice note is appended, trimmed, only when the transcript is not blank |
| DailyPage.Dictate | src/components/daily-journal-page.tsx:436-442 | dictation appends a space and the transcript to that one field and leaves every other field alone |
| DailyPage.AddPhoto | src/components/daily-journal-page.tsx:450-462 | an uploaded photo is appended and every other form field is untouched |
| DailyPage.RemovePhoto | src/components/daily-journal-page.tsx:465-469 | removing photo i drops exactly element i and keeps the rest in order; every other form field is untouched |
| DailyPage.RemoveVoiceNote | src/components/daily-journal-page.tsx:471-475 | removing voice note i drops exactly element i and keeps the rest in order; every other form field is untouched |
| DailyPage.AddThenRemovePhoto | src/components/daily-journal-page.tsx:450-469 | removing the photo just added restores the list |
| DailyPage.SuggestedTask | src/components/daily-journal-page.tsx:277-278 | the suggestion is an incomplete task, and there is none exactly when every task is complete |
| DailyPage.CurrentActivity | src/components/daily-journal-page.tsx:402 | the task activity when the task tab is chosen and one exists, the energy activity otherwise |
| DailyPage.FormEntry | src/components/daily-journal-page.tsx:235-250 | the entry built from the form has today's date and counts as kept exactly when the form says "yes" |
| DailyPage.MilestoneEntries | src/components/daily-journal-page.tsx:233-251 | corrected list: it keeps every stored entry of another day, holds nothing else from the store, and ends with the saved form, so today is counted once |
| DailyPage.MilestoneEntriesAgree | src/components/daily-journal-page.tsx:233-251 | when nothing is stored for the day, the corrected list is the list the page builds as written |
| DailyPage.ShowMilestoneAsWritten | src/components/daily-journal-page.tsx:233-258 | as written: the celebration opens exactly when the entries were fetched, the promise was kept, the streak over the fetched entries plus the form reaches 66, and it was not celebrated before |
| DailyPage.ShowMilestone | src/components/daily-journal-page.tsx:233-258 | corrected check: the same iff over the corrected list, and the same answer as the as-written check whenever the day was not stored yet |
| DailyPage.AsWrittenResaveNeverCelebrates | src/components/daily-journal-page.tsx:233-258 | as written, re-saving a day stored with its promise kept never opens the celebration |
| DailyPage.MilestoneIgnoresStoredCopy | src/components/daily-journal-page.tsx:233-251 | a stored copy of today's entry does not change what the milestone check counts |
| DailyPage.AsWrittenStreakCapped | src/components/daily-journal-page.tsx:235-252 | as written, once today's kept entry is stored, the check counts today twice and the streak is at most 1 |
| DailyPage.MilestoneCountsDuplicateDay | src/components/daily-journal-page.tsx:235-252 | on two consecutive kept days, the as-written check gives at most 1 and the corrected one gives 2 |
| Weekly.DayOfWeek | src/components/weekly-tasks-list.tsx:17 | `getDay()` on a day number: always 0 to 6 |
| Weekly.AsWrittenWeek | src/components/weekly-tasks-list.tsx:17-39 | the goal page's week contains today except on a Sunday, when it starts tomorrow |
| Weekly.WeekEndAsWritten | src/components/weekly-tasks-list.tsx:39 | the week ends six days after it starts |
| Weekly.MondayOf | src/components/reflect-and-review.tsx:33-34 | the Monday starting the week that contains today |
| Weekly.MondayUnique | src/components/reflect-and-review.tsx:33-34 | that Monday is the only Monday within six days before today |
| Weekly.SundayDisagrees | src/components/weekly-tasks-list.tsx:17 | the goal page's week start equals the Monday-anchored one exactly when today is not a Sunday |
| Weekly.GoalWeek | src/components/weekly-tasks-list.tsx:17-39 | a Monday-to-Sunday week that contains today |
| Weekly.SplitByWeek | src/components/weekly-tasks-list.tsx:35-36 | this week's goals and the others together are all goals, each once |
| Weekly.NewGoal | src/components/weekly-tasks-list.tsx:194-218 | a blank title is refused, and so is a trimmed title under 3 characters; otherwise the trimmed title and the trimmed description (or "") are sent |
| Weekly.NewGoalStored | src/components/weekly-tasks-list.tsx:194-218 | a goal that passes is stored active, not completed, with a title of at least 3 characters |
| Weekly.TouchStart | src/components/weekly-tasks-list.tsx:238-240 | a touch records where it began |
| Weekly.TouchMove | src/components/weekly-tasks-list.tsx:242-254 | the indicator shows exactly while the finger is more than 50 pixels right of the start |
| Weekly.TouchEnd | src/components/weekly-tasks-list.tsx:256-269 | completion is sent, as true, exactly when the finger travelled more than 100 pixels and the goal was open; the gesture always ends |
| Weekly.SwipeOnce | src/components/weekly-tasks-list.tsx:256-269 | a second lift without a new touch sends nothing |
| Weekly.CompleteRequest | src/components/weekly-tasks-list.tsx:169-171 | the completion request reaches the completion route of that goal |
| Weekly.TreeCounts | src/components/weekly-tasks-list.tsx:526-534 | kept promises among substantive entries, out of the substantive entries; kept never exceeds total |
| Weekly.CompletedGoals | src/components/weekly-tasks-list.tsx:535 | exactly the completed goals not deleted, in order |
| Weekly.GrowthLevel | src/components/weekly-tasks-list.tsx:536-543 | the level is 1 to 5, the least level whose fifth covers the kept share |
| Weekly.GrowthLevelEnds | src/components/weekly-tasks-list.tsx:536-543 | no kept promise gives level 1, and all promises kept gives 5 |
| Weekly.GrowthMonotone | src/components/weekly-tasks-list.tsx:536-543 | more kept promises never lower the level |
| Weekly.ReviewCounts | src/components/reflect-and-review.tsx:219-223 | the saved kept count is the entries with a kept promise or a completed activity, out of all the week's entries |
| Weekly.DisplayCounts | src/components/weekly-review.tsx:88-99 | the shown kept and total are the tree's counts (kept among substantive entries, and substantive entries); the morning and evening counts are the entries with a truthy intention or reflection |
| Weekly.BlankReview | src/components/reflect-and-review.tsx:37-48 | a fresh review form has the week's bounds, level 1, zero counts and all five texts blank |
| Weekly.ReviewForm | src/components/reflect-and-review.tsx:96-114 | with no stored review the form resets to the blank one; otherwise each of the ten fields is the stored review's, a stored null staying null |
| Weekly.ReviewPayload | src/components/weekly-review.tsx:64-78 | the saved review overrides only the three computed fields, with kept ≤ total = entries and a level of 1 to 5 |
| Weekly.ReviewPayloadLevel | src/components/reflect-and-review.tsx:218-232 | no kept promise saves level 1; all kept saves level 5 |
| Weekly.ReviewRequest | src/components/weekly-review.tsx:47-54 | an existing review is saved with PUT to its id, a new one with POST |
| JournalLog.Labelled | src/components/journal-log.tsx:123-126 | a label appears exactly for a truthy field, followed by the field's value |
| JournalLog.Present | src/components/journal-log.tsx:129 | `filter(Boolean)` keeps every truthy part and nothing else: no missing part and no empty string |
| JournalLog.PresentIsFilter | src/components/journal-log.tsx:129 | the kept parts are exactly the truthy parts in their order and with their repetitions |
| JournalLog.SummaryMentions | src/components/journal-log.tsx:122-129 | the joined summary contains every present part |
| JournalLog.DailyParts | src/components/journal-log.tsx:122-128 | six parts in fixed order: activity, reflection, follow-up and promise, each labelled and present exactly for a truthy field; "Voice notes recorded" exactly for a non-empty list; the photo count and " photo(s) attached" exactly for a non-empty list |
| JournalLog.DailySummary | src/components/journal-log.tsx:122-129 | the daily summary mentions the activity and the promise when set, and is empty when nothing is set |
| JournalLog.Clip | src/components/journal-log.tsx:169-171 | a review field shows its first 100 characters followed by "..." |
| JournalLog.ClippedPart | src/components/journal-log.tsx:169-171 | a clipped part appears exactly for a truthy field and is the label plus the clipped text, the whole text and "..." when it has at most 100 characters |
| JournalLog.ReviewSummaryBounded | src/components/journal-log.tsx:168-172 | at most three review parts, each at most 118 characters |
| JournalLog.FromDaily | src/components/journal-log.tsx:117-133 | a daily entry becomes a tagged entry with its date and itself as original |
| JournalLog.FromTask | src/components/journal-log.tsx:136-145 | a task becomes a tagged entry dated by its week start |
| JournalLog.FromReflection | src/components/journal-log.tsx:148-160 | a reflection becomes a tagged entry with its date and question; the summary is the response and the follow-up joined by a bullet, either one left out when empty |
| JournalLog.FromReview | src/components/journal-log.tsx:163-176 | a review becomes a tagged entry dated by its week start |
| JournalLog.Unify | src/components/journal-log.tsx:115-177 | one tagged entry per record, in order daily, task, reflection, review; the count is the sum of the four |
| JournalLog.Newest | src/components/journal-log.tsx:180 | the entries latest date first, each exactly once |
| JournalLog.Visible | src/components/journal-log.tsx:183-191 | an entry is shown exactly when it matches the search and the type filter; the order is kept; an empty search with "all" shows everything |
| JournalLog.KindFilter | src/components/journal-log.tsx:188 | filtering by a type name keeps exactly the entries of that kind |
| JournalLog.KindNamesDistinct | src/components/journal-log.tsx:115-177 | the four type names differ |
| JournalLog.EditFields | src/components/journal-log.tsx:194-220 | each kind has two or three editable fields |
| JournalLog.EditBuffer | src/components/journal-log.tsx:194-220 | the edit buffer holds exactly the kind's editable fields, each from the record or "" |
| JournalLog.EditField | src/components/journal-log.tsx:577-593 | typing changes one field of the buffer and keeps the others |
| JournalLog.RecoveredIdIff | src/components/journal-log.tsx:223 | the as-written recovery finds the record id exactly when the id has no `-` |
| JournalLog.StoreIdsMisrecovered | src/components/journal-log.tsx:223 | for every id the store hands out, the as-written recovery is wrong |
| JournalLog.TargetId | src/components/journal-log.tsx:420 | the record id, which the entry id carries after its type prefix |
| JournalLog.DailyEditAsWrittenMisses | src/components/journal-log.tsx:84-90 | the daily edit request as written matches no API route and reaches the app page |
| JournalLog.EditRequest | src/components/journal-log.tsx:82-91 | the corrected edit request reaches the update route of that record |
| JournalLog.DeleteRequest | src/components/journal-log.tsx:52-61 | the delete request reaches the delete route of that record |
| JournalLog.DailyEditBothHalves | src/components/journal-log.tsx:222-228 | for an id with a `-`, the as-written edit finds a wrong id and misses the API; the corrected one updates that entry |
| JournalLog.RecoveredHead | src/components/journal-log.tsx:223 | the as-written recovery yields the id's part before its first `-` |
| ReflectionPrompts.CatalogShape | src/components/reflection-prompts.tsx:24-62 | four prompts with distinct ids; only "self-promise" has yes/no texts; the others have only a follow-up |
| ReflectionPrompts.PressButton | src/components/reflection-prompts.tsx:86-95 | a button press records the answer, keeps the text or starts it empty, and touches no other prompt |
| ReflectionPrompts.WriteResponse | src/components/reflection-prompts.tsx:97-105 | typing a response changes only that prompt's response |
| ReflectionPrompts.WriteFollowUp | src/components/reflection-prompts.tsx:107-115 | typing a follow-up changes only that prompt's follow-up |
| ReflectionPrompts.WritesCommute | src/components/reflect-and-review.tsx:170-199 | edits to two different prompts do not interfere |
| ReflectionPrompts.FollowUpText | src/components/reflection-prompts.tsx:134-139 | the selected button's text when it is defined, otherwise the follow-up |
| ReflectionPrompts.CatalogFollowUps | src/components/reflection-prompts.tsx:134-139 | "self-promise" answers with the chosen button's text; the other prompts always show their follow-up |
| ReflectionPrompts.CatalogAlwaysFollowsUp | src/components/reflection-prompts.tsx:163-200 | in the catalog the follow-up area shows for every prompt once its button, if any, is chosen |
| ReflectionPrompts.ToReflection | src/components/reflection-prompts.tsx:117-128 | a draft is saved exactly when its prompt is known and its response is non-empty, with that prompt's question and today's date |
| ReflectionPrompts.SaveAll | src/components/reflection-prompts.tsx:117-132 | every draft that converts is saved; every save is for a listed known prompt with text, dated today |
| ReflectionPrompts.Converted | src/components/reflection-prompts.tsx:117-132 | each draft's conversion, in the drafts' order |
| ReflectionPrompts.SaveAllInOrder | src/components/reflection-prompts.tsx:117-132 | the saves are exactly the drafts' conversions that exist, in the drafts' order |
| ReflectionPrompts.SaveAllTraced | src/components/reflection-prompts.tsx:117-132 | one save per draft that converts, and each save is the conversion of one of the drafts |
| ReflectionPrompts.SaveDrafts | src/components/reflect-and-review.tsx:201-216 | saves only drafts in the table, dated today, and none with an empty catalog |
| ReflectionPrompts.ReviewPageSavesNothing | src/components/reflect-and-review.tsx:27 | the review page's empty catalog means nothing is ever saved |
| GrowthTree.TreeSize | src/components/growth-tree.tsx:19-25 | "small" and "large" get their own dimensions; every other size gets medium |
| GrowthTree.Maturity.Message | src/components/growth-tree.tsx:42-51 | every maturity has a non-empty message |
| GrowthTree.TreeMaturity | src/components/growth-tree.tsx:30-36 | the rank counts the month thresholds 1, 3, 6 and 12 reached |
| GrowthTree.MaturityMonotone | src/components/growth-tree.tsx:30-36 | an older tree is never less mature |
| GrowthTree.MaturityLine | src/components/growth-tree.tsx:184-188 | the message shows exactly for a positive age |
| GrowthTree.SpotAt | src/components/growth-tree.tsx:79 | item i sits at spot i modulo the table size, always in bounds |
| GrowthTree.Layout | src/components/growth-tree.tsx:61-79 | one spot per item for a positive count, none otherwise |
| GrowthTree.Flowers | src/components/growth-tree.tsx:54-103 | one flower per promise kept, none for zero, flower i at spot i mod 12 |
| GrowthTree.LeafCount | src/components/growth-tree.tsx:109 | four, plus one per three promises kept, capped at eight |
| GrowthTree.Leaves | src/components/growth-tree.tsx:106-137 | exactly `LeafCount` leaves (four to eight for a non-negative count), leaf i at spot i mod 8 |
| Welcome.Step | src/components/swipeable-welcome.tsx:94-103 | next and prev stay in range and wrap at both ends |
| Welcome.StepsInverse | src/components/swipeable-welcome.tsx:94-103 | next then prev, and prev then next, return to the page |
| Welcome.AdvanceIsModular | src/components/swipeable-welcome.tsx:81 | k forward steps land on (p + k) mod 7 |
| Welcome.FullCircle | src/components/swipeable-welcome.tsx:81 | seven steps return to the start |
| Welcome.Handle | src/components/swipeable-welcome.tsx:74-106 | a tick moves forward only while autoplaying; a press stops autoplay; each landing applies the oldest pending move |
| Welcome.Run | src/components/swipeable-welcome.tsx:74-106 | the page stays in range, and autoplay never turns back on |
| Welcome.ManualStopsAutoplay | src/components/swipeable-welcome.tsx:90-106 | after a press, no later event restarts autoplay |
| Welcome.NextThenPrev | src/components/swipeable-welcome.tsx:90-106 | pressing next, landing, pressing prev and landing restores the page |
| Welcome.ControlsOf | src/components/swipeable-welcome.tsx:136-173 | the journey steps and the begin button show only on the last page |
| Onboarding.Next | src/components/onboarding-modal.tsx:55-59 | next moves on only below the last page |
| Onboarding.Prev | src/components/onboarding-modal.tsx:61-65 | prev moves back only above the first page |
| Onboarding.NextPrevInverse | src/components/onboarding-modal.tsx:55-65 | away from the edges, next and prev undo each other |
| Onboarding.NextTimesClamps | src/components/onboarding-modal.tsx:55-59 | k presses of next reach min(p + k, last page) |
| Onboarding.ButtonsOf | src/components/onboarding-modal.tsx:113-168 | complete only on the last page, next on all others, prev disabled on the first |
| Onboarding.Complete | src/components/onboarding-modal.tsx:68-71 | completion sets the onboarding flag, leaves the milestone flag and closes |
| Milestone.Complete | src/components/sixty-six-day-milestone.tsx:37-40 | completion marks the milestone celebrated and closes |
| Milestone.HandleNext | src/components/sixty-six-day-milestone.tsx:29-35 | next moves to the following question below the last, and completes from the last |
| Milestone.Dismiss | src/components/sixty-six-day-milestone.tsx:50-52 | closing hides the modal and celebrates nothing |
| Milestone.CelebratedOnce | src/components/daily-journal-page.tsx:255-256 | once the last step completes, the milestone is never offered again |
| Milestone.ThreePressesComplete | src/components/sixty-six-day-milestone.tsx:29-40 | three presses from the first question finish the stepper |
| Milestone.DotOf | src/components/sixty-six-day-milestone.tsx:100-107 | the dot is current at the step, done before it, and pending after it |
| Milestone.Footer | src/components/sixty-six-day-milestone.tsx:126-134 | the counter shows step + 1 of 3, and the label is "Continue" until the last step |
| Home.Render | src/pages/home.tsx:60-75 | the welcome chapter, and only that one, shows the welcome carousel |
| Home.RenderInjective | src/pages/home.tsx:60-75 | each chapter has its own component |
| Home.Parse | src/pages/home.tsx:61-73 | the four named chapters are recognised, and anything else falls back to welcome |
| Home.Initial | src/pages/home.tsx:15-18 | the first chapter is goals exactly when the onboarding flag is set, welcome otherwise |
| Home.Mount | src/pages/home.tsx:23-27 | loading clears the onboarding flag and opens the modal |
| Home.OnboardingEveryLoad | src/pages/home.tsx:15-27 | onboarding shows on every load, whatever was stored |
| Home.Request | src/pages/home.tsx:31-35 | a request for the active chapter, or during a transition, is ignored; otherwise the transition starts |
| Home.Settle | src/pages/home.tsx:44-47 | the timer makes the requested chapter active and ends the transition |
| Home.RequestThenSettle | src/pages/home.tsx:31-58 | a request from a settled page shows that chapter once its timer fires |
| Home.FirstRequestWins | src/pages/home.tsx:31-58 | during a transition a second request is dropped |
| Home.CloseOnboarding | src/pages/home.tsx:84-88 | closing the modal hides it and asks for the goals chapter |
| Home.FinishOnboarding | src/pages/home.tsx:82-88 | finishing onboarding on a fresh load leads to goals with the flag stored |

## Left out

- `DatabaseStorage`, the environment-based store choice and everything SQL (dist/index.js:262-364): these are foreign calls; the store is modelled through `MemStorage` only.
- Schema parsing with zod and drizzle (dist/index.js:65-80): each parse is a `Routes.Body` field that is `None` when the parse throws.
- The 500 answers (`catch` blocks around store calls): the in-memory store never throws, so these answers cannot happen in the model.
- Express details: case-insensitive matching and URL decoding of path parameters. The `completed` field of the completion route is an optional boolean, so a body with some other JSON value is not modelled.
- Server bootstrap, Vite, static files, the health endpoints and the log function's timestamp (dist/index.js:598-767): I/O only. The log line is kept.
- React Query fetching, caching and invalidation; toasts; `apiRequest` network calls; rendering and CSS classes: I/O. Requests are modelled as the method and path they would send.
- `Math.random()`: every pick is an index parameter that must be in bounds.
- The clock, time zones and date-fns formatting: dates are day numbers, `today` is a parameter, and parsing a stored date is a function parameter. `calculateMonthsActive` (30.44-day months) is left out; `monthsActive` is a `real` parameter.
- `getTreeOpacity` (growth-tree.tsx:140-142): floating point, and it has no branching logic.
- Browser APIs: speech recognition, media queries, `FileReader` and DOM class toggling. The dictation, the photo data URL and the transcript are parameters.
- help-modal.tsx, chapter-nav.tsx, App.tsx and use-mobile.tsx: static content and plumbing.
- Lower-casing covers ASCII letters only. String lengths count code points, not UTF-16 units; the titles and texts involved are treated as such.
- weekly-review.tsx:15-17 and 19-30: the same Monday-anchored week bounds and blank form as reflect-and-review.tsx. They are modelled once, as `Weekly.MondayOf` and `Weekly.BlankReview`.
- The unused `generateActivity` in daily-journal-page.tsx (lines 280-337): it is never called.
- `generateLeaves` is modelled as `GrowthTree.Leaves`, although the component never renders it.
- `handleStartNewWeek` in weekly-review.tsx: it only shows a toast.
- MemStorage.GetAllTasks: states newest-first order and the same elements. It does not state the order among equal timestamps, which JavaScript's stable sort keeps as inserted.
- MemStorage.GetAllDailyEntries: states latest-date-first order and the same elements, not the insertion order kept among equal dates.
- MemStorage.GetAllReflections: states newest-first order and the same elements, not the insertion order kept among equal creation times.
- MemStorage.GetAllWeeklyReviews: states newest-first order and the same elements, not the insertion order kept among equal creation times.
- ReflectionPrompts.SaveAll: the saves are sent together through `Promise.all` (reflection-prompts.tsx:131, reflect-and-review.tsx:215), so the server may store them in the order they arrive. The model takes the order in which the requests are issued, which is the drafts' order.
- JournalLog.Newest: states newest-first order and the same elements, not the projection order kept among equal dates.
- JournalLog.Newest (dates): dates that `new Date` cannot parse give `NaN` in JavaScript, and comparing with `NaN` makes the sort's order implementation-defined. The model assumes every date maps to an integer.
- MemStorage.GetAllDailyEntries (dates): it sorts by `new Date(date).getTime()` (dist/index.js:146-150), which is `NaN` for a date that does not parse, so the same implementation-defined order arises. The model takes the parsed value as the integer parameter `dateValue`.
- src/components/weekly-review.tsx:40-45 passes the code that should load the stored review to `useState` as an initializer, which runs only on the first render, before the query has returned. So the stored texts never reach the form, and a save sends the blank texts with PUT. That component is never rendered: src/pages/home.tsx:69 renders ReflectAndReview, whose form the model follows (`Weekly.ReviewForm` takes the form as a parameter).
- Activity.Generate: the exact suggestion is stated for a template with no `{` beside its placeholder. Every template in the catalog is such a one, but that fact about the literal texts is not proved, since checking each character of the long literals is beyond what the solver does cheaply. Without it, the contract still states that the suggestion contains the title.
- Weekly.GrowthLevel: computed with integer ceiling division. The source computes `Math.ceil(kept / max(total, 1) * 5)` in floating point, which is assumed exact for these small counts.
- Welcome.Handle: every tick or press queues a move, and every 400 ms timeout applies one. Clearing the interval does not cancel timeouts already started, and the model keeps that. The exact timing between the interval and the timeouts is not modelled.
- DailyPage.CalculateConsecutiveDays: `toDateString` comparison in local time is a day-number comparison through `dayOf`.

## Findings

| source | as written | input that shows it | evidently intended | confidence | as-written member | corrected member |
|---|---|---|---|---|---|---|
| src/components/journal-log.tsx:223 | `entry.id.split('-')[1]` takes the segment after the first `-` as the record id | any stored record: the store's ids come from `randomUUID`, which contains `-`, so the entry id `daily-1b9d6bcd-bbfd-...` yields `1b9d6bcd` | the whole id after the type prefix, as `handleDelete` uses (line 420) | not executed | JournalLog.RecoveredIdIff, JournalLog.StoreIdsMisrecovered | JournalLog.TargetId |
| src/components/journal-log.tsx:84-90 | edits of a daily entry are sent as `PUT /api/daily-entries/:id`, but the server registers that path only for DELETE; updates live at `PUT /api/daily/:id` (dist/index.js:450) | editing any daily entry in the journal log | the edit reaches the daily update route | not executed | JournalLog.DailyEditAsWrittenMisses, JournalLog.DailyEditBothHalves | JournalLog.EditRequest |
| src/components/daily-journal-page.tsx:235-252 | the milestone check appends the saved form to all entries, including the stored copy of today's entry, so today is counted twice and the walk stops at 1 | kept entries on 2024-03-01 and 2024-03-02, saving 2024-03-02 again with "yes": streak 1 instead of 2 | each day counted once, so a 66-day run can reach the celebration | not executed | DailyPage.AsWrittenStreakCapped, DailyPage.MilestoneCountsDuplicateDay, DailyPage.ShowMilestoneAsWritten, DailyPage.AsWrittenResaveNeverCelebrates | DailyPage.MilestoneEntries, DailyPage.ShowMilestone |
| src/components/weekly-tasks-list.tsx:17 | the week starts at `today - getDay() + 1`, which on a Sunday (`getDay() == 0`) is tomorrow | any Sunday: the goal week starts the next day and does not contain today | the Monday-anchored week that contains today, as the review pages compute with `startOfWeek(..., { weekStartsOn: 1 })` | not executed | Weekly.AsWrittenWeek, Weekly.SundayDisagrees | Weekly.GoalWeek |

=== FILE: activity.dfy ===
/** The ten-minute activity suggestions of the daily page: the keyword
    categories that turn a goal title into a concrete first step, and the
    energy-level lists used when no goal is suggested. The random choice
    is an index `pick` that the caller draws within bounds. */
module Activity {
  import opened Wrappers
  import opened Text

  const Placeholder := "{title}"

  /** A template with one `{title}` placeholder, held as the text around it. */
  datatype Template = Template(before: string, after: string) {
    function Text(): string {
      before + Placeholder + after
    }
  }

  datatype Category = Category(name: string, keywords: seq<string>, templates: seq<Template>)

  /** The categories in the order they are tried. */
  const Categories: seq<Category> := [
    Category("writing",
      ["write", "writing", "blog", "article", "story", "book", "chapter", "journal", "draft", "manuscript"],
      [ Template("Set up your writing space and write the opening paragraph of \"", "\""),
        Template("Outline the main points for \"", "\" - spend 10 minutes brainstorming key ideas"),
        Template("Write for 10 minutes on \"", "\" - focus on getting thoughts down, not perfection"),
        Template("Review and edit the first draft of \"", "\" for clarity and flow"),
        Template("Create a quick outline or structure for \"", "\" in 10 minutes")]),
    Category("learning",
      ["learn", "study", "practice", "skill", "course", "tutorial", "train", "master", "understand"],
      [ Template("Spend 10 minutes learning the basics of \"", "\""),
        Template("Practice one fundamental aspect of \"", "\" for 10 minutes"),
        Template("Watch a short tutorial or read an article about \"", "\""),
        Template("Take notes on the key concepts of \"", "\" for 10 minutes"),
        Template("Review and practice the most challenging part of \"", "\" for 10 minutes")]),
    Category("organizing",
      ["organize", "clean", "declutter", "tidy", "sort", "arrange", "file", "categorize"],
      [ Template("Spend 10 minutes organizing one area related to \"", "\""),
        Template("Sort through items for \"", "\" - decide what to keep, donate, or discard"),
        Template("Create a system for organizing materials needed for \"", "\""),
        Template("Tidy up the space where you'll work on \"", "\""),
        Template("Categorize and arrange everything you need for \"", "\" in 10 minutes")]),
    Category("exercise",
      ["exercise", "workout", "fitness", "run", "walk", "yoga", "stretch", "movement", "train"],
      [ Template("Do 10 minutes of \"", "\" - start with gentle movements"),
        Template("Prepare for \"", "\" by setting out gear and planning your routine"),
        Template("Practice basic movements or stretches for \"", "\""),
        Template("Take a 10-minute walk while thinking about your \"", "\" goals"),
        Template("Warm up and do the first 10 minutes of \"", "\" routine")]),
    Category("planning",
      ["plan", "schedule", "prepare", "research", "design", "strategy", "outline"],
      [ Template("Research \"", "\" for 10 minutes - gather initial information"),
        Template("Create a simple plan or timeline for \"", "\""),
        Template("List the first 3 steps you need to take for \"", "\""),
        Template("Spend 10 minutes preparing materials or resources for \"", "\""),
        Template("Design a basic strategy or approach for \"", "\" in 10 minutes")]),
    Category("communication",
      ["call", "contact", "email", "reach", "connect", "communicate", "message"],
      [ Template("Draft the key points for your \"", "\" conversation in 10 minutes"),
        Template("Prepare what you want to say for \"", "\" - write down main points"),
        Template("Research the person or organization for \"", "\" for 10 minutes"),
        Template("Set up your space and mindset for \"", "\" call or meeting"),
        Template("Practice or rehearse what you'll say for \"", "\" in 10 minutes")]),
    Category("making",
      ["create", "make", "build", "develop", "design", "craft", "produce"],
      [ Template("Spend 10 minutes sketching or brainstorming ideas for \"", "\""),
        Template("Gather materials and set up your workspace for \"", "\""),
        Template("Create the first element or component of \"", "\" in 10 minutes"),
        Template("Design a rough prototype or mockup for \"", "\""),
        Template("Make one small piece of \"", "\" - focus on starting, not finishing")]),
    Category("reading",
      ["read", "review", "analyze", "study", "examine", "explore"],
      [ Template("Read for 10 minutes about \"", "\" - focus on understanding basics"),
        Template("Review and take notes on key information about \"", "\""),
        Template("Analyze one aspect of \"", "\" that you find most interesting"),
        Template("Explore different perspectives or approaches to \"", "\" for 10 minutes"),
        Template("Study the most important element of \"", "\" in depth")])
  ]

  const DefaultTemplates: seq<Template> := [
    Template("Take the first small step toward \"", "\" - just 10 minutes of focused action"),
    Template("Prepare or gather what you need to begin \"", "\""),
    Template("Spend 10 minutes thinking about and planning your approach to \"", "\""),
    Template("Start \"", "\" with one simple, manageable action for 10 minutes"),
    Template("Break \"", "\" into smaller pieces and work on the first one for 10 minutes"),
    Template("Set up your environment and mindset for success with \"", "\"")
  ]

  const LowEnergyActivities: seq<string> := [
    "Take 10 minutes for gentle breathing and grounding yourself in the present moment",
    "Spend 10 minutes in quiet gratitude reflection, noticing small joys around you",
    "Use 10 minutes for gentle stretching or simply sitting with awareness of your body",
    "Take 10 minutes to tidy one small area while moving slowly and mindfully",
    "Dedicate 10 minutes to meditation or simply watching your breath",
    "Spend 10 minutes sitting by a window or outside, observing nature quietly",
    "Use 10 minutes for gentle self-compassion and soothing inner dialogue",
    "Take 10 minutes to rest and visualize a peaceful, safe space",
    "Spend 10 minutes doing something very gentle and creative - doodling, humming",
    "Use 10 minutes for a quiet, gentle connection with yourself through journaling"
  ]

  const HighEnergyActivities: seq<string> := [
    "Take 10 minutes for energizing breathwork and setting powerful intentions",
    "Spend 10 minutes writing down ambitious goals and excitement for the day",
    "Use 10 minutes for dynamic movement - stretching, dancing, or walking briskly",
    "Take 10 minutes to organize and optimize your space for peak productivity",
    "Dedicate 10 minutes to focused visualization of achieving your biggest dreams",
    "Spend 10 minutes on an energizing walk or outdoor movement",
    "Use 10 minutes for confident affirmations and self-empowerment practices",
    "Take 10 minutes to brainstorm creative solutions or new possibilities",
    "Spend 10 minutes on an energizing creative activity - sketching, writing, planning",
    "Use 10 minutes to reach out and inspire or connect meaningfully with someone"
  ]

  const MediumEnergyActivities: seq<string> := [
    "Take 10 minutes for mindful breathing and gentle intention setting",
    "Spend 10 minutes journaling about what you're grateful for today",
    "Use 10 minutes to stretch your body and check in with how you feel",
    "Take 10 minutes to organize your space mindfully and with purpose",
    "Dedicate 10 minutes to sitting quietly and observing your thoughts",
    "Spend 10 minutes walking mindfully, either indoors or outside",
    "Use 10 minutes to practice self-compassion and kind inner dialogue",
    "Take 10 minutes to visualize your ideal self and how that feels",
    "Spend 10 minutes doing something creative just for the joy of it",
    "Use 10 minutes to connect with someone you care about"
  ]

  // ------------------------------------------------ keyword categories

  /** Some keyword occurs in the lower-cased title. */
  function AnyKeyword(lower: string, keywords: seq<string>): (b: bool)
    ensures b <==> exists k :: 0 <= k < |keywords| && Contains(lower, keywords[k])
  {
    if |keywords| == 0 then false
    else if Contains(lower, keywords[0]) then true
    else
      var rest := AnyKeyword(lower, keywords[1..]);
      assert rest <==> exists k :: 1 <= k < |keywords| && Contains(lower, keywords[k]) by {
        if rest {
          var k :| 0 <= k < |keywords[1..]| && Contains(lower, keywords[1..][k]);
          assert keywords[k + 1] == keywords[1..][k];
        }
        if exists k :: 1 <= k < |keywords| && Contains(lower, keywords[k]) {
          var k :| 1 <= k < |keywords| && Contains(lower, keywords[k]);
          assert keywords[1..][k - 1] == keywords[k];
        }
      }
      rest
  }

  predicate Matches(lower: string, i: nat)
    requires i < |Categories|
  {
    AnyKeyword(lower, Categories[i].keywords)
  }

  /** The first category at or after `i` with a keyword in `lower`. */
  function FirstCategoryFrom(lower: string, i: nat): (r: Option<nat>)
    requires i <= |Categories|
    ensures r.Some? ==> i <= r.value < |Categories| && Matches(lower, r.value)
    ensures r.Some? ==> forall j :: i <= j < r.value ==> !Matches(lower, j)
    ensures r.None? ==> forall j :: i <= j < |Categories| ==> !Matches(lower, j)
    decreases |Categories| - i
  {
    if i == |Categories| then None
    else if Matches(lower, i) then Some(i)
    else FirstCategoryFrom(lower, i + 1)
  }

  /** The index of the category the title falls in, if any. */
  function CategoryOf(title: string): (r: Option<nat>)
    ensures r.Some? ==> r.value < |Categories| && Matches(ToLower(title), r.value)
    ensures r.Some? ==> forall j :: 0 <= j < r.value ==> !Matches(ToLower(title), j)
    ensures r.None? <==> forall j :: 0 <= j < |Categories| ==> !Matches(ToLower(title), j)
  {
    var r := FirstCategoryFrom(ToLower(title), 0);
    assert r.Some? ==> Matches(ToLower(title), r.value);
    r
  }

  /** The templates for the title: its category's, or the defaults. */
  function TemplatesFor(title: string): (ts: seq<Template>)
    ensures CategoryOf(title).None? ==> ts == DefaultTemplates
    ensures CategoryOf(title).Some? ==> ts == Categories[CategoryOf(title).value].templates
    ensures |ts| == 5 || |ts| == 6
  {
    var c := CategoryOf(title);
    if c.Some? then Categories[c.value].templates else DefaultTemplates
  }

  /** `generateTenMinuteActivity(title)` with the random index `pick`: the
      chosen template with every `{title}` replaced (as `String.replace`
      with a global pattern does, `$` patterns included) by the title. */
  function Generate(title: string, pick: nat): (r: string)
    requires pick < |TemplatesFor(title)|
    ensures '$' !in title ==> Contains(r, title)
    ensures var t := TemplatesFor(title)[pick];
      '$' !in title && BraceFree(t) ==> r == t.before + title + t.after
  {
    Fill(TemplatesFor(title)[pick], title)
  }

  /** The template text with every placeholder replaced by `title`. */
  function Fill(t: Template, title: string): (r: string)
    ensures '$' !in title ==> Contains(r, title)
    ensures '$' !in title && BraceFree(t) ==> r == t.before + title + t.after
  {
    var text := t.Text();
    assert text[|t.before|..|t.before| + |Placeholder|] == Placeholder;
    assert '$' !in title ==> Contains(ReplaceAll(text, Placeholder, title), title) by {
      if '$' !in title {
        ReplaceAllFromInserts(text, 0, Placeholder, title, |t.before|);
      }
    }
    assert '$' !in title && BraceFree(t) ==>
      ReplaceAll(text, Placeholder, title) == t.before + title + t.after by {
      if '$' !in title && BraceFree(t) {
        FillExact(t, title);
      }
    }
    ReplaceAll(text, Placeholder, title)
  }

  /** Neither side of the placeholder holds a `{`, so the placeholder is
      the only match of the pattern. */
  predicate BraceFree(t: Template) {
    '{' !in t.before && '{' !in t.after
  }

  /** A brace-free template filled with a `$`-free title is the title with
      the template's text on either side. */
  lemma FillExact(t: Template, title: string)
    requires BraceFree(t) && '$' !in title
    ensures ReplaceAll(t.Text(), Placeholder, title) == t.before + title + t.after
  {
    var s := t.Text();
    var b := |t.before|;
    var e := b + |Placeholder|;
    assert s[..b] == t.before && s[b..e] == Placeholder && s[e..] == t.after;
    ReplaceAllFromSkips(s, 0, b, Placeholder, title);
    assert StartsWith(s[b..], Placeholder);
    SubstitutionLiteral(title, Placeholder, s[..b], s[e..]);
    ReplaceAllFromSkips(s, e, |s|, Placeholder, title);
    assert s[e..|s|] == t.after;
  }

  /** A title whose category is found by a keyword in category `k`
      belongs to category `k` or an earlier one. */
  lemma {:induction false} KeywordBoundsCategory(title: string, k: nat, w: nat)
    requires k < |Categories| && w < |Categories[k].keywords|
    requires Contains(ToLower(title), Categories[k].keywords[w])
    ensures CategoryOf(title).Some? && CategoryOf(title).value <= k
  {
    assert Matches(ToLower(title), k);
  }

  /** "train" is a learning keyword (category 1) and an exercise keyword
      (category 3); learning is tried first, so exercise never wins. */
  lemma TrainIsNotExercise(title: string)
    requires Contains(ToLower(title), "train")
    ensures CategoryOf(title).Some? && CategoryOf(title).value <= 1
    ensures Categories[1].name == "learning" && Categories[3].name == "exercise"
  {
    assert Categories[1].keywords[6] == "train";
    KeywordBoundsCategory(title, 1, 6);
  }

  /** "design" is a planning keyword (category 4) and a making keyword
      (category 6); planning is tried first. */
  lemma DesignIsNotMaking(title: string)
    requires Contains(ToLower(title), "design")
    ensures CategoryOf(title).Some? && CategoryOf(title).value <= 4
    ensures Categories[4].name == "planning" && Categories[6].name == "making"
  {
    assert Categories[4].keywords[4] == "design";
    KeywordBoundsCategory(title, 4, 4);
  }

  /** Every template has its placeholder, so every suggestion for a title
      without `$` names the title; with no matching keyword, one of the six
      defaults is used. */
  lemma DefaultFallback(title: string)
    requires forall k :: 0 <= k < |Categories| ==> !Matches(ToLower(title), k)
    ensures TemplatesFor(title) == DefaultTemplates && |DefaultTemplates| == 6
  {
  }

  // ------------------------------------------------------ energy bands

  datatype Band = Low | Medium | High

  /** `energyLevel || 5`. */
  function Energy(level: Option<int>): (e: int)
    ensures level.None? || level.value == 0 ==> e == 5
    ensures level.Some? && level.value != 0 ==> e == level.value
  {
    if level.Some? && level.value != 0 then level.value else 5
  }

  function BandOf(level: Option<int>): (b: Band)
    ensures b == Low <==> Energy(level) <= 3
    ensures b == High <==> Energy(level) >= 8
    ensures b == Medium <==> 3 < Energy(level) < 8
  {
    var e := Energy(level);
    if e <= 3 then Low else if e >= 8 then High else Medium
  }

  function BandActivities(b: Band): (r: seq<string>)
    ensures |r| == 10
  {
    match b
    case Low => LowEnergyActivities
    case Medium => MediumEnergyActivities
    case High => HighEnergyActivities
  }

  /** The energy-based suggestion shown when no goal activity applies. */
  function EnergyActivity(level: Option<int>, pick: nat): (r: string)
    requires pick < 10
    ensures r in BandActivities(BandOf(level))
  {
    BandActivities(BandOf(level))[pick]
  }

  function Rank(b: Band): nat {
    match b
    case Low => 0
    case Medium => 1
    case High => 2
  }

  /** More energy never selects a calmer list; an unset or zero level is
      treated as the middle of the scale. */
  lemma BandMonotone(a: int, b: int)
    requires a != 0 && b != 0 && a <= b
    ensures Rank(BandOf(Some(a))) <= Rank(BandOf(Some(b)))
    ensures BandOf(None) == Medium && BandOf(Some(0)) == Medium
  {
  }
}

=== FILE: daily.dfy ===
/** The daily journal page: the consecutive-days streak, the 66-day
    milestone check, save validation and the edits to the entry's photo and
    voice-note lists. Dates are day numbers: `dayOf(date)` is the day of a
    `YYYY-MM-DD` string, `today` the current day. */
module DailyPage {
  import opened Wrappers
  import opened Seqs
  import opened Sorting
  import opened Text
  import opened Records
  import Activity
  import Routes

  // ------------------------------------------------------------- streak

  predicate KeptPromise(e: DailyEntry) {
    e.promiseKept == Some("yes")
  }

  /** Length of the longest prefix of `days` that reads today, today-1, ... */
  function RunLength(days: seq<int>, today: int): (k: nat)
    ensures k <= |days|
    ensures forall i :: 0 <= i < k ==> days[i] == today - i
    ensures k < |days| ==> days[k] != today - k
  {
    if |days| == 0 || days[0] != today then 0
    else
      var k := RunLength(days[1..], today - 1);
      assert forall i :: 1 <= i < k + 1 ==> days[i] == today - i by {
        forall i | 1 <= i < k + 1 ensures days[i] == today - i {
          assert days[i] == days[1..][i - 1];
        }
      }
      k + 1
  }

  function DayKey(dayOf: string -> int): DailyEntry -> int {
    (e: DailyEntry) => dayOf(e.date)
  }

  /** The kept-promise entries, latest day first. */
  function KeptByDay(entries: seq<DailyEntry>, dayOf: string -> int): (r: seq<DailyEntry>)
    ensures SortedDesc(r, DayKey(dayOf))
    ensures |r| == Count(entries, KeptPromise)
    ensures multiset(r) == multiset(Filter(entries, KeptPromise))
  {
    SortDesc(Filter(entries, KeptPromise), DayKey(dayOf))
  }

  /** The newest-first list holds exactly the kept-promise entries. */
  lemma KeptByDayMembers(entries: seq<DailyEntry>, dayOf: string -> int)
    ensures var r := KeptByDay(entries, dayOf);
      && (forall i :: 0 <= i < |r| ==> KeptPromise(r[i]) && r[i] in entries)
      && (forall i :: 0 <= i < |entries| && KeptPromise(entries[i]) ==> entries[i] in r)
  {
    var kept := Filter(entries, KeptPromise);
    var r := KeptByDay(entries, dayOf);
    forall i | 0 <= i < |r| ensures KeptPromise(r[i]) && r[i] in entries {
      assert r[i] in multiset(kept);
    }
    forall i | 0 <= i < |entries| && KeptPromise(entries[i]) ensures entries[i] in r {
      assert entries[i] in multiset(r);
    }
  }

  function Days(es: seq<DailyEntry>, dayOf: string -> int): (ds: seq<int>)
    ensures |ds| == |es|
    ensures forall i :: 0 <= i < |es| ==> ds[i] == dayOf(es[i].date)
  {
    seq(|es|, i requires 0 <= i < |es| => dayOf(es[i].date))
  }

  /** The streak as a function of the entries. */
  function Streak(entries: seq<DailyEntry>, today: int, dayOf: string -> int): nat {
    RunLength(Days(KeptByDay(entries, dayOf), dayOf), today)
  }

  /** A prefix that reads today, today-1, ... and then stops is the run. */
  lemma {:induction false} RunLengthExact(days: seq<int>, today: int, k: nat)
    requires k <= |days|
    requires forall j :: 0 <= j < k ==> days[j] == today - j
    requires k < |days| ==> days[k] != today - k
    ensures RunLength(days, today) == k
    decreases k
  {
    if k > 0 {
      assert days[0] == today;
      forall j | 0 <= j < k - 1 ensures days[1..][j] == (today - 1) - j {
        assert days[j + 1] == today - (j + 1);
      }
      if k - 1 < |days[1..]| {
        assert days[1..][k - 1] == days[k];
      }
      RunLengthExact(days[1..], today - 1, k - 1);
    }
  }

  /** `calculateConsecutiveDays`: walks the kept-promise entries, latest
      first, and counts while each falls on the expected day. */
  method CalculateConsecutiveDays(entries: seq<DailyEntry>, today: int, dayOf: string -> int)
    returns (k: nat)
    ensures k <= Count(entries, KeptPromise)
    ensures var sorted := KeptByDay(entries, dayOf);
      && (forall i :: 0 <= i < k ==> dayOf(sorted[i].date) == today - i)
      && (k < |sorted| ==> dayOf(sorted[k].date) != today - k)
    ensures k == Streak(entries, today, dayOf)
  {
    var sorted := KeptByDay(entries, dayOf);
    k := 0;
    while k < |sorted| && dayOf(sorted[k].date) == today - k
      invariant k <= |sorted|
      invariant forall j :: 0 <= j < k ==> dayOf(sorted[j].date) == today - j
    {
      k := k + 1;
    }
    RunLengthExact(Days(sorted, dayOf), today, k);
  }

  /** Two kept-promise entries on the same day end the run there. */
  lemma SameDayStopsRun(days: seq<int>, today: int, i: nat)
    requires i + 1 < |days| && days[i] == days[i + 1]
    ensures RunLength(days, today) <= i + 1
  {
  }

  /** No streak unless the latest kept promise is today. */
  lemma NoStreakWithoutToday(entries: seq<DailyEntry>, today: int, dayOf: string -> int)
    requires var s := KeptByDay(entries, dayOf); |s| == 0 || dayOf(s[0].date) != today
    ensures Streak(entries, today, dayOf) == 0
  {
  }

  // ----------------------------------------------------------- the form

  /** The page's form state (`Partial<InsertDailyEntry>`). */
  datatype Form = Form(
    date: string,
    morningIntention: Option<string>,
    energyLevel: Option<int>,
    suggestedTaskId: Option<Id>,
    tenMinuteActivity: Option<string>,
    activityCompleted: Option<bool>,
    eveningReflection: Option<string>,
    promiseKept: Option<string>,
    followUpResponse: Option<string>,
    photos: Option<seq<string>>,
    voiceNotes: Option<seq<string>>)

  /** The form shown for `date`: the stored entry's fields, or the blank
      defaults (energy 7, empty texts and lists). */
  function InitialForm(entry: Option<DailyEntry>, date: string): (f: Form)
    ensures entry.None? ==> && f.date == date && f.morningIntention == Some("")
                            && f.energyLevel == Some(7) && f.suggestedTaskId.None?
                            && f.tenMinuteActivity.None? && f.activityCompleted.None?
                            && f.eveningReflection == Some("") && f.promiseKept == Some("")
                            && f.followUpResponse == Some("") && f.photos == Some([])
                            && f.voiceNotes == Some([])
    ensures entry.Some? ==> && f.date == entry.value.date
                            && f.morningIntention == entry.value.morningIntention
                            && f.energyLevel == entry.value.energyLevel
                            && f.suggestedTaskId == entry.value.suggestedTaskId
                            && f.tenMinuteActivity == entry.value.tenMinuteActivity
                            && f.activityCompleted == entry.value.activityCompleted
                            && f.eveningReflection == entry.value.eveningReflection
                            && f.promiseKept == entry.value.promiseKept
                            && f.followUpResponse == entry.value.followUpResponse
                            && f.photos == entry.value.photos
                            && f.voiceNotes == entry.value.voiceNotes
  {
    if entry.Some? then
      var e := entry.value;
      Form(e.date, e.morningIntention, e.energyLevel, e.suggestedTaskId, e.tenMinuteActivity,
           e.activityCompleted, e.eveningReflection, e.promiseKept, e.followUpResponse,
           e.photos, e.voiceNotes)
    else
      Form(date, Some(""), Some(7), None, None, None, Some(""), Some(""), Some(""), Some([]), Some([]))
  }

  /** A text field is blank when it is missing or only whitespace. */
  predicate Blank(t: Option<string>) {
    t.None? || IsBlank(t.value)
  }

  /** An energy level is falsy when missing or zero. */
  predicate NoEnergy(level: Option<int>) {
    level.None? || level.value == 0
  }

  /** `handleSave`: `None` when there is nothing to save, else the body sent
      with the date, the suggested goal and the activity shown. */
  function HandleSave(f: Form, date: string, suggested: Option<Task>, activity: string): (r: Option<Form>)
    ensures r.None? <==> Blank(f.morningIntention) && Blank(f.eveningReflection) && NoEnergy(f.energyLevel)
    ensures r.Some? ==> r.value.date == date && r.value.tenMinuteActivity == Some(activity)
    ensures r.Some? ==> r.value.suggestedTaskId == (if suggested.Some? then Some(suggested.value.id) else None)
    ensures r.Some? ==> r.value.(date := f.date, suggestedTaskId := f.suggestedTaskId,
                                 tenMinuteActivity := f.tenMinuteActivity) == f
  {
    if Blank(f.morningIntention) && Blank(f.eveningReflection) && NoEnergy(f.energyLevel) then None
    else Some(f.(date := date,
                 suggestedTaskId := if suggested.Some? then Some(suggested.value.id) else None,
                 tenMinuteActivity := Some(activity)))
  }

  /** Where a save goes: the existing entry is updated in place, otherwise
      a new entry is created. */
  function SaveRequest(existing: Option<DailyEntry>): (r: (Routes.Method, string))
    ensures existing.Some? && Routes.Param(existing.value.id) ==>
      Routes.Route(r.0, r.1) == Routes.UpdateDaily(existing.value.id)
    ensures existing.None? ==> Routes.Route(r.0, r.1) == Routes.CreateDaily
  {
    if existing.Some? then
      var e := Routes.UpdateDaily(existing.value.id);
      if Routes.Param(existing.value.id) then Routes.RouteAddress(e); (Routes.PUT, Routes.PathOf(["daily", existing.value.id]))
      else (Routes.PUT, Routes.PathOf(["daily", existing.value.id]))
    else
      Routes.RouteAddress(Routes.CreateDaily);
      (Routes.POST, Routes.PathOf(["daily"]))
  }

  // ------------------------------------------------- photo and voice notes

  function List(xs: Option<seq<string>>): seq<string> {
    if xs.Some? then xs.value else []
  }

  /** A finished voice note is kept only when its trimmed text is non-empty. */
  function AddVoiceNote(f: Form, transcript: string): (g: Form)
    ensures IsBlank(transcript) ==> g == f
    ensures !IsBlank(transcript) ==> g == f.(voiceNotes := Some(List(f.voiceNotes) + [Trim(transcript)]))
    ensures !IsBlank(transcript) ==> Trim(transcript) != "" && Trim(transcript) in List(g.voiceNotes)
  {
    var note := Trim(transcript);
    if note != "" then f.(voiceNotes := Some(List(f.voiceNotes) + [note])) else f
  }

  datatype TextField = MorningIntention | EveningReflection | FollowUpResponse

  function Get(f: Form, field: TextField): Option<string> {
    match field
    case MorningIntention => f.morningIntention
    case EveningReflection => f.eveningReflection
    case FollowUpResponse => f.followUpResponse
  }

  /** Dictation into a text field appends a space and the transcript to the
      field's text (an empty or missing field counts as `''`); nothing else
      changes. */
  function Dictate(f: Form, field: TextField, transcript: string): (g: Form)
    ensures Get(g, field) == Some(List1(Get(f, field)) + " " + transcript)
    ensures forall other :: other != field ==> Get(g, other) == Get(f, other)
    ensures g.photos == f.photos && g.voiceNotes == f.voiceNotes && g.energyLevel == f.energyLevel
    ensures g.(morningIntention := f.morningIntention, eveningReflection := f.eveningReflection,
               followUpResponse := f.followUpResponse) == f
  {
    var text := Some(List1(Get(f, field)) + " " + transcript);
    match field
    case MorningIntention => f.(morningIntention := text)
    case EveningReflection => f.(eveningReflection := text)
    case FollowUpResponse => f.(followUpResponse := text)
  }

  function List1(t: Option<string>): string {
    if t.Some? then t.value else ""
  }

  function AddPhoto(f: Form, data: string): (g: Form)
    ensures List(g.photos) == List(f.photos) + [data]
    ensures g.(photos := f.photos) == f
  {
    f.(photos := Some(List(f.photos) + [data]))
  }

  /** Removing photo `i` deletes exactly that photo and keeps the rest in
      order; an index past the end changes nothing. */
  function RemovePhoto(f: Form, i: nat): (g: Form)
    ensures g.photos.Some? && g.(photos := f.photos) == f
    ensures g.photos.value == RemoveAt(List(f.photos), i)
    ensures i < |List(f.photos)| ==> |g.photos.value| == |List(f.photos)| - 1
  {
    f.(photos := Some(RemoveAt(List(f.photos), i)))
  }

  function RemoveVoiceNote(f: Form, i: nat): (g: Form)
    ensures g.voiceNotes.Some? && g.(voiceNotes := f.voiceNotes) == f
    ensures g.voiceNotes.value == RemoveAt(List(f.voiceNotes), i)
    ensures i < |List(f.voiceNotes)| ==> |g.voiceNotes.value| == |List(f.voiceNotes)| - 1
  {
    f.(voiceNotes := Some(RemoveAt(List(f.voiceNotes), i)))
  }

  /** Adding a photo and then removing it again restores the list. */
  lemma AddThenRemovePhoto(f: Form, data: string)
    ensures List(RemovePhoto(AddPhoto(f, data), |List(f.photos)|).photos) == List(f.photos)
  {
    var xs := List(f.photos);
    var ys := RemoveAt(xs + [data], |xs|);
    assert ys == xs;
  }

  // ------------------------------------------------- the shown activity

  predicate Incomplete(t: Task) {
    t.isCompleted != Some(true)
  }

  /** The goal suggested today: a random incomplete task, if any. */
  function SuggestedTask(tasks: seq<Task>, pick: nat): (r: Option<Task>)
    requires |Filter(tasks, Incomplete)| == 0 || pick < |Filter(tasks, Incomplete)|
    ensures r.None? <==> forall i :: 0 <= i < |tasks| ==> !Incomplete(tasks[i])
    ensures r.Some? ==> Incomplete(r.value) && r.value in tasks
  {
    var open := Filter(tasks, Incomplete);
    if |open| == 0 then None else Some(open[pick])
  }

  datatype ActivityType = TaskActivity | EnergyActivity

  /** The tab shows the goal activity when that tab is selected and a goal
      activity exists; otherwise the energy activity. */
  function CurrentActivity(kind: ActivityType, taskActivity: Option<string>, energyActivity: string): (r: string)
    ensures kind == TaskActivity && taskActivity.Some? ==> r == taskActivity.value
    ensures kind == EnergyActivity || taskActivity.None? ==> r == energyActivity
  {
    if kind == TaskActivity && taskActivity.Some? then taskActivity.value else energyActivity
  }

  // ------------------------------------------------------ milestone check

  /** The entry the save handler appends for the streak check. */
  function FormEntry(f: Form, date: string): (e: DailyEntry)
    ensures e.date == date && KeptPromise(e) == (f.promiseKept == Some("yes"))
  {
    DailyEntry("", date, f.morningIntention, f.energyLevel, f.suggestedTaskId,
               f.tenMinuteActivity, None, f.eveningReflection,
               if f.promiseKept == Some("") then None else f.promiseKept,
               f.followUpResponse, f.photos, f.voiceNotes, 0)
  }

  /** As written: the saved form is appended to every entry fetched before
      the save, including the stored copy of the same day. */
  function MilestoneEntriesAsWritten(all: seq<DailyEntry>, f: Form, date: string): seq<DailyEntry> {
    all + [FormEntry(f, date)]
  }

  /** Corrected: the saved form replaces the stored entries for its day;
      every entry of another day is kept. */
  function MilestoneEntries(all: seq<DailyEntry>, f: Form, date: string): (r: seq<DailyEntry>)
    ensures 0 < |r| <= |all| + 1
    ensures r[|r| - 1] == FormEntry(f, date)
    ensures forall i :: 0 <= i < |r| - 1 ==> r[i].date != date && r[i] in all
    ensures forall i :: 0 <= i < |all| && all[i].date != date ==> all[i] in r
  {
    Filter(all, (e: DailyEntry) => e.date != date) + [FormEntry(f, date)]
  }

  /** With no stored entry for the day, the corrected list is the list the
      page builds as written. */
  lemma {:induction false} MilestoneEntriesAgree(all: seq<DailyEntry>, f: Form, date: string)
    requires forall i :: 0 <= i < |all| ==> all[i].date != date
    ensures MilestoneEntries(all, f, date) == MilestoneEntriesAsWritten(all, f, date)
  {
    FilterKeepsAll(all, (e: DailyEntry) => e.date != date);
  }

  /** As written: the celebration opens when a save keeps the promise, the
      streak over the fetched entries plus the saved form reaches 66 and
      the milestone has not been celebrated. */
  function ShowMilestoneAsWritten(all: Option<seq<DailyEntry>>, f: Form, date: string, today: int,
                                  dayOf: string -> int, celebrated: bool): (show: bool)
    ensures show <==> && all.Some? && f.promiseKept == Some("yes") && !celebrated
                      && Streak(MilestoneEntriesAsWritten(all.value, f, date), today, dayOf) >= 66
  {
    all.Some? && f.promiseKept == Some("yes") && !celebrated
    && Streak(MilestoneEntriesAsWritten(all.value, f, date), today, dayOf) >= 66
  }

  /** Corrected: the same check over the list in which the saved form
      replaces the day's stored copy. */
  function ShowMilestone(all: Option<seq<DailyEntry>>, f: Form, date: string, today: int,
                         dayOf: string -> int, celebrated: bool): (show: bool)
    ensures show <==> && all.Some? && f.promiseKept == Some("yes") && !celebrated
                      && Streak(MilestoneEntries(all.value, f, date), today, dayOf) >= 66
    ensures all.Some? && (forall i :: 0 <= i < |all.value| ==> all.value[i].date != date) ==>
      show == ShowMilestoneAsWritten(all, f, date, today, dayOf, celebrated)
  {
    if all.Some? && forall i :: 0 <= i < |all.value| ==> all.value[i].date != date then
      MilestoneEntriesAgree(all.value, f, date);
      all.Some? && f.promiseKept == Some("yes") && !celebrated
      && Streak(MilestoneEntries(all.value, f, date), today, dayOf) >= 66
    else
      all.Some? && f.promiseKept == Some("yes") && !celebrated
      && Streak(MilestoneEntries(all.value, f, date), today, dayOf) >= 66
  }

  /** As written, re-saving a day already stored with its promise kept
      never opens the celebration, however long the real run is. */
  lemma AsWrittenResaveNeverCelebrates(all: seq<DailyEntry>, e: DailyEntry, f: Form, date: string,
                                       today: int, dayOf: string -> int, celebrated: bool)
    requires e in all && KeptPromise(e) && e.date == date && e.id != ""
    requires dayOf(date) == today
    ensures !ShowMilestoneAsWritten(Some(all), f, date, today, dayOf, celebrated)
  {
    if f.promiseKept == Some("yes") {
      AsWrittenStreakCapped(all, e, f, date, today, dayOf);
    }
  }

  /** Re-saving a day makes the corrected check independent of whether the
      day was already stored. */
  lemma {:induction false} MilestoneIgnoresStoredCopy(all: seq<DailyEntry>, stored: DailyEntry, f: Form, date: string)
    requires stored.date == date
    ensures MilestoneEntries(all + [stored], f, date) == MilestoneEntries(all, f, date)
  {
    var p := (e: DailyEntry) => e.date != date;
    FilterAppend(all, [stored], p);
    assert Filter([stored], p) == [];
  }

  function SampleDay(d: string): int {
    if d == "2024-03-02" then 2 else if d == "2024-03-01" then 1 else 0
  }

  function KeptEntry(id: Id, date: string): (e: DailyEntry)
    ensures KeptPromise(e) && e.date == date
  {
    DailyEntry(id, date, None, None, None, None, None, None, Some("yes"), None, None, None, 0)
  }

  /** Two entries on today's day in a newest-first list cap the run at one:
      the second position would have to be yesterday. */
  lemma TodayTwiceCapsRun(days: seq<int>, today: int, i: nat, j: nat)
    requires forall x, y :: 0 <= x < y < |days| ==> days[x] >= days[y]
    requires i < j < |days| && days[i] == today && days[j] == today
    ensures RunLength(days, today) <= 1
  {
  }

  /** The bug in the save handler's milestone check: when the day's entry
      was already stored with the promise kept and is saved again, the
      streak it computes is at most one, however long the real run is. */
  lemma {:induction false} AsWrittenStreakCapped(all: seq<DailyEntry>, e: DailyEntry, f: Form, date: string,
                                                 today: int, dayOf: string -> int)
    requires e in all && KeptPromise(e) && e.date == date && e.id != ""
    requires f.promiseKept == Some("yes") && dayOf(date) == today
    ensures Streak(MilestoneEntriesAsWritten(all, f, date), today, dayOf) <= 1
  {
    var t := FormEntry(f, date);
    var written := MilestoneEntriesAsWritten(all, f, date);
    assert e != t;
    assert written == all + [t];
    assert e in written && t in written;
    InKeptByDay(written, e, dayOf);
    InKeptByDay(written, t, dayOf);
    TwiceTodayInSorted(KeptByDay(written, dayOf), e, t, today, dayOf);
  }

  /** A kept entry of the input survives into the newest-first list. */
  lemma InKeptByDay(entries: seq<DailyEntry>, x: DailyEntry, dayOf: string -> int)
    requires x in entries && KeptPromise(x)
    ensures x in KeptByDay(entries, dayOf)
  {
    var kept := Filter(entries, KeptPromise);
    assert x in kept;
    assert x in multiset(SortDesc(kept, DayKey(dayOf)));
  }

  /** Two different entries dated today in a newest-first list cap the run
      at one. */
  lemma TwiceTodayInSorted(sorted: seq<DailyEntry>, e: DailyEntry, t: DailyEntry, today: int, dayOf: string -> int)
    requires SortedDesc(sorted, DayKey(dayOf))
    requires e in sorted && t in sorted && e != t
    requires dayOf(e.date) == today && dayOf(t.date) == today
    ensures RunLength(Days(sorted, dayOf), today) <= 1
  {
    var i :| 0 <= i < |sorted| && sorted[i] == e;
    var j :| 0 <= j < |sorted| && sorted[j] == t;
    var days := Days(sorted, dayOf);
    assert forall x, y :: 0 <= x < y < |days| ==> days[x] >= days[y] by {
      forall x, y | 0 <= x < y < |days| ensures days[x] >= days[y] {
        assert DayKey(dayOf)(sorted[x]) >= DayKey(dayOf)(sorted[y]);
      }
    }
    if i < j {
      TodayTwiceCapsRun(days, today, i, j);
    } else {
      TodayTwiceCapsRun(days, today, j, i);
    }
  }

  /** The corrected check on the same save: yesterday and today are both
      counted. */
  lemma CorrectedSample(a: DailyEntry, b: DailyEntry, f: Form)
    requires a.date == "2024-03-02" && b.date == "2024-03-01" && KeptPromise(b)
    requires f.promiseKept == Some("yes")
    ensures Streak(MilestoneEntries([a, b], f, "2024-03-02"), 2, SampleDay) == 2
  {
    var t := FormEntry(f, "2024-03-02");
    CorrectedSampleEntries(a, b, f);
    CorrectedSampleSorted(b, t);
    DaysSample(b, t);
  }

  lemma CorrectedSampleEntries(a: DailyEntry, b: DailyEntry, f: Form)
    requires a.date == "2024-03-02" && b.date == "2024-03-01"
    ensures MilestoneEntries([a, b], f, "2024-03-02") == [b, FormEntry(f, "2024-03-02")]
  {
    var p := (e: DailyEntry) => e.date != "2024-03-02";
    assert [a, b][1..] == [b];
    assert Filter([b], p) == [b] by { assert [b][1..] == []; }
  }

  lemma CorrectedSampleSorted(b: DailyEntry, t: DailyEntry)
    requires KeptPromise(b) && KeptPromise(t)
    requires b.date == "2024-03-01" && t.date == "2024-03-02"
    ensures KeptByDay([b, t], SampleDay) == [t, b]
  {
    assert Filter([b, t], KeptPromise) == [b, t] by {
      assert [b, t][1..] == [t];
      assert Filter([t], KeptPromise) == [t] by { assert [t][1..] == []; }
    }
    SortSample(b, t, DayKey(SampleDay));
  }

  lemma DaysSample(b: DailyEntry, t: DailyEntry)
    requires b.date == "2024-03-01" && t.date == "2024-03-02"
    ensures RunLength(Days([t, b], SampleDay), 2) == 2
  {
    assert Days([t, b], SampleDay) == [2, 1];
    assert [2, 1][1..] == [1];
    assert RunLength([1], 1) == 1 by { assert [1][1..] == []; }
  }

  lemma SortSample(b: DailyEntry, t: DailyEntry, key: DailyEntry -> int)
    requires key(b) < key(t)
    ensures SortDesc([b, t], key) == [t, b]
  {
    assert [b, t][1..] == [t];
    assert SortDesc([t], key) == [t] by { assert [t][1..] == []; }
    assert Insert(b, [t], key) == [t] + Insert(b, [], key);
  }

  /** Re-saving today's kept promise after a kept yesterday: the as-written
      check counts at most one day where the corrected check counts two. */
  lemma MilestoneCountsDuplicateDay()
    ensures var all := [KeptEntry("a", "2024-03-02"), KeptEntry("b", "2024-03-01")];
      var f := InitialForm(Some(all[0]), "2024-03-02");
      && Streak(MilestoneEntriesAsWritten(all, f, "2024-03-02"), 2, SampleDay) <= 1
      && Streak(MilestoneEntries(all, f, "2024-03-02"), 2, SampleDay) == 2
  {
    var a, b := KeptEntry("a", "2024-03-02"), KeptEntry("b", "2024-03-01");
    var f := InitialForm(Some(a), "2024-03-02");
    AsWrittenStreakCapped([a, b], a, f, "2024-03-02", 2, SampleDay);
    CorrectedSample(a, b, f);
  }
}

=== FILE: growth_tree.dfy ===
/** The growth tree's integer mappings: how big it is drawn, how mature it
    looks after some months, how many flowers and leaves it carries and
    where each one sits. */
module GrowthTree {
  import opened Wrappers

  /** Tailwind classes for the tree's box and trunk. */
  datatype Dims = Dims(width: string, height: string, trunk: string)

  const SmallDims := Dims("w-24", "h-32", "w-3 h-12")
  const MediumDims := Dims("w-32", "h-40", "w-4 h-16")
  const LargeDims := Dims("w-40", "h-48", "w-5 h-20")

  /** `getTreeSize`: 'small' and 'large' have their own dimensions; every
      other size, the default 'medium' included, is drawn medium. */
  function TreeSize(size: string): (d: Dims)
    ensures size == "small" <==> d == SmallDims
    ensures size == "large" <==> d == LargeDims
    ensures size != "small" && size != "large" <==> d == MediumDims
  {
    if size == "small" then SmallDims
    else if size == "large" then LargeDims
    else MediumDims
  }

  datatype Maturity = Seedling | Young | Mature | Flourishing | Ancient {
    /** How far along the tree is, 0 for a seedling to 4 when ancient. */
    function Rank(): nat {
      match this
      case Seedling => 0
      case Young => 1
      case Mature => 2
      case Flourishing => 3
      case Ancient => 4
    }

    /** `getMaturityMessage`. */
    function Message(): (s: string)
      ensures s != ""
    {
      match this
      case Seedling => "Fresh beginnings take root"
      case Young => "Growing stronger each month"
      case Mature => "Rooted in wisdom and growth"
      case Flourishing => "A testament to your consistency"
      case Ancient => "Deep wisdom cultivated over time"
    }
  }

  /** One for each of the month thresholds 1, 3, 6 and 12 reached. */
  function Passed(months: real, threshold: real): nat {
    if months >= threshold then 1 else 0
  }

  /** `getTreeMaturity`: the rank is the number of thresholds reached, so a
      tree is a seedling below one month and ancient from twelve on. */
  function TreeMaturity(months: real): (m: Maturity)
    ensures m.Rank() == Passed(months, 1.0) + Passed(months, 3.0) + Passed(months, 6.0) + Passed(months, 12.0)
    ensures m == Seedling <==> months < 1.0
    ensures m == Ancient <==> months >= 12.0
  {
    if months < 1.0 then Seedling
    else if months < 3.0 then Young
    else if months < 6.0 then Mature
    else if months < 12.0 then Flourishing
    else Ancient
  }

  /** A tree never grows younger as the months go by. */
  lemma MaturityMonotone(a: real, b: real)
    requires a <= b
    ensures TreeMaturity(a).Rank() <= TreeMaturity(b).Rank()
  {
  }

  /** The maturity line under the tree: shown only for a positive age, and
      then it is the message of the tree's maturity. */
  function MaturityLine(months: real): (line: Option<string>)
    ensures line.Some? <==> months > 0.0
    ensures line.Some? ==> line.value != "" && (months < 1.0 <==> line.value == Seedling.Message())
  {
    if months > 0.0 then Some(TreeMaturity(months).Message()) else None
  }

  /** Where a flower or leaf is placed: horizontal offset, height, and its
      tint (flowers) or rotation (leaves). */
  datatype Spot = Spot(left: string, bottom: string, look: string)

  const FlowerSpots: seq<Spot> := [
    Spot("-ml-6", "bottom-18", "text-pink-400"),
    Spot("ml-6", "bottom-19", "text-rose-300"),
    Spot("-ml-4", "bottom-20", "text-purple-300"),
    Spot("ml-4", "bottom-21", "text-pink-300"),
    Spot("-ml-8", "bottom-17", "text-violet-300"),
    Spot("ml-8", "bottom-18", "text-rose-400"),
    Spot("-ml-2", "bottom-22", "text-pink-200"),
    Spot("ml-2", "bottom-16", "text-purple-200"),
    Spot("-ml-5", "bottom-19", "text-rose-200"),
    Spot("ml-5", "bottom-20", "text-pink-500"),
    Spot("-ml-7", "bottom-21", "text-violet-400"),
    Spot("ml-7", "bottom-17", "text-purple-400")
  ]

  const LeafSpots: seq<Spot> := [
    Spot("-ml-3", "bottom-14", "rotate-12"),
    Spot("ml-3", "bottom-15", "-rotate-12"),
    Spot("-ml-2", "bottom-13", "rotate-45"),
    Spot("ml-2", "bottom-16", "-rotate-45"),
    Spot("-ml-4", "bottom-14", "rotate-6"),
    Spot("ml-4", "bottom-15", "-rotate-6"),
    Spot("-ml-1", "bottom-13", "rotate-24"),
    Spot("ml-1", "bottom-16", "-rotate-24")
  ]

  /** The spot of the i-th item cycles through the table. */
  function SpotAt(spots: seq<Spot>, i: nat): (s: Spot)
    requires |spots| > 0
    ensures s in spots
    ensures s == spots[i % |spots|]
  {
    spots[i % |spots|]
  }

  /** Lays out `count` items, the i-th at its cycling spot; a count of zero
      or less gives none. */
  method Layout(spots: seq<Spot>, count: int) returns (items: seq<Spot>)
    requires |spots| > 0
    ensures |items| == if count > 0 then count else 0
    ensures forall i :: 0 <= i < |items| ==> items[i] == spots[i % |spots|]
  {
    items := [];
    var i := 0;
    while i < count
      invariant 0 <= i <= (if count > 0 then count else 0)
      invariant |items| == i
      invariant forall j :: 0 <= j < i ==> items[j] == spots[j % |spots|]
    {
      items := items + [SpotAt(spots, i)];
      i := i + 1;
    }
  }

  /** `generateFlowers`: exactly one flower per promise kept. */
  method Flowers(promisesKept: int) returns (flowers: seq<Spot>)
    ensures |flowers| == if promisesKept > 0 then promisesKept else 0
    ensures promisesKept == 0 ==> flowers == []
    ensures forall i :: 0 <= i < |flowers| ==> flowers[i] == FlowerSpots[i % 12]
  {
    flowers := Layout(FlowerSpots, promisesKept);
  }

  /** The leaf count: four, one more for every three promises kept, at most
      eight. `/` by a positive constant rounds down like `Math.floor`. */
  function LeafCount(promisesKept: int): (n: int)
    ensures promisesKept >= 0 ==> 4 <= n <= 8
    ensures n <= 8
    ensures n == 8 || 3 * (n - 4) <= promisesKept < 3 * (n - 3)
  {
    if 4 + promisesKept / 3 < 8 then 4 + promisesKept / 3 else 8
  }

  /** `generateLeaves`. */
  method Leaves(promisesKept: int) returns (leaves: seq<Spot>)
    ensures promisesKept >= 0 ==> |leaves| == LeafCount(promisesKept) && 4 <= |leaves| <= 8
    ensures |leaves| == if LeafCount(promisesKept) > 0 then LeafCount(promisesKept) else 0
    ensures forall i :: 0 <= i < |leaves| ==> leaves[i] == LeafSpots[i % 8]
  {
    leaves := Layout(LeafSpots, LeafCount(promisesKept));
  }
}

=== FILE: home.dfy ===
/** The home page: which chapter is shown, the guarded two-phase chapter
    change (a request, then a 200 ms timer), and the onboarding modal it
    opens on every load. */
module Home {
  import opened Wrappers
  import opened Onboarding

  datatype Chapter = Welcome | Goals | Daily | Reflect | Journal

  /** What a chapter renders. */
  datatype Screen = WelcomeCarousel | WeeklyTasksList | DailyJournalPage | ReflectAndReview | JournalLog

  /** `renderChapterContent`: one component per chapter. */
  function Render(c: Chapter): (s: Screen)
    ensures c == Welcome <==> s == WelcomeCarousel
  {
    match c
    case Welcome => WelcomeCarousel
    case Goals => WeeklyTasksList
    case Daily => DailyJournalPage
    case Reflect => ReflectAndReview
    case Journal => JournalLog
  }

  /** No two chapters share a component. */
  lemma RenderInjective(c: Chapter, d: Chapter)
    requires Render(c) == Render(d)
    ensures c == d
  {
  }

  /** A chapter name from the untyped state; an unknown name falls back to
      the welcome chapter, as the `default` branch does. */
  function Parse(name: string): (c: Chapter)
    ensures name == "goals" <==> c == Goals
    ensures name == "daily" <==> c == Daily
    ensures name == "reflect" <==> c == Reflect
    ensures name == "journal" <==> c == Journal
  {
    if name == "goals" then Goals
    else if name == "daily" then Daily
    else if name == "reflect" then Reflect
    else if name == "journal" then Journal
    else Welcome
  }

  datatype Page = Page(active: Chapter, next: Option<Chapter>, transitioning: bool, showOnboarding: bool, flags: Flags)

  /** A transition is in progress exactly when a next chapter is waiting. */
  predicate Valid(p: Page) {
    p.transitioning <==> p.next.Some?
  }

  /** The first render: returning users (flag set) start on goals, new
      users on the welcome chapter. */
  function Initial(f: Flags): (p: Page)
    ensures Valid(p)
    ensures p.active == Goals <==> f.onboardingComplete
    ensures p.active == Welcome <==> !f.onboardingComplete
  {
    Page(if f.onboardingComplete then Goals else Welcome, None, false, false, f)
  }

  /** The mount effect: clears the onboarding flag and opens the modal. */
  function Mount(p: Page): (q: Page)
    ensures q.showOnboarding && !q.flags.onboardingComplete
    ensures q.active == p.active && q.next == p.next && q.transitioning == p.transitioning
    ensures q.flags.milestoneCelebrated == p.flags.milestoneCelebrated
  {
    p.(showOnboarding := true, flags := p.flags.(onboardingComplete := false))
  }

  /** Every load ends up showing onboarding, whatever was stored. */
  lemma OnboardingEveryLoad(f: Flags)
    ensures Mount(Initial(f)).showOnboarding
    ensures !Mount(Initial(f)).flags.onboardingComplete
  {
  }

  /** `handleChapterChange`: ignored for the active chapter or during a
      transition; otherwise starts the transition towards `c`. */
  function Request(p: Page, c: Chapter): (q: Page)
    requires Valid(p)
    ensures Valid(q)
    ensures c == p.active || p.transitioning ==> q == p
    ensures c != p.active && !p.transitioning ==> q == p.(transitioning := true, next := Some(c))
    ensures q.active == p.active
  {
    if c == p.active || p.transitioning then p
    else p.(transitioning := true, next := Some(c))
  }

  /** The 200 ms timer: the requested chapter becomes active. */
  function Settle(p: Page): (q: Page)
    requires Valid(p)
    ensures Valid(q)
    ensures !q.transitioning && q.next == None
    ensures p.next.Some? ==> q.active == p.next.value
    ensures p.next.None? ==> q == p
  {
    if p.next.Some? then p.(active := p.next.value, next := None, transitioning := false) else p
  }

  /** A request for another chapter from a settled page, once its timer
      fires, shows that chapter. */
  lemma RequestThenSettle(p: Page, c: Chapter)
    requires Valid(p) && !p.transitioning && c != p.active
    ensures Settle(Request(p, c)).active == c
    ensures !Settle(Request(p, c)).transitioning
  {
  }

  /** While a transition is pending a second request is dropped, so the
      first one wins. */
  lemma FirstRequestWins(p: Page, c: Chapter, d: Chapter)
    requires Valid(p) && !p.transitioning && c != p.active
    ensures Settle(Request(Request(p, c), d)).active == c
  {
  }

  /** The modal's `onClose`: hides it and asks for the goals chapter. */
  function CloseOnboarding(p: Page): (q: Page)
    requires Valid(p)
    ensures Valid(q)
    ensures !q.showOnboarding
    ensures q.flags == p.flags
    ensures p.active != Goals && !p.transitioning ==> q.next == Some(Goals)
  {
    Request(p.(showOnboarding := false), Goals)
  }

  /** Finishing onboarding on a fresh load leads to the goals chapter with
      the flag stored. */
  lemma FinishOnboarding(f: Flags)
    requires !f.onboardingComplete
    ensures Settle(CloseOnboarding(Mount(Initial(f)).(flags := Complete(f).0))).active == Goals
    ensures Settle(CloseOnboarding(Mount(Initial(f)).(flags := Complete(f).0))).flags.onboardingComplete
  {
  }
}

=== FILE: journal.dfy ===
/** The journal log: the four kinds of stored record projected into one
    tagged list, newest first, filtered by a search term and a kind, with a
    summary line per entry and the edit and delete requests an entry sends.
    Date formatting (`format(parseISO(d), ...)`) is a caller-supplied
    function; `dateValue` is `new Date(d).getTime()`. */
module JournalLog {
  import opened Wrappers
  import opened Seqs
  import opened Sorting
  import opened Text
  import opened Records
  import Routes
  import Tables

  datatype Kind = DailyKind | TaskKind | ReflectionKind | ReviewKind {
    /** The `type` tag, also the id prefix and the filter value. */
    function Name(): (n: string)
      ensures n != "" && n != "all" && '-' !in n && '/' !in n
    {
      match this
      case DailyKind => "daily"
      case TaskKind => "task"
      case ReflectionKind => "reflection"
      case ReviewKind => "review"
    }
  }

  /** The record an entry was built from (`originalData`). */
  datatype Original =
    | OfDaily(daily: DailyEntry)
    | OfTask(task: Task)
    | OfReflection(reflection: Reflection)
    | OfReview(review: WeeklyReview)
  {
    function Kind(): Kind {
      match this
      case OfDaily(_) => DailyKind
      case OfTask(_) => TaskKind
      case OfReflection(_) => ReflectionKind
      case OfReview(_) => ReviewKind
    }

    function RecordId(): Id {
      match this
      case OfDaily(e) => e.id
      case OfTask(t) => t.id
      case OfReflection(x) => x.id
      case OfReview(w) => w.id
    }
  }

  datatype Entry = Entry(id: string, date: string, kind: Kind, title: string, content: string, original: Original)

  /** An entry is tagged by its record: the kind is the record's kind and
      the id is the kind's name, a hyphen and the record's id. */
  predicate Tagged(e: Entry) {
    e.kind == e.original.Kind() && e.id == e.kind.Name() + "-" + e.original.RecordId()
  }

  // ------------------------------------------------------------ summaries

  const Bullet := " • "

  predicate Truthy(t: Option<string>) {
    t.Some? && t.value != ""
  }

  /** `value && tag + value`: a part of a summary, absent when the value
      is falsy. */
  function Labelled(tag: string, t: Option<string>): (p: Option<string>)
    ensures p.Some? <==> Truthy(t)
    ensures p.Some? ==> p.value == tag + t.value
  {
    if Truthy(t) then Some(tag + t.value) else None
  }

  /** The values of parts that are all present. */
  function Values(parts: seq<Option<string>>): (r: seq<string>)
    requires forall i :: 0 <= i < |parts| ==> parts[i].Some?
    ensures |r| == |parts| && forall i :: 0 <= i < |parts| ==> r[i] == parts[i].value
  {
    seq(|parts|, i requires 0 <= i < |parts| => parts[i].value)
  }

  lemma ValuesPrepend(x: Option<string>, f: seq<Option<string>>)
    requires x.Some? && forall i :: 0 <= i < |f| ==> f[i].Some?
    ensures Values([x] + f) == [x.value] + Values(f)
  {
    var xs := [x] + f;
    var l, r := Values(xs), [x.value] + Values(f);
    assert |l| == |r|;
    forall i | 0 <= i < |l| ensures l[i] == r[i] {
      if i > 0 { assert xs[i] == f[i - 1]; }
    }
  }

  /** `.filter(Boolean)`: the truthy parts, in order; an absent part and an
      empty string are both dropped. */
  function Present(parts: seq<Option<string>>): (r: seq<string>)
    ensures |r| <= |parts|
    ensures forall k :: 0 <= k < |r| ==> r[k] != "" && Some(r[k]) in parts
    ensures forall i :: 0 <= i < |parts| && Truthy(parts[i]) ==> parts[i].value in r
  {
    if |parts| == 0 then []
    else
      var rest := Present(parts[1..]);
      assert forall k :: 0 <= k < |rest| ==> Some(rest[k]) in parts by {
        forall k | 0 <= k < |rest| ensures Some(rest[k]) in parts {
          assert Some(rest[k]) in parts[1..];
        }
      }
      assert forall i :: 1 <= i < |parts| && Truthy(parts[i]) ==> parts[i].value in rest by {
        forall i | 1 <= i < |parts| && Truthy(parts[i]) ensures parts[i].value in rest {
          assert parts[i] == parts[1..][i - 1];
        }
      }
      if Truthy(parts[0]) then [parts[0].value] + rest else rest
  }

  /** The parts shown are exactly the truthy parts, in their order and
      with their repetitions. */
  lemma {:induction false} PresentIsFilter(parts: seq<Option<string>>)
    ensures Present(parts) == Values(Filter(parts, Truthy))
  {
    if |parts| > 0 {
      var f := Filter(parts[1..], Truthy);
      PresentIsFilter(parts[1..]);
      FilterHead(parts, Truthy);
      if Truthy(parts[0]) {
        ValuesPrepend(parts[0], f);
      }
    }
  }

  /** The present parts joined by bullets. */
  function Summary(parts: seq<Option<string>>): string {
    Join(Present(parts), Bullet)
  }

  /** Every present part appears in the summary, and a summary with no
      present part is empty. */
  lemma SummaryMentions(parts: seq<Option<string>>, i: nat)
    requires i < |parts| && Truthy(parts[i])
    ensures Contains(Summary(parts), parts[i].value)
  {
    var r := Present(parts);
    var k :| 0 <= k < |r| && r[k] == parts[i].value;
    JoinContainsPart(r, Bullet, k);
  }

  function Items(xs: Option<seq<string>>): seq<string> {
    if xs.Some? then xs.value else []
  }

  function DailyParts(e: DailyEntry): (parts: seq<Option<string>>)
    ensures |parts| == 6
    ensures parts[0] == Labelled("Activity: ", e.tenMinuteActivity)
    ensures parts[1] == Labelled("Reflection: ", e.eveningReflection)
    ensures parts[2] == Labelled("Follow-up: ", e.followUpResponse)
    ensures parts[3] == Labelled("Promise kept: ", e.promiseKept)
    ensures parts[4].Some? <==> |Items(e.voiceNotes)| > 0
    ensures parts[4].Some? ==> parts[4].value == "Voice notes recorded"
    ensures parts[5].Some? <==> |Items(e.photos)| > 0
    ensures parts[5].Some? ==> parts[5].value == NatToString(|Items(e.photos)|) + " photo(s) attached"
  {
    [ Labelled("Activity: ", e.tenMinuteActivity),
      Labelled("Reflection: ", e.eveningReflection),
      Labelled("Follow-up: ", e.followUpResponse),
      Labelled("Promise kept: ", e.promiseKept),
      if |Items(e.voiceNotes)| > 0 then Some("Voice notes recorded") else None,
      if |Items(e.photos)| > 0 then Some(NatToString(|Items(e.photos)|) + " photo(s) attached") else None ]
  }

  /** A daily entry's summary names its activity and its promise when
      present, and is empty for an entry with nothing to show. */
  lemma DailySummary(e: DailyEntry)
    ensures Truthy(e.tenMinuteActivity) ==> Contains(Summary(DailyParts(e)), "Activity: " + e.tenMinuteActivity.value)
    ensures Truthy(e.promiseKept) ==> Contains(Summary(DailyParts(e)), "Promise kept: " + e.promiseKept.value)
    ensures (&& !Truthy(e.tenMinuteActivity) && !Truthy(e.eveningReflection) && !Truthy(e.followUpResponse)
             && !Truthy(e.promiseKept) && |Items(e.voiceNotes)| == 0 && |Items(e.photos)| == 0)
            ==> Summary(DailyParts(e)) == ""
  {
    var parts := DailyParts(e);
    if Truthy(e.tenMinuteActivity) {
      SummaryMentions(parts, 0);
    }
    if Truthy(e.promiseKept) {
      SummaryMentions(parts, 3);
    }
  }

  /** `s.substring(0, 100) + '...'`. */
  function Clip(s: string): (r: string)
    ensures |r| <= 103
    ensures |s| <= 100 ==> r == s + "..."
    ensures |s| > 100 ==> r == s[..100] + "..."
  {
    Take(s, 100) + "..."
  }

  function ClippedPart(tag: string, t: Option<string>): (p: Option<string>)
    ensures p.Some? <==> Truthy(t)
    ensures p.Some? ==> p.value == tag + Clip(t.value)
    ensures p.Some? && |t.value| <= 100 ==> p.value == tag + t.value + "..."
    ensures p.Some? ==> |p.value| <= |tag| + 103
  {
    if Truthy(t) then Some(tag + Clip(t.value)) else None
  }

  function ReviewParts(w: WeeklyReview): seq<Option<string>> {
    [ ClippedPart("Proud actions: ", w.proudActions),
      ClippedPart("Self-respect: ", w.selfRespectMoments),
      ClippedPart("Patterns: ", w.patterns) ]
  }

  /** A review summary has at most three parts of at most 103 characters
      of text each, plus labels and bullets: long reviews are cut. */
  lemma ReviewSummaryBounded(w: WeeklyReview)
    ensures |Present(ReviewParts(w))| <= 3
    ensures forall k :: 0 <= k < |Present(ReviewParts(w))| ==> |Present(ReviewParts(w))[k]| <= 118
  {
    var parts := ReviewParts(w);
    var r := Present(parts);
    forall k | 0 <= k < |r| ensures |r[k]| <= 118 {
      assert Some(r[k]) in parts;
    }
  }

  // ------------------------------------------------------------ projection

  function FromDaily(e: DailyEntry, longDate: string -> string): (j: Entry)
    ensures Tagged(j) && j.original == OfDaily(e) && j.date == e.date
  {
    Entry("daily-" + e.id, e.date, DailyKind, "Daily Journal - " + longDate(e.date),
          Summary(DailyParts(e)), OfDaily(e))
  }

  function FromTask(t: Task, shortDate: string -> string): (j: Entry)
    ensures Tagged(j) && j.original == OfTask(t) && j.date == t.weekStart
  {
    var goal := if Truthy(t.description) then t.description.value else t.title;
    var status := if t.isCompleted == Some(true) then "Completed" else "In progress";
    Entry("task-" + t.id, t.weekStart, TaskKind, "Goal: " + goal,
          status + Bullet + "Created for week of " + shortDate(t.weekStart), OfTask(t))
  }

  /** A reflection's summary is its response and its follow-up, each only
      when non-empty, joined by a bullet when both are there. */
  function FromReflection(x: Reflection): (j: Entry)
    ensures Tagged(j) && j.original == OfReflection(x) && j.date == x.date
    ensures j.title == x.promptText
    ensures x.response != "" && Truthy(x.followUpResponse) ==>
      j.content == x.response + Bullet + x.followUpResponse.value
    ensures x.response != "" && !Truthy(x.followUpResponse) ==> j.content == x.response
    ensures x.response == "" && Truthy(x.followUpResponse) ==> j.content == x.followUpResponse.value
    ensures x.response == "" && !Truthy(x.followUpResponse) ==> j.content == ""
  {
    var parts := [Some(x.response), x.followUpResponse];
    assert Present(parts[1..]) == if Truthy(x.followUpResponse) then [x.followUpResponse.value] else [];
    assert x.response != "" && Truthy(x.followUpResponse) ==>
      Summary(parts) == x.response + Bullet + x.followUpResponse.value by {
      if x.response != "" && Truthy(x.followUpResponse) {
        var both := [x.response, x.followUpResponse.value];
        assert Present(parts) == both;
        assert both[1..] == [x.followUpResponse.value];
        assert Join(both[1..], Bullet) == x.followUpResponse.value;
        assert Join(both, Bullet) == both[0] + Bullet + Join(both[1..], Bullet);
      }
    }
    Entry("reflection-" + x.id, x.date, ReflectionKind, x.promptText, Summary(parts), OfReflection(x))
  }

  function FromReview(w: WeeklyReview, shortDate: string -> string): (j: Entry)
    ensures Tagged(j) && j.original == OfReview(w) && j.date == w.weekStart
  {
    Entry("review-" + w.id, w.weekStart, ReviewKind, "Weekly Review - Week of " + shortDate(w.weekStart),
          Summary(ReviewParts(w)), OfReview(w))
  }

  /** The daily entries' journal entries, in input order. */
  function DailyEntries(daily: seq<DailyEntry>, longDate: string -> string): (r: seq<Entry>)
    ensures |r| == |daily|
    ensures forall i :: 0 <= i < |r| ==> Tagged(r[i]) && r[i].original == OfDaily(daily[i])
  {
    seq(|daily|, i requires 0 <= i < |daily| => FromDaily(daily[i], longDate))
  }

  function TaskEntries(tasks: seq<Task>, shortDate: string -> string): (r: seq<Entry>)
    ensures |r| == |tasks|
    ensures forall i :: 0 <= i < |r| ==> Tagged(r[i]) && r[i].original == OfTask(tasks[i])
  {
    seq(|tasks|, i requires 0 <= i < |tasks| => FromTask(tasks[i], shortDate))
  }

  function ReflectionEntries(reflections: seq<Reflection>): (r: seq<Entry>)
    ensures |r| == |reflections|
    ensures forall i :: 0 <= i < |r| ==> Tagged(r[i]) && r[i].original == OfReflection(reflections[i])
  {
    seq(|reflections|, i requires 0 <= i < |reflections| => FromReflection(reflections[i]))
  }

  function ReviewEntries(reviews: seq<WeeklyReview>, shortDate: string -> string): (r: seq<Entry>)
    ensures |r| == |reviews|
    ensures forall i :: 0 <= i < |r| ==> Tagged(r[i]) && r[i].original == OfReview(reviews[i])
  {
    seq(|reviews|, i requires 0 <= i < |reviews| => FromReview(reviews[i], shortDate))
  }

  /** One entry per record, daily entries first, then tasks, reflections
      and reviews, each in its input order. */
  function Unify(daily: seq<DailyEntry>, tasks: seq<Task>, reflections: seq<Reflection>,
                 reviews: seq<WeeklyReview>, longDate: string -> string, shortDate: string -> string)
    : (r: seq<Entry>)
    ensures |r| == |daily| + |tasks| + |reflections| + |reviews|
    ensures forall i :: 0 <= i < |r| ==> Tagged(r[i])
    ensures forall i :: 0 <= i < |daily| ==> r[i].original == OfDaily(daily[i])
    ensures forall i :: 0 <= i < |tasks| ==> r[|daily| + i].original == OfTask(tasks[i])
    ensures forall i :: 0 <= i < |reflections| ==>
      r[|daily| + |tasks| + i].original == OfReflection(reflections[i])
    ensures forall i :: 0 <= i < |reviews| ==>
      r[|daily| + |tasks| + |reflections| + i].original == OfReview(reviews[i])
  {
    DailyEntries(daily, longDate) + TaskEntries(tasks, shortDate)
    + ReflectionEntries(reflections) + ReviewEntries(reviews, shortDate)
  }

  function DateKey(dateValue: string -> int): Entry -> int {
    (e: Entry) => dateValue(e.date)
  }

  /** Newest first, entries of equal date keeping their projection order. */
  function Newest(entries: seq<Entry>, dateValue: string -> int): (r: seq<Entry>)
    ensures SortedDesc(r, DateKey(dateValue))
    ensures multiset(r) == multiset(entries)
    ensures forall i :: 0 <= i < |entries| && Tagged(entries[i]) ==> entries[i] in r
    ensures All(entries, Tagged) ==> All(r, Tagged)
  {
    var r := SortDesc(entries, DateKey(dateValue));
    assert forall i :: 0 <= i < |entries| ==> entries[i] in multiset(r);
    if All(entries, Tagged) then SortKeepsAll(entries, DateKey(dateValue), Tagged); r else r
  }

  // ------------------------------------------------------------ filtering

  /** The search matches when it is empty or occurs, ignoring case, in the
      title or the summary; the type filter matches `all` or the kind. */
  predicate Matches(e: Entry, search: string, filterType: string) {
    && (search == "" || Contains(ToLower(e.title), ToLower(search)) || Contains(ToLower(e.content), ToLower(search)))
    && (filterType == "all" || e.kind.Name() == filterType)
  }

  function Matcher(search: string, filterType: string): Entry -> bool {
    (e: Entry) => Matches(e, search, filterType)
  }

  function Visible(entries: seq<Entry>, search: string, filterType: string): (r: seq<Entry>)
    ensures forall i :: 0 <= i < |r| ==> Matches(r[i], search, filterType) && r[i] in entries
    ensures forall i :: 0 <= i < |entries| && Matches(entries[i], search, filterType) ==> entries[i] in r
    ensures IsSubsequence(r, entries)
    ensures search == "" && filterType == "all" ==> r == entries
  {
    FilterIsSubsequence(entries, Matcher(search, filterType));
    if search == "" && filterType == "all" then FilterKeepsAll(entries, Matcher(search, filterType)); Filter(entries, Matcher(search, filterType))
    else Filter(entries, Matcher(search, filterType))
  }

  /** Filtering by one kind keeps exactly the entries built from records of
      that kind. */
  lemma KindFilter(entries: seq<Entry>, k: Kind, e: Entry)
    requires All(entries, Tagged) && e in entries
    ensures e in Visible(entries, "", k.Name()) <==> e.original.Kind() == k
  {
    var i :| 0 <= i < |entries| && entries[i] == e;
    assert Tagged(entries[i]);
    if e.original.Kind() != k {
      assert e.kind != k;
      KindNamesDistinct(e.kind, k);
    }
  }

  lemma KindNamesDistinct(a: Kind, b: Kind)
    requires a != b
    ensures a.Name() != b.Name()
  {
  }

  // ------------------------------------------------------------ editing

  /** The editable fields of each kind. */
  function EditFields(k: Kind): (fs: seq<string>)
    ensures 2 <= |fs| <= 3
  {
    match k
    case DailyKind => ["tenMinuteActivity", "eveningReflection", "followUpResponse"]
    case TaskKind => ["title", "description"]
    case ReflectionKind => ["response", "followUpResponse"]
    case ReviewKind => ["proudActions", "selfRespectMoments", "patterns"]
  }

  /** The record's value for a named field, if the record has that field. */
  function FieldOf(o: Original, name: string): Option<string> {
    match o
    case OfDaily(e) =>
      if name == "tenMinuteActivity" then e.tenMinuteActivity
      else if name == "eveningReflection" then e.eveningReflection
      else if name == "followUpResponse" then e.followUpResponse
      else if name == "morningIntention" then e.morningIntention
      else None
    case OfTask(t) =>
      if name == "title" then Some(t.title)
      else if name == "description" then t.description
      else None
    case OfReflection(x) =>
      if name == "response" then Some(x.response)
      else if name == "followUpResponse" then x.followUpResponse
      else if name == "promptText" then Some(x.promptText)
      else None
    case OfReview(w) =>
      if name == "proudActions" then w.proudActions
      else if name == "selfRespectMoments" then w.selfRespectMoments
      else if name == "patterns" then w.patterns
      else if name == "nextWeekCultivate" then w.nextWeekCultivate
      else if name == "nextWeekSupport" then w.nextWeekSupport
      else None
  }

  function OrEmpty(t: Option<string>): string {
    if t.Some? then t.value else ""
  }

  /** `handleEdit`: the edit buffer holds exactly the kind's editable
      fields, each the record's value or `''`. */
  function EditBuffer(e: Entry): (m: map<string, string>)
    requires Tagged(e)
    ensures m.Keys == set f | f in EditFields(e.kind)
    ensures forall f :: f in m ==> m[f] == OrEmpty(FieldOf(e.original, f))
  {
    match e.original
    case OfDaily(d) =>
      map["tenMinuteActivity" := OrEmpty(d.tenMinuteActivity),
          "eveningReflection" := OrEmpty(d.eveningReflection),
          "followUpResponse" := OrEmpty(d.followUpResponse)]
    case OfTask(t) =>
      map["title" := t.title, "description" := OrEmpty(t.description)]
    case OfReflection(x) =>
      map["response" := x.response, "followUpResponse" := OrEmpty(x.followUpResponse)]
    case OfReview(w) =>
      map["proudActions" := OrEmpty(w.proudActions),
          "selfRespectMoments" := OrEmpty(w.selfRespectMoments),
          "patterns" := OrEmpty(w.patterns)]
  }

  /** Typing into a field of the buffer changes that field only. */
  function EditField(m: map<string, string>, f: string, v: string): (m': map<string, string>)
    requires f in m
    ensures m'.Keys == m.Keys && m'[f] == v
    ensures forall g :: g in m && g != f ==> m'[g] == m[g]
  {
    m[f := v]
  }

  // ------------------------------------------------ ids and requests

  /** `entry.id.split('-')[1]`, the id `handleSaveEdit` recovers. */
  function RecoveredIdAsWritten(e: Entry): (id: string)
    requires Tagged(e)
  {
    SplitAfterHead(e.kind.Name(), '-', e.original.RecordId());
    Split(e.id, '-')[1]
  }

  /** The recovered id is the record's id exactly when the record's id has
      no hyphen. */
  lemma RecoveredIdIff(e: Entry)
    requires Tagged(e)
    ensures RecoveredIdAsWritten(e) == e.original.RecordId() <==> '-' !in e.original.RecordId()
  {
    var id := e.original.RecordId();
    SplitAfterHead(e.kind.Name(), '-', id);
    assert RecoveredIdAsWritten(e) == Split(id, '-')[0];
    if '-' in id {
      var i := FirstIndex(id, '-');
      assert Split(id, '-')[0] == id[..i];
      assert |id[..i]| < |id|;
    }
  }

  /** Every id the store hands out contains a hyphen, so every edit of a
      stored record goes to a different id. */
  lemma StoreIdsMisrecovered(e: Entry, ids: seq<Id>)
    requires Tagged(e) && e.original.RecordId() == Tables.FreshId(ids)
    ensures RecoveredIdAsWritten(e) != e.original.RecordId()
  {
    RecoveredIdIff(e);
  }

  /** The id the requests use: the record's own id, as `handleDelete` does. */
  function TargetId(e: Entry): (id: Id)
    requires Tagged(e)
    ensures e.id == e.kind.Name() + "-" + id
  {
    e.original.RecordId()
  }

  /** The edit request as written: daily entries go to
      `PUT /api/daily-entries/:id`. */
  function EditRequestAsWritten(e: Entry): (Routes.Method, string)
    requires Tagged(e)
  {
    var id := RecoveredIdAsWritten(e);
    var segs := match e.kind
      case DailyKind => ["daily-entries", id]
      case TaskKind => ["tasks", id]
      case ReflectionKind => ["reflections", id]
      case ReviewKind => ["weekly-review", id];
    (Routes.PUT, Routes.PathOf(segs))
  }

  /** The server has no PUT route under `daily-entries`: the as-written
      daily edit falls through to the application page and updates
      nothing. */
  lemma DailyEditAsWrittenMisses(e: Entry)
    requires Tagged(e) && e.kind == DailyKind && Routes.Param(RecoveredIdAsWritten(e))
    ensures Routes.Route(EditRequestAsWritten(e).0, EditRequestAsWritten(e).1) == Routes.AppShell
  {
    Routes.PathSegments(["daily-entries", RecoveredIdAsWritten(e)]);
    assert (["", "api"] + ["daily-entries", RecoveredIdAsWritten(e)])[2..] == ["daily-entries", RecoveredIdAsWritten(e)];
  }

  /** The update endpoint for an entry's record. */
  function UpdateEndpoint(e: Entry): (ep: Routes.Endpoint)
    requires Tagged(e)
  {
    var id := TargetId(e);
    match e.kind
    case DailyKind => Routes.UpdateDaily(id)
    case TaskKind => Routes.UpdateTask(id)
    case ReflectionKind => Routes.UpdateReflection(id)
    case ReviewKind => Routes.UpdateReview(id)
  }

  /** The delete endpoint for an entry's record. */
  function DeleteEndpoint(e: Entry): (ep: Routes.Endpoint)
    requires Tagged(e)
  {
    var id := TargetId(e);
    match e.kind
    case DailyKind => Routes.DeleteDaily(id)
    case TaskKind => Routes.DeleteTask(id)
    case ReflectionKind => Routes.DeleteReflection(id)
    case ReviewKind => Routes.DeleteReview(id)
  }

  /** The corrected edit request: the record's own id, and the daily
      update route the server defines. It reaches the record's update
      handler. */
  function EditRequest(e: Entry): (r: (Routes.Method, string))
    requires Tagged(e) && Routes.Param(TargetId(e))
    ensures Routes.Route(r.0, r.1) == UpdateEndpoint(e)
  {
    var ep := UpdateEndpoint(e);
    Routes.RouteAddress(ep);
    (Routes.Address(ep).0, Routes.PathOf(Routes.Address(ep).1))
  }

  /** `handleDelete`: the record's own id, and the kind's delete route. It
      reaches the record's delete handler. */
  function DeleteRequest(e: Entry): (r: (Routes.Method, string))
    requires Tagged(e) && Routes.Param(TargetId(e))
    ensures r.0 == Routes.DELETE
    ensures Routes.Route(r.0, r.1) == DeleteEndpoint(e)
  {
    var ep := DeleteEndpoint(e);
    Routes.RouteAddress(ep);
    (Routes.Address(ep).0, Routes.PathOf(Routes.Address(ep).1))
  }

  /** The two halves of the edit bug on a stored daily entry whose id has a
      hyphen, as every UUID does: the as-written request recovers only the
      id's first group and misses, the corrected one updates the entry. */
  lemma {:induction false} DailyEditBothHalves(d: DailyEntry, longDate: string -> string, head: string, tail: string)
    requires head != "" && '-' !in head && '/' !in head && '/' !in tail
    requires d.id == head + "-" + tail
    ensures var e := FromDaily(d, longDate);
      && RecoveredIdAsWritten(e) == head != d.id
      && Routes.Route(EditRequestAsWritten(e).0, EditRequestAsWritten(e).1) == Routes.AppShell
      && Routes.Route(EditRequest(e).0, EditRequest(e).1) == Routes.UpdateDaily(d.id)
  {
    var e := FromDaily(d, longDate);
    RecoveredHead(e, head, tail);
    assert |head| < |d.id|;
    DailyEditAsWrittenMisses(e);
    assert '/' !in d.id by {
      assert forall i :: 0 <= i < |d.id| ==> d.id[i] == (head + "-" + tail)[i];
    }
  }

  /** The recovered id is the record id's text before its first hyphen. */
  lemma RecoveredHead(e: Entry, head: string, tail: string)
    requires Tagged(e) && e.original.RecordId() == head + ['-'] + tail && '-' !in head
    ensures RecoveredIdAsWritten(e) == head
  {
    var u := e.original.RecordId();
    SplitAfterHead(head, '-', tail);
    SplitAfterHead(e.kind.Name(), '-', u);
    assert Split(e.id, '-') == [e.kind.Name()] + Split(u, '-');
  }
}

=== FILE: milestone.dfy ===
/** The 66-day milestone modal: a three-step reflection stepper whose last
    step records the milestone as celebrated, so that it is never offered
    again. */
module Milestone {
  import opened Onboarding

  const Questions: seq<string> := [
    "What feels more natural now?",
    "What small shifts have become daily?",
    "How have you grown into a deeper version of yourself?"
  ]

  const LastStep := |Questions| - 1

  /** The streak length that earns the celebration. */
  const Threshold := 66

  datatype Stepper = Stepper(step: nat, open: bool, flags: Flags)

  predicate Valid(s: Stepper) {
    s.step <= LastStep
  }

  /** The daily page opens the modal when the streak reaches the threshold
      and the milestone was never celebrated. */
  predicate Offered(f: Flags, streak: int) {
    streak >= Threshold && !f.milestoneCelebrated
  }

  /** `handleComplete`: remembers the celebration and closes. */
  function Complete(s: Stepper): (t: Stepper)
    ensures t.flags.milestoneCelebrated && !t.open
    ensures t.flags.onboardingComplete == s.flags.onboardingComplete
    ensures t.step == s.step
  {
    s.(open := false, flags := s.flags.(milestoneCelebrated := true))
  }

  /** `handleNext`: the next question, or completion from the last one. */
  function HandleNext(s: Stepper): (t: Stepper)
    requires Valid(s)
    ensures Valid(t)
    ensures s.step < LastStep ==> t == s.(step := s.step + 1)
    ensures s.step == LastStep ==> t.flags.milestoneCelebrated && !t.open
  {
    if s.step < LastStep then s.(step := s.step + 1) else Complete(s)
  }

  /** The close button only hides the modal; the milestone stays
      uncelebrated and may be offered again. */
  function Dismiss(s: Stepper): (t: Stepper)
    ensures !t.open && t.flags == s.flags && t.step == s.step
  {
    s.(open := false)
  }

  /** Once celebrated, the milestone is never offered again, whatever the
      streak. */
  lemma CelebratedOnce(s: Stepper, streak: int)
    requires Valid(s) && s.step == LastStep
    ensures !Offered(HandleNext(s).flags, streak)
  {
  }

  /** Three presses from the first question finish the stepper. */
  lemma ThreePressesComplete(s: Stepper)
    requires s.step == 0
    ensures HandleNext(HandleNext(HandleNext(s))).flags.milestoneCelebrated
    ensures !HandleNext(HandleNext(HandleNext(s))).open
  {
  }

  datatype Dot = Current | Done | Pending

  /** The progress dot for question `i`. */
  function DotOf(i: nat, step: nat): (d: Dot)
    ensures d == Current <==> i == step
    ensures d == Done <==> i < step
    ensures d == Pending <==> i > step
  {
    if i == step then Current else if i < step then Done else Pending
  }

  /** The counter "n of 3" and the button's label. */
  function Footer(step: nat): (r: (nat, nat, string))
    requires step <= LastStep
    ensures 1 <= r.0 <= r.1 == |Questions|
    ensures r.0 == step + 1
    ensures r.2 == "Continue" <==> r.0 < r.1
  {
    (step + 1, |Questions|, if step < LastStep then "Continue" else "Honor This Moment")
  }
}

=== FILE: onboarding.dfy ===
/** The onboarding modal: a four-page pager clamped at both ends, whose
    last page offers the button that records onboarding as done. The
    browser's `localStorage` is a record of the flags the app keeps. */
module Onboarding {

  const PageIds: seq<string> := ["welcome", "simple", "how-it-works", "ready"]

  const LastPage := |PageIds| - 1

  /** `nextPage`: moves on only below the last page. */
  function Next(p: nat): (q: nat)
    requires p <= LastPage
    ensures q <= LastPage
    ensures p < LastPage ==> q == p + 1
    ensures p == LastPage ==> q == p
  {
    if p < LastPage then p + 1 else p
  }

  /** `prevPage`: moves back only above the first page. */
  function Prev(p: nat): (q: nat)
    requires p <= LastPage
    ensures q <= LastPage
    ensures p > 0 ==> q == p - 1
    ensures p == 0 ==> q == 0
  {
    if p > 0 then p - 1 else p
  }

  /** Away from the edges the two moves undo each other. */
  lemma NextPrevInverse(p: nat)
    requires p <= LastPage
    ensures p < LastPage ==> Prev(Next(p)) == p
    ensures p > 0 ==> Next(Prev(p)) == p
  {
  }

  /** `k` presses of next reach page `min(p + k, last)`. */
  function NextTimes(p: nat, k: nat): (q: nat)
    requires p <= LastPage
    ensures q <= LastPage
  {
    if k == 0 then p else Next(NextTimes(p, k - 1))
  }

  lemma {:induction false} NextTimesClamps(p: nat, k: nat)
    requires p <= LastPage
    ensures NextTimes(p, k) == if p + k < LastPage then p + k else LastPage
  {
    if k > 0 {
      NextTimesClamps(p, k - 1);
    }
  }

  datatype Buttons = Buttons(complete: bool, next: bool, prevEnabled: bool)

  /** The complete button is on the last page only, the next button on
      every other page, and prev is disabled on the first. */
  function ButtonsOf(p: nat): (b: Buttons)
    requires p <= LastPage
    ensures b.complete <==> p == LastPage
    ensures b.next <==> !b.complete
    ensures b.prevEnabled <==> p != 0
  {
    Buttons(p == LastPage, p < LastPage, p != 0)
  }

  /** The app's flags in `localStorage`. */
  datatype Flags = Flags(onboardingComplete: bool, milestoneCelebrated: bool)

  /** `handleComplete`: stores the flag, then closes the modal (the
      caller's `onClose`, which the home page handles). */
  function Complete(f: Flags): (r: (Flags, bool))
    ensures r.0.onboardingComplete
    ensures r.0.milestoneCelebrated == f.milestoneCelebrated
    ensures !r.1
  {
    (f.(onboardingComplete := true), false)
  }
}

=== FILE: records.dfy ===
/** The four stored entities, the shapes a request body may give them, and
    the rules by which the in-memory store fills and merges their fields.

    A stored nullable column is an `Option` (`None` is SQL/JSON `null`).
    A field of a request body is a `Field`: left out, explicitly `null`, or
    given a value. */
module Records {
  import opened Wrappers

  type Id = string

  datatype Field<+T> = Absent | Null | Val(v: T)

  /** `{...old, ...patch}` for one nullable field: an absent field keeps the
      old value, `null` clears it, a value replaces it. */
  function Overwrite<T>(prev: Option<T>, f: Field<T>): (r: Option<T>)
    ensures f.Absent? ==> r == prev
    ensures f.Null? ==> r.None?
    ensures f.Val? ==> r == Some(f.v)
  {
    match f
    case Absent => prev
    case Null => None
    case Val(v) => Some(v)
  }

  /** `{...old, ...patch}` for one non-nullable field. */
  function Replace<T>(prev: T, f: Option<T>): (r: T)
    ensures f.None? ==> r == prev
    ensures f.Some? ==> r == f.value
  {
    f.GetOr(prev)
  }

  // JavaScript `x || null` for the field types the store fills this way:
  // the empty string, 0 and false are falsy; an array, even empty, is not.

  function TextOrNull(f: Field<string>): (r: Option<string>)
    ensures r.Some? <==> f.Val? && f.v != ""
    ensures r.Some? ==> r.value == f.v
  {
    if f.Val? && f.v != "" then Some(f.v) else None
  }

  function IntOrNull(f: Field<int>): (r: Option<int>)
    ensures r.Some? <==> f.Val? && f.v != 0
    ensures r.Some? ==> r.value == f.v
  {
    if f.Val? && f.v != 0 then Some(f.v) else None
  }

  function FlagOrNull(f: Field<bool>): (r: Option<bool>)
    ensures r.Some? <==> f == Val(true)
    ensures r.Some? ==> r.value
  {
    if f == Val(true) then Some(true) else None
  }

  function ListOrNull(f: Field<seq<string>>): (r: Option<seq<string>>)
    ensures r.Some? <==> f.Val?
    ensures r.Some? ==> r.value == f.v
  {
    if f.Val? then Some(f.v) else None
  }

  // ---------------------------------------------------------------- Task

  datatype Task = Task(
    id: Id,
    title: string,
    description: Option<string>,
    isCompleted: Option<bool>,
    isActive: Option<bool>,
    weekStart: string,
    createdAt: int)

  datatype InsertTask = InsertTask(
    title: string,
    description: Field<string>,
    isCompleted: Field<bool>,
    isActive: Field<bool>,
    weekStart: string)

  datatype TaskPatch = TaskPatch(
    title: Option<string>,
    description: Field<string>,
    isCompleted: Field<bool>,
    isActive: Field<bool>,
    weekStart: Option<string>)

  /** A task counts as deleted only when `isActive` is exactly `false`;
      a `null` flag still counts as active (`task.isActive !== false`). */
  predicate IsActive(t: Task) {
    t.isActive != Some(false)
  }

  /** The record `createTask` stores for `ins`. */
  function NewTask(id: Id, ins: InsertTask, now: int): (t: Task)
    ensures t.id == id && t.createdAt == now
    ensures t.title == ins.title && t.weekStart == ins.weekStart
    ensures t.description == TextOrNull(ins.description)
    ensures t.isCompleted == Some(ins.isCompleted == Val(true))
    ensures ins.isActive.Absent? ==> t.isActive == Some(true)
    ensures ins.isActive.Null? ==> t.isActive.None?
    ensures ins.isActive.Val? ==> t.isActive == Some(ins.isActive.v)
  {
    Task(id, ins.title, TextOrNull(ins.description), Some(ins.isCompleted == Val(true)),
         Overwrite(Some(true), ins.isActive), ins.weekStart, now)
  }

  function MergeTask(t: Task, p: TaskPatch): (r: Task)
    ensures r.id == t.id && r.createdAt == t.createdAt
    ensures r.title == Replace(t.title, p.title)
    ensures r.description == Overwrite(t.description, p.description)
    ensures r.isCompleted == Overwrite(t.isCompleted, p.isCompleted)
    ensures r.isActive == Overwrite(t.isActive, p.isActive)
    ensures r.weekStart == Replace(t.weekStart, p.weekStart)
  {
    t.(title := Replace(t.title, p.title),
       description := Overwrite(t.description, p.description),
       isCompleted := Overwrite(t.isCompleted, p.isCompleted),
       isActive := Overwrite(t.isActive, p.isActive),
       weekStart := Replace(t.weekStart, p.weekStart))
  }

  const EmptyTaskPatch := TaskPatch(None, Absent, Absent, Absent, None)

  /** The patch `PATCH /api/tasks/:id/complete` applies: only `isCompleted`,
      taken unvalidated from the body (`None` when the body has no boolean). */
  function CompletionPatch(completed: Option<bool>): (p: TaskPatch)
    ensures p.title.None? && p.description.Absent? && p.isActive.Absent? && p.weekStart.None?
    ensures completed.Some? ==> p.isCompleted == Val(completed.value)
    ensures completed.None? ==> p.isCompleted.Null?
  {
    EmptyTaskPatch.(isCompleted := if completed.Some? then Val(completed.value) else Null)
  }

  // ---------------------------------------------------------- DailyEntry

  datatype DailyEntry = DailyEntry(
    id: Id,
    date: string,
    morningIntention: Option<string>,
    energyLevel: Option<int>,
    suggestedTaskId: Option<Id>,
    tenMinuteActivity: Option<string>,
    activityCompleted: Option<bool>,
    eveningReflection: Option<string>,
    promiseKept: Option<string>,
    followUpResponse: Option<string>,
    photos: Option<seq<string>>,
    voiceNotes: Option<seq<string>>,
    createdAt: int)

  datatype InsertDailyEntry = InsertDailyEntry(
    date: string,
    morningIntention: Field<string>,
    energyLevel: Field<int>,
    suggestedTaskId: Field<Id>,
    tenMinuteActivity: Field<string>,
    activityCompleted: Field<bool>,
    eveningReflection: Field<string>,
    promiseKept: Field<string>,
    followUpResponse: Field<string>,
    photos: Field<seq<string>>,
    voiceNotes: Field<seq<string>>)

  datatype DailyPatch = DailyPatch(
    date: Option<string>,
    morningIntention: Field<string>,
    energyLevel: Field<int>,
    suggestedTaskId: Field<Id>,
    tenMinuteActivity: Field<string>,
    activityCompleted: Field<bool>,
    eveningReflection: Field<string>,
    promiseKept: Field<string>,
    followUpResponse: Field<string>,
    photos: Field<seq<string>>,
    voiceNotes: Field<seq<string>>)

  /** The record `createDailyEntry` stores: every optional field is
      `value || null`. */
  function NewDailyEntry(id: Id, ins: InsertDailyEntry, now: int): (e: DailyEntry)
    ensures e.id == id && e.createdAt == now && e.date == ins.date
    ensures e.morningIntention == TextOrNull(ins.morningIntention)
    ensures e.energyLevel == IntOrNull(ins.energyLevel)
    ensures e.suggestedTaskId == TextOrNull(ins.suggestedTaskId)
    ensures e.tenMinuteActivity == TextOrNull(ins.tenMinuteActivity)
    ensures e.activityCompleted == FlagOrNull(ins.activityCompleted)
    ensures e.eveningReflection == TextOrNull(ins.eveningReflection)
    ensures e.promiseKept == TextOrNull(ins.promiseKept)
    ensures e.followUpResponse == TextOrNull(ins.followUpResponse)
    ensures e.photos == ListOrNull(ins.photos)
    ensures e.voiceNotes == ListOrNull(ins.voiceNotes)
  {
    DailyEntry(id, ins.date, TextOrNull(ins.morningIntention), IntOrNull(ins.energyLevel),
               TextOrNull(ins.suggestedTaskId), TextOrNull(ins.tenMinuteActivity),
               FlagOrNull(ins.activityCompleted), TextOrNull(ins.eveningReflection),
               TextOrNull(ins.promiseKept), TextOrNull(ins.followUpResponse),
               ListOrNull(ins.photos), ListOrNull(ins.voiceNotes), now)
  }

  function MergeDaily(e: DailyEntry, p: DailyPatch): (r: DailyEntry)
    ensures r.id == e.id && r.createdAt == e.createdAt
    ensures r.date == Replace(e.date, p.date)
    ensures r.morningIntention == Overwrite(e.morningIntention, p.morningIntention)
    ensures r.energyLevel == Overwrite(e.energyLevel, p.energyLevel)
    ensures r.suggestedTaskId == Overwrite(e.suggestedTaskId, p.suggestedTaskId)
    ensures r.tenMinuteActivity == Overwrite(e.tenMinuteActivity, p.tenMinuteActivity)
    ensures r.activityCompleted == Overwrite(e.activityCompleted, p.activityCompleted)
    ensures r.eveningReflection == Overwrite(e.eveningReflection, p.eveningReflection)
    ensures r.promiseKept == Overwrite(e.promiseKept, p.promiseKept)
    ensures r.followUpResponse == Overwrite(e.followUpResponse, p.followUpResponse)
    ensures r.photos == Overwrite(e.photos, p.photos)
    ensures r.voiceNotes == Overwrite(e.voiceNotes, p.voiceNotes)
  {
    e.(date := Replace(e.date, p.date),
       morningIntention := Overwrite(e.morningIntention, p.morningIntention),
       energyLevel := Overwrite(e.energyLevel, p.energyLevel),
       suggestedTaskId := Overwrite(e.suggestedTaskId, p.suggestedTaskId),
       tenMinuteActivity := Overwrite(e.tenMinuteActivity, p.tenMinuteActivity),
       activityCompleted := Overwrite(e.activityCompleted, p.activityCompleted),
       eveningReflection := Overwrite(e.eveningReflection, p.eveningReflection),
       promiseKept := Overwrite(e.promiseKept, p.promiseKept),
       followUpResponse := Overwrite(e.followUpResponse, p.followUpResponse),
       photos := Overwrite(e.photos, p.photos),
       voiceNotes := Overwrite(e.voiceNotes, p.voiceNotes))
  }

  // ---------------------------------------------------------- Reflection

  datatype Reflection = Reflection(
    id: Id,
    promptId: string,
    promptText: string,
    response: string,
    followUpResponse: Option<string>,
    date: string,
    createdAt: int)

  datatype InsertReflection = InsertReflection(
    promptId: string,
    promptText: string,
    response: string,
    followUpResponse: Field<string>,
    date: string)

  datatype ReflectionPatch = ReflectionPatch(
    promptId: Option<string>,
    promptText: Option<string>,
    response: Option<string>,
    followUpResponse: Field<string>,
    date: Option<string>)

  function NewReflection(id: Id, ins: InsertReflection, now: int): (r: Reflection)
    ensures r.id == id && r.createdAt == now
    ensures r.promptId == ins.promptId && r.promptText == ins.promptText
    ensures r.response == ins.response && r.date == ins.date
    ensures r.followUpResponse == TextOrNull(ins.followUpResponse)
  {
    Reflection(id, ins.promptId, ins.promptText, ins.response,
               TextOrNull(ins.followUpResponse), ins.date, now)
  }

  function MergeReflection(x: Reflection, p: ReflectionPatch): (r: Reflection)
    ensures r.id == x.id && r.createdAt == x.createdAt
    ensures r.promptId == Replace(x.promptId, p.promptId)
    ensures r.promptText == Replace(x.promptText, p.promptText)
    ensures r.response == Replace(x.response, p.response)
    ensures r.followUpResponse == Overwrite(x.followUpResponse, p.followUpResponse)
    ensures r.date == Replace(x.date, p.date)
  {
    x.(promptId := Replace(x.promptId, p.promptId),
       promptText := Replace(x.promptText, p.promptText),
       response := Replace(x.response, p.response),
       followUpResponse := Overwrite(x.followUpResponse, p.followUpResponse),
       date := Replace(x.date, p.date))
  }

  // -------------------------------------------------------- WeeklyReview

  datatype WeeklyReview = WeeklyReview(
    id: Id,
    weekStart: string,
    weekEnd: string,
    proudActions: Option<string>,
    selfRespectMoments: Option<string>,
    patterns: Option<string>,
    nextWeekCultivate: Option<string>,
    nextWeekSupport: Option<string>,
    growthLevel: Option<int>,
    promisesKept: Option<int>,
    totalPromises: Option<int>,
    createdAt: int)

  datatype InsertWeeklyReview = InsertWeeklyReview(
    weekStart: string,
    weekEnd: string,
    proudActions: Field<string>,
    selfRespectMoments: Field<string>,
    patterns: Field<string>,
    nextWeekCultivate: Field<string>,
    nextWeekSupport: Field<string>,
    growthLevel: Field<int>,
    promisesKept: Field<int>,
    totalPromises: Field<int>)

  datatype ReviewPatch = ReviewPatch(
    weekStart: Option<string>,
    weekEnd: Option<string>,
    proudActions: Field<string>,
    selfRespectMoments: Field<string>,
    patterns: Field<string>,
    nextWeekCultivate: Field<string>,
    nextWeekSupport: Field<string>,
    growthLevel: Field<int>,
    promisesKept: Field<int>,
    totalPromises: Field<int>)

  /** The record `createWeeklyReview` stores; note that a count of 0 becomes
      `null` because 0 is falsy. */
  function NewWeeklyReview(id: Id, ins: InsertWeeklyReview, now: int): (w: WeeklyReview)
    ensures w.id == id && w.createdAt == now
    ensures w.weekStart == ins.weekStart && w.weekEnd == ins.weekEnd
    ensures w.proudActions == TextOrNull(ins.proudActions)
    ensures w.selfRespectMoments == TextOrNull(ins.selfRespectMoments)
    ensures w.patterns == TextOrNull(ins.patterns)
    ensures w.nextWeekCultivate == TextOrNull(ins.nextWeekCultivate)
    ensures w.nextWeekSupport == TextOrNull(ins.nextWeekSupport)
    ensures w.growthLevel == IntOrNull(ins.growthLevel)
    ensures w.promisesKept == IntOrNull(ins.promisesKept)
    ensures w.totalPromises == IntOrNull(ins.totalPromises)
  {
    WeeklyReview(id, ins.weekStart, ins.weekEnd, TextOrNull(ins.proudActions),
                 TextOrNull(ins.selfRespectMoments), TextOrNull(ins.patterns),
                 TextOrNull(ins.nextWeekCultivate), TextOrNull(ins.nextWeekSupport),
                 IntOrNull(ins.growthLevel), IntOrNull(ins.promisesKept),
                 IntOrNull(ins.totalPromises), now)
  }

  function MergeReview(w: WeeklyReview, p: ReviewPatch): (r: WeeklyReview)
    ensures r.id == w.id && r.createdAt == w.createdAt
    ensures r.weekStart == Replace(w.weekStart, p.weekStart)
    ensures r.weekEnd == Replace(w.weekEnd, p.weekEnd)
    ensures r.proudActions == Overwrite(w.proudActions, p.proudActions)
    ensures r.selfRespectMoments == Overwrite(w.selfRespectMoments, p.selfRespectMoments)
    ensures r.patterns == Overwrite(w.patterns, p.patterns)
    ensures r.nextWeekCultivate == Overwrite(w.nextWeekCultivate, p.nextWeekCultivate)
    ensures r.nextWeekSupport == Overwrite(w.nextWeekSupport, p.nextWeekSupport)
    ensures r.growthLevel == Overwrite(w.growthLevel, p.growthLevel)
    ensures r.promisesKept == Overwrite(w.promisesKept, p.promisesKept)
    ensures r.totalPromises == Overwrite(w.totalPromises, p.totalPromises)
  {
    w.(weekStart := Replace(w.weekStart, p.weekStart),
       weekEnd := Replace(w.weekEnd, p.weekEnd),
       proudActions := Overwrite(w.proudActions, p.proudActions),
       selfRespectMoments := Overwrite(w.selfRespectMoments, p.selfRespectMoments),
       patterns := Overwrite(w.patterns, p.patterns),
       nextWeekCultivate := Overwrite(w.nextWeekCultivate, p.nextWeekCultivate),
       nextWeekSupport := Overwrite(w.nextWeekSupport, p.nextWeekSupport),
       growthLevel := Overwrite(w.growthLevel, p.growthLevel),
       promisesKept := Overwrite(w.promisesKept, p.promisesKept),
       totalPromises := Overwrite(w.totalPromises, p.totalPromises))
  }

  // ----------------------------------------------------- merge properties

  /** Applying the same patch twice is the same as applying it once. */
  lemma MergeIdempotent(t: Task, p: TaskPatch, e: DailyEntry, q: DailyPatch,
                        x: Reflection, rp: ReflectionPatch, w: WeeklyReview, wp: ReviewPatch)
    ensures MergeTask(MergeTask(t, p), p) == MergeTask(t, p)
    ensures MergeDaily(MergeDaily(e, q), q) == MergeDaily(e, q)
    ensures MergeReflection(MergeReflection(x, rp), rp) == MergeReflection(x, rp)
    ensures MergeReview(MergeReview(w, wp), wp) == MergeReview(w, wp)
  {
  }

  /** A patch that names no field leaves the record as it was. */
  lemma EmptyPatchIsIdentity(t: Task)
    ensures MergeTask(t, EmptyTaskPatch) == t
  {
  }
}

=== FILE: reflections.dfy ===
/** The reflection prompts: the catalog, the per-prompt answers a page
    keeps while the user writes, the follow-up question shown, and the
    reflections a save sends. The answers are a JavaScript object keyed by
    prompt id, so they keep insertion order like a `Map`. */
module ReflectionPrompts {
  import opened Wrappers
  import opened Records
  import opened Tables
  import opened Seqs

  datatype Prompt = Prompt(id: string, question: string, yes: Option<string>, no: Option<string>, followUp: Option<string>)

  const SelfPromise := "self-promise"

  /** The daily prompts; only the first offers yes/no buttons. */
  const Catalog: seq<Prompt> := [
    Prompt(SelfPromise, "Did you keep a promise to yourself today?",
           Some("That's a powerful act of respect for yourself. How does it feel to notice that?"),
           Some("That happens. What got in the way, and how could you support yourself better tomorrow?"),
           None),
    Prompt("resistance", "What resistance did you notice in yourself today?", None, None,
           Some("Resistance often points to growth edges. What might this resistance be protecting or teaching you?")),
    Prompt("authenticity", "How did you honor your authentic self today?", None, None,
           Some("Authenticity is a practice. Each genuine moment builds your inner compass.")),
    Prompt("release", "What are you ready to release or forgive?", None, None,
           Some("Release creates space for new growth. What wants to emerge in this cleared space?"))
  ]

  /** The review page declares the same kind of catalog, empty. */
  const ReviewCatalog: seq<Prompt> := []

  /** Four prompts with distinct ids; the self-promise prompt has yes and
      no texts and no generic follow-up, the others only a follow-up. */
  lemma CatalogShape()
    ensures |Catalog| == 4
    ensures forall i, j :: 0 <= i < j < |Catalog| ==> Catalog[i].id != Catalog[j].id
    ensures forall i :: 0 <= i < |Catalog| ==>
      (Catalog[i].id == SelfPromise <==> Catalog[i].yes.Some? && Catalog[i].no.Some?)
    ensures forall i :: 0 <= i < |Catalog| && Catalog[i].id != SelfPromise ==>
      Catalog[i].followUp.Some? && Catalog[i].yes.None? && Catalog[i].no.None?
  {
  }

  datatype Answer = Yes | No

  /** What the page holds for one prompt; every field may be missing. */
  datatype Draft = Draft(response: Option<string>, followUpResponse: Option<string>, selectedButton: Option<Answer>)

  const NoDraft := Draft(None, None, None)

  type Drafts = Table<Draft>

  /** Every id in the order has a draft and vice versa. */
  predicate Tracked(d: Drafts) {
    (forall id :: id in d.order ==> id in d.rows) && (forall id :: id in d.rows ==> id in d.order)
  }

  function Current(d: Drafts, id: string): Draft {
    Get(d, id).GetOr(NoDraft)
  }

  /** `handleButtonResponse`: records the button and keeps the text, with
      `''` for a missing one. */
  function PressButton(d: Drafts, id: string, b: Answer): (r: Drafts)
    ensures Current(r, id).selectedButton == Some(b)
    ensures Current(r, id).response == Some(if Current(d, id).response.Some? then Current(d, id).response.value else "")
    ensures Current(r, id).followUpResponse == Current(d, id).followUpResponse
    ensures forall other :: other != id ==> Get(r, other) == Get(d, other)
    ensures Tracked(d) ==> Tracked(r)
  {
    var prev := Current(d, id);
    var text := if prev.response.Some? && prev.response.value != "" then prev.response.value else "";
    Set(d, id, prev.(selectedButton := Some(b), response := Some(text)))
  }

  /** `handleTextResponse`: replaces the prompt's text only. */
  function WriteResponse(d: Drafts, id: string, text: string): (r: Drafts)
    ensures Current(r, id) == Current(d, id).(response := Some(text))
    ensures forall other :: other != id ==> Get(r, other) == Get(d, other)
    ensures Tracked(d) ==> Tracked(r)
  {
    Set(d, id, Current(d, id).(response := Some(text)))
  }

  /** `handleFollowUpResponse`: replaces the prompt's follow-up text only. */
  function WriteFollowUp(d: Drafts, id: string, text: string): (r: Drafts)
    ensures Current(r, id) == Current(d, id).(followUpResponse := Some(text))
    ensures forall other :: other != id ==> Get(r, other) == Get(d, other)
    ensures Tracked(d) ==> Tracked(r)
  {
    Set(d, id, Current(d, id).(followUpResponse := Some(text)))
  }

  /** Editing one prompt never disturbs another: writes to different
      prompts commute. */
  lemma WritesCommute(d: Drafts, a: string, b: string, x: string, y: string)
    requires a != b
    ensures Get(WriteResponse(WriteFollowUp(d, b, y), a, x), a) == Get(WriteResponse(d, a, x), a)
    ensures Get(WriteResponse(WriteFollowUp(d, b, y), a, x), b) == Get(WriteFollowUp(d, b, y), b)
  {
  }

  predicate Truthy(t: Option<string>) {
    t.Some? && t.value != ""
  }

  function ButtonText(p: Prompt, b: Answer): Option<string> {
    match b
    case Yes => p.yes
    case No => p.no
  }

  /** `getFollowUpText`: the selected button's own text when the prompt has
      one, the prompt's generic follow-up otherwise. */
  function FollowUpText(p: Prompt, selected: Option<Answer>): (t: Option<string>)
    ensures selected.Some? && Truthy(ButtonText(p, selected.value)) ==> t == ButtonText(p, selected.value)
    ensures !(selected.Some? && Truthy(ButtonText(p, selected.value))) ==> t == p.followUp
  {
    if selected.Some? && Truthy(ButtonText(p, selected.value)) then ButtonText(p, selected.value)
    else p.followUp
  }

  /** On the catalog: the self-promise prompt answers each button with its
      own text, and the other prompts always show their follow-up. */
  lemma CatalogFollowUps(i: nat, selected: Option<Answer>)
    requires i < |Catalog|
    ensures Catalog[i].id == SelfPromise && selected.Some? ==>
      FollowUpText(Catalog[i], selected) == ButtonText(Catalog[i], selected.value)
    ensures Catalog[i].id != SelfPromise ==> FollowUpText(Catalog[i], selected) == Catalog[i].followUp
  {
  }

  /** The follow-up area shows when a button was pressed or the prompt has
      a follow-up question. */
  predicate FollowUpShown(p: Prompt, d: Draft) {
    d.selectedButton.Some? || Truthy(p.followUp)
  }

  /** The yes/no buttons belong to the self-promise prompt only. */
  predicate ButtonsShown(p: Prompt) {
    p.id == SelfPromise
  }

  /** Every catalog prompt shows a follow-up area, whatever was pressed. */
  lemma CatalogAlwaysFollowsUp(i: nat, d: Draft)
    requires i < |Catalog|
    requires ButtonsShown(Catalog[i]) ==> d.selectedButton.Some?
    ensures FollowUpShown(Catalog[i], d)
  {
  }

  function HasId(id: string): Prompt -> bool {
    (p: Prompt) => p.id == id
  }

  /** The reflection saved for one draft: none for an unknown prompt or an
      empty text; otherwise the prompt's question, the text, the follow-up
      and today's date. */
  function ToReflection(catalog: seq<Prompt>, id: string, d: Draft, today: string): (r: Option<InsertReflection>)
    ensures r.Some? <==> !NoneMatch(catalog, HasId(id)) && Truthy(d.response)
    ensures r.Some? ==> (&& r.value.promptId == id && r.value.date == today
                         && r.value.response == d.response.value && r.value.response != ""
                         && exists i :: FirstMatchAt(catalog, HasId(id), i) && catalog[i].question == r.value.promptText)
    ensures r.Some? ==> (d.followUpResponse.Some? <==> r.value.followUpResponse.Val?)
  {
    var p := FindFirst(catalog, HasId(id));
    if p.None? || !Truthy(d.response) then None
    else
      Some(InsertReflection(id, p.value.question, d.response.value,
                            if d.followUpResponse.Some? then Val(d.followUpResponse.value) else Absent, today))
  }

  /** `saveAllReflections`: one reflection per draft, in the drafts' order,
      for each draft `ToReflection` keeps. */
  function SaveAll(catalog: seq<Prompt>, d: Drafts, ids: seq<string>, today: string): (rs: seq<InsertReflection>)
    requires forall id :: id in ids ==> id in d.rows
    ensures |rs| <= |ids|
    ensures forall k :: 0 <= k < |rs| ==> (&& rs[k].promptId in ids && rs[k].date == today
                                           && rs[k].response != ""
                                           && !NoneMatch(catalog, HasId(rs[k].promptId)))
    ensures forall i :: 0 <= i < |ids| && ToReflection(catalog, ids[i], d.rows[ids[i]], today).Some? ==>
      ToReflection(catalog, ids[i], d.rows[ids[i]], today).value in rs
    ensures catalog == [] ==> rs == []
    decreases |ids|
  {
    if |ids| == 0 then []
    else
      var rest := SaveAll(catalog, d, ids[1..], today);
      assert forall i :: 1 <= i < |ids| ==> ids[i] == ids[1..][i - 1];
      var r := ToReflection(catalog, ids[0], d.rows[ids[0]], today);
      if r.Some? then [r.value] + rest else rest
  }

  /** Each draft's reflection, or none, in the drafts' order. */
  function Converted(catalog: seq<Prompt>, d: Drafts, ids: seq<string>, today: string)
    : (cs: seq<Option<InsertReflection>>)
    requires forall id :: id in ids ==> id in d.rows
    ensures |cs| == |ids|
    ensures forall i :: 0 <= i < |ids| ==> cs[i] == ToReflection(catalog, ids[i], d.rows[ids[i]], today)
  {
    seq(|ids|, i requires 0 <= i < |ids| => ToReflection(catalog, ids[i], d.rows[ids[i]], today))
  }

  predicate IsSome(o: Option<InsertReflection>) {
    o.Some?
  }

  function Unwrapped(os: seq<Option<InsertReflection>>): (r: seq<InsertReflection>)
    requires forall i :: 0 <= i < |os| ==> os[i].Some?
    ensures |r| == |os| && forall i :: 0 <= i < |os| ==> os[i] == Some(r[i])
  {
    seq(|os|, i requires 0 <= i < |os| => os[i].value)
  }

  lemma UnwrappedCons(o: Option<InsertReflection>, os: seq<Option<InsertReflection>>)
    requires o.Some? && forall i :: 0 <= i < |os| ==> os[i].Some?
    ensures Unwrapped([o] + os) == [o.value] + Unwrapped(os)
  {
  }

  /** The saves are exactly the drafts' reflections that exist, in the
      drafts' order: one save per draft that converts, and nothing else. */
  lemma {:induction false} SaveAllInOrder(catalog: seq<Prompt>, d: Drafts, ids: seq<string>, today: string)
    requires forall id :: id in ids ==> id in d.rows
    ensures SaveAll(catalog, d, ids, today) == Unwrapped(Filter(Converted(catalog, d, ids, today), IsSome))
    decreases |ids|
  {
    if |ids| > 0 {
      var cs := Converted(catalog, d, ids, today);
      var tail := Converted(catalog, d, ids[1..], today);
      SaveAllInOrder(catalog, d, ids[1..], today);
      assert cs[1..] == tail by {
        forall i | 0 <= i < |tail| ensures cs[1..][i] == tail[i] {
          assert ids[1..][i] == ids[i + 1];
        }
      }
      FilterHead(cs, IsSome);
      var f := Filter(tail, IsSome);
      if cs[0].Some? {
        UnwrappedCons(cs[0], f);
      }
    }
  }

  /** One save per draft that converts, and every save is the reflection
      of one of the drafts. */
  lemma SaveAllTraced(catalog: seq<Prompt>, d: Drafts, ids: seq<string>, today: string)
    requires forall id :: id in ids ==> id in d.rows
    ensures |SaveAll(catalog, d, ids, today)| == Count(Converted(catalog, d, ids, today), IsSome)
    ensures var rs := SaveAll(catalog, d, ids, today);
      forall k :: 0 <= k < |rs| ==>
        exists i :: 0 <= i < |ids| && ToReflection(catalog, ids[i], d.rows[ids[i]], today) == Some(rs[k])
  {
    var cs := Converted(catalog, d, ids, today);
    var rs := SaveAll(catalog, d, ids, today);
    SaveAllInOrder(catalog, d, ids, today);
    var f := Filter(cs, IsSome);
    forall k | 0 <= k < |rs|
      ensures exists i :: 0 <= i < |ids| && ToReflection(catalog, ids[i], d.rows[ids[i]], today) == Some(rs[k])
    {
      assert f[k] == Some(rs[k]);
      assert f[k] in cs;
      var i :| 0 <= i < |cs| && cs[i] == f[k];
      assert ToReflection(catalog, ids[i], d.rows[ids[i]], today) == Some(rs[k]);
    }
  }

  /** The whole save over the page's drafts. */
  function SaveDrafts(catalog: seq<Prompt>, d: Drafts, today: string): (rs: seq<InsertReflection>)
    requires Tracked(d)
    ensures |rs| <= |d.order|
    ensures forall k :: 0 <= k < |rs| ==> rs[k].promptId in d.order && rs[k].date == today
    ensures catalog == [] ==> rs == []
  {
    SaveAll(catalog, d, d.order, today)
  }

  /** On the review page nothing is ever saved, whatever was written. */
  lemma ReviewPageSavesNothing(d: Drafts, today: string)
    requires Tracked(d)
    ensures SaveDrafts(ReviewCatalog, d, today) == []
  {
  }
}

=== FILE: routes.dfy ===
/** The JSON API: which handler a request reaches, and what that handler
    does to the in-memory storage and answers. Request bodies appear as the
    results of the schema parses the handlers perform (`None` when the
    parse throws); the parsing itself is not modelled. */
module Routes {
  import opened Wrappers
  import opened Text
  import opened Records
  import MemStorage

  datatype Method = GET | POST | PUT | DELETE | PATCH

  /** The registered API routes; `AppShell` is every other request, which
      the single-page application's catch-all answers with `index.html`. */
  datatype Endpoint =
    | ListTasks
    | CreateTask
    | UpdateTask(id: Id)
    | DeleteTask(id: Id)
    | CompleteTask(id: Id)
    | AllDailyEntries
    | DailyByDate(date: string)
    | CreateDaily
    | UpdateDaily(id: Id)
    | DeleteDaily(id: Id)
    | DailyForWeek(weekStart: string, weekEnd: string)
    | ListReflections(onDate: Option<string>)
    | CreateReflection
    | UpdateReflection(id: Id)
    | DeleteReflection(id: Id)
    | ReviewForWeek(weekStart: string)
    | CreateReview
    | UpdateReview(id: Id)
    | DeleteReview(id: Id)
    | AllTasks
    | AllReflections
    | AllReviews
    | AppShell

  /** The path split at `/`, ignoring one trailing slash (Express routes
      are not strict about it). */
  function Segments(path: string): (segs: seq<string>)
    ensures |segs| >= 1
  {
    var parts := Split(path, '/');
    if |parts| > 1 && parts[|parts| - 1] == "" then parts[..|parts| - 1] else parts
  }

  /** A route parameter matches one non-empty path segment. */
  predicate Param(x: string) {
    x != "" && '/' !in x
  }

  function Route(m: Method, path: string): (e: Endpoint) {
    var p := Segments(path);
    if |p| >= 3 && p[0] == "" && p[1] == "api" then RouteApi(m, p[2..]) else AppShell
  }

  /** Matches the segments after `/api`. */
  function RouteApi(m: Method, p: seq<string>): (e: Endpoint)
    requires forall k :: 0 <= k < |p| ==> '/' !in p[k]
    ensures (|| e.UpdateTask? || e.DeleteTask? || e.CompleteTask? || e.UpdateDaily?
             || e.DeleteDaily? || e.UpdateReflection? || e.DeleteReflection?
             || e.UpdateReview? || e.DeleteReview?) ==> Param(e.id)
  {
    var n := |p|;
    if n == 1 then
      if m == GET && p[0] == "tasks" then ListTasks
      else if m == POST && p[0] == "tasks" then CreateTask
      else if m == GET && p[0] == "daily-all" then AllDailyEntries
      else if m == POST && p[0] == "daily" then CreateDaily
      else if m == GET && p[0] == "reflections" then ListReflections(None)
      else if m == POST && p[0] == "reflections" then CreateReflection
      else if m == POST && p[0] == "weekly-review" then CreateReview
      else if m == GET && p[0] == "tasks-all" then AllTasks
      else if m == GET && p[0] == "reflections-all" then AllReflections
      else if m == GET && p[0] == "weekly-reviews-all" then AllReviews
      else AppShell
    else if n == 2 && p[1] != "" then
      var x := p[1];
      if m == PUT && p[0] == "tasks" then UpdateTask(x)
      else if m == DELETE && p[0] == "tasks" then DeleteTask(x)
      else if m == GET && p[0] == "daily" then DailyByDate(x)
      else if m == PUT && p[0] == "daily" then UpdateDaily(x)
      else if m == DELETE && p[0] == "daily-entries" then DeleteDaily(x)
      else if m == GET && p[0] == "reflections" then ListReflections(Some(x))
      else if m == PUT && p[0] == "reflections" then UpdateReflection(x)
      else if m == DELETE && p[0] == "reflections" then DeleteReflection(x)
      else if m == GET && p[0] == "weekly-review" then ReviewForWeek(x)
      else if m == PUT && p[0] == "weekly-review" then UpdateReview(x)
      else if m == DELETE && p[0] == "weekly-review" then DeleteReview(x)
      else AppShell
    else if n == 3 && p[1] != "" && p[2] != "" then
      if m == PATCH && p[0] == "tasks" && p[2] == "complete" then CompleteTask(p[1])
      else if m == GET && p[0] == "daily-week" then DailyForWeek(p[1], p[2])
      else AppShell
    else AppShell
  }

  /** Endpoints whose parameters are valid path segments. */
  predicate WellFormed(e: Endpoint) {
    match e
    case UpdateTask(id) => Param(id)
    case DeleteTask(id) => Param(id)
    case CompleteTask(id) => Param(id)
    case DailyByDate(date) => Param(date)
    case UpdateDaily(id) => Param(id)
    case DeleteDaily(id) => Param(id)
    case DailyForWeek(a, b) => Param(a) && Param(b)
    case ListReflections(date) => date.None? || Param(date.value)
    case UpdateReflection(id) => Param(id)
    case DeleteReflection(id) => Param(id)
    case ReviewForWeek(w) => Param(w)
    case UpdateReview(id) => Param(id)
    case DeleteReview(id) => Param(id)
    case _ => true
  }

  /** The method and the path segments after `/api` a client uses to reach
      `e`. */
  function Address(e: Endpoint): (a: (Method, seq<string>))
    requires !e.AppShell?
  {
    match e
    case ListTasks => (GET, ["tasks"])
    case CreateTask => (POST, ["tasks"])
    case UpdateTask(id) => (PUT, ["tasks", id])
    case DeleteTask(id) => (DELETE, ["tasks", id])
    case CompleteTask(id) => (PATCH, ["tasks", id, "complete"])
    case AllDailyEntries => (GET, ["daily-all"])
    case DailyByDate(date) => (GET, ["daily", date])
    case CreateDaily => (POST, ["daily"])
    case UpdateDaily(id) => (PUT, ["daily", id])
    case DeleteDaily(id) => (DELETE, ["daily-entries", id])
    case DailyForWeek(a, b) => (GET, ["daily-week", a, b])
    case ListReflections(date) => (GET, if date.None? then ["reflections"] else ["reflections", date.value])
    case CreateReflection => (POST, ["reflections"])
    case UpdateReflection(id) => (PUT, ["reflections", id])
    case DeleteReflection(id) => (DELETE, ["reflections", id])
    case ReviewForWeek(w) => (GET, ["weekly-review", w])
    case CreateReview => (POST, ["weekly-review"])
    case UpdateReview(id) => (PUT, ["weekly-review", id])
    case DeleteReview(id) => (DELETE, ["weekly-review", id])
    case AllTasks => (GET, ["tasks-all"])
    case AllReflections => (GET, ["reflections-all"])
    case AllReviews => (GET, ["weekly-reviews-all"])
  }

  function PathOf(segs: seq<string>): string {
    Join(["", "api"] + segs, "/")
  }

  /** Splitting an `/api/...` path built from slash-free segments, the last
      of them non-empty, recovers the segments. */
  lemma PathSegments(segs: seq<string>)
    requires |segs| >= 1 && segs[|segs| - 1] != ""
    requires forall k :: 0 <= k < |segs| ==> '/' !in segs[k]
    ensures Segments(PathOf(segs)) == ["", "api"] + segs
  {
    var parts := ["", "api"] + segs;
    assert forall k :: 0 <= k < |parts| ==> '/' !in parts[k];
    JoinSplit(parts, '/');
  }

  predicate Fixed(e: Endpoint) {
    || e.ListTasks? || e.CreateTask? || e.AllDailyEntries? || e.CreateDaily?
    || e.CreateReflection? || e.CreateReview? || e.AllTasks? || e.AllReflections? || e.AllReviews?
    || (e.ListReflections? && e.onDate.None?)
  }

  predicate TaskOrDaily(e: Endpoint) {
    || e.UpdateTask? || e.DeleteTask? || e.CompleteTask? || e.DailyByDate?
    || e.UpdateDaily? || e.DeleteDaily? || e.DailyForWeek?
  }

  lemma RouteApiFixed(e: Endpoint)
    requires Fixed(e)
    ensures forall k :: 0 <= k < |Address(e).1| ==> '/' !in Address(e).1[k]
    ensures RouteApi(Address(e).0, Address(e).1) == e
  {
  }

  lemma RouteApiTaskOrDaily(e: Endpoint)
    requires TaskOrDaily(e) && WellFormed(e)
    ensures forall k :: 0 <= k < |Address(e).1| ==> '/' !in Address(e).1[k]
    ensures RouteApi(Address(e).0, Address(e).1) == e
  {
  }

  lemma RouteApiOthers(e: Endpoint)
    requires !e.AppShell? && !Fixed(e) && !TaskOrDaily(e) && WellFormed(e)
    ensures forall k :: 0 <= k < |Address(e).1| ==> '/' !in Address(e).1[k]
    ensures RouteApi(Address(e).0, Address(e).1) == e
  {
  }

  lemma RouteApiAddress(e: Endpoint)
    requires !e.AppShell? && WellFormed(e)
    ensures forall k :: 0 <= k < |Address(e).1| ==> '/' !in Address(e).1[k]
    ensures RouteApi(Address(e).0, Address(e).1) == e
  {
    if Fixed(e) {
      RouteApiFixed(e);
    } else if TaskOrDaily(e) {
      RouteApiTaskOrDaily(e);
    } else {
      RouteApiOthers(e);
    }
  }

  /** Every route is reached by its own method and path: routing inverts
      `Address`. */
  lemma RouteAddress(e: Endpoint)
    requires !e.AppShell? && WellFormed(e)
    ensures Route(Address(e).0, PathOf(Address(e).1)) == e
  {
    var (m, segs) := Address(e);
    RouteApiAddress(e);
    PathSegments(segs);
    assert (["", "api"] + segs)[2..] == segs;
  }

  // ------------------------------------------------------------ handling

  /** What each schema parse of the request body yields. */
  datatype Body = Body(
    task: Option<InsertTask>,
    taskPatch: Option<TaskPatch>,
    daily: Option<InsertDailyEntry>,
    dailyPatch: Option<DailyPatch>,
    reflection: Option<InsertReflection>,
    reflectionPatch: Option<ReflectionPatch>,
    review: Option<InsertWeeklyReview>,
    reviewPatch: Option<ReviewPatch>,
    completed: Option<bool>)

  datatype Request = Request(verb: Method, path: string, weekStart: Option<string>, body: Body)

  datatype Payload =
    | OneTask(task: Task)
    | Tasks(tasks: seq<Task>)
    | OneEntry(entry: DailyEntry)
    | Entries(entries: seq<DailyEntry>)
    | OneReflection(reflection: Reflection)
    | Reflections(reflections: seq<Reflection>)
    | OneReview(review: WeeklyReview)
    | Reviews(reviews: seq<WeeklyReview>)
    | JsonNull
    | Message(text: string)
    | Succeeded
    | IndexHtml

  datatype Response = Response(status: nat, payload: Payload)

  /** Endpoints that only read. */
  predicate ReadOnly(e: Endpoint) {
    e.ListTasks? || e.AllDailyEntries? || e.DailyByDate? || e.DailyForWeek?
    || e.ListReflections? || e.ReviewForWeek? || e.AllTasks? || e.AllReflections?
    || e.AllReviews? || e.AppShell?
  }

  /** The body fails the schema parse the endpoint performs. */
  predicate Rejected(e: Endpoint, b: Body) {
    || (e.CreateTask? && b.task.None?)
    || (e.UpdateTask? && b.taskPatch.None?)
    || (e.CreateDaily? && b.daily.None?)
    || (e.UpdateDaily? && b.dailyPatch.None?)
    || (e.CreateReflection? && b.reflection.None?)
    || (e.UpdateReflection? && b.reflectionPatch.None?)
    || (e.CreateReview? && b.review.None?)
    || (e.UpdateReview? && b.reviewPatch.None?)
  }

  /** The endpoint names a record by id and the storage holds none. */
  predicate Unknown(s: MemStorage.Storage, e: Endpoint) {
    || ((e.UpdateTask? || e.DeleteTask? || e.CompleteTask?) && e.id !in s.tasks.rows)
    || ((e.UpdateDaily? || e.DeleteDaily?) && e.id !in s.dailyEntries.rows)
    || ((e.UpdateReflection? || e.DeleteReflection?) && e.id !in s.reflections.rows)
    || ((e.UpdateReview? || e.DeleteReview?) && e.id !in s.weeklyReviews.rows)
  }

  function Respond(p: Payload): Response { Response(200, p) }

  /** What the handler's status code says about the request. */
  ghost predicate Answered(s: MemStorage.Storage, e: Endpoint, b: Body, r: (MemStorage.Storage, Response)) {
    && MemStorage.Valid(r.0)
    && (r.1.status == 400 <==> Rejected(e, b))
    && (r.1.status == 404 <==> !Rejected(e, b) && Unknown(s, e))
    && (r.1.status == 200 <==> !Rejected(e, b) && !Unknown(s, e))
    && (r.1.status != 200 ==> r.0 == s)
    && (ReadOnly(e) ==> r.0 == s)
  }

  /** Answers one request. `now` stands for the clock, `dateValue` for
      `new Date(date).getTime()`. Failed requests and reads leave the
      storage as it was; every path the API does not register gets the
      application page. */
  function Handle(s: MemStorage.Storage, req: Request, now: int, dateValue: string -> int)
    : (r: (MemStorage.Storage, Response))
    requires MemStorage.Valid(s)
    ensures Answered(s, Route(req.verb, req.path), req.body, r)
    ensures Route(req.verb, req.path).AppShell? ==> r == (s, Respond(IndexHtml))
  {
    Dispatch(s, Route(req.verb, req.path), req, now, dateValue)
  }

  function Dispatch(s: MemStorage.Storage, e: Endpoint, req: Request, now: int, dateValue: string -> int)
    : (r: (MemStorage.Storage, Response))
    requires MemStorage.Valid(s)
    ensures Answered(s, e, req.body, r)
    ensures e.AppShell? ==> r == (s, Respond(IndexHtml))
  {
    if ReadOnly(e) then
      assert !Rejected(e, req.body) && !Unknown(s, e);
      Read(s, e, req.weekStart, dateValue)
    else Write(s, e, req.body, now)
  }

  /** Reads: the storage is unchanged and the answer is 200. */
  function Read(s: MemStorage.Storage, e: Endpoint, weekStart: Option<string>, dateValue: string -> int)
    : (r: (MemStorage.Storage, Response))
    requires MemStorage.Valid(s) && ReadOnly(e)
    ensures r.0 == s && r.1.status == 200
    ensures e.AppShell? ==> r.1.payload == IndexHtml
    ensures e.DailyByDate? ==> (r.1.payload == JsonNull <==> MemStorage.GetDailyEntry(s, e.date).None?)
    ensures e.ReviewForWeek? ==> (r.1.payload == JsonNull <==> MemStorage.GetWeeklyReview(s, e.weekStart).None?)
  {
    match e
    case ListTasks => (s, Respond(Tasks(MemStorage.GetTasks(s, weekStart))))
    case AllTasks => (s, Respond(Tasks(MemStorage.GetAllTasks(s))))
    case AllDailyEntries => (s, Respond(Entries(MemStorage.GetAllDailyEntries(s, dateValue))))
    case DailyByDate(date) =>
      var found := MemStorage.GetDailyEntry(s, date);
      (s, Respond(if found.Some? then OneEntry(found.value) else JsonNull))
    case DailyForWeek(a, z) => (s, Respond(Entries(MemStorage.GetDailyEntriesForWeek(s, a, z))))
    case ListReflections(date) => (s, Respond(Reflections(MemStorage.GetReflections(s, date))))
    case AllReflections => (s, Respond(Reflections(MemStorage.GetAllReflections(s))))
    case ReviewForWeek(w) =>
      var found := MemStorage.GetWeeklyReview(s, w);
      (s, Respond(if found.Some? then OneReview(found.value) else JsonNull))
    case AllReviews => (s, Respond(Reviews(MemStorage.GetAllWeeklyReviews(s))))
    case AppShell => (s, Respond(IndexHtml))
  }

  /** Writes, each answered by its own handler. */
  function Write(s: MemStorage.Storage, e: Endpoint, b: Body, now: int)
    : (r: (MemStorage.Storage, Response))
    requires MemStorage.Valid(s) && !ReadOnly(e)
    ensures Answered(s, e, b, r)
  {
    match e
    case CreateTask => PostTask(s, b, now)
    case UpdateTask(id) => PutTask(s, id, b)
    case DeleteTask(id) => RemoveTask(s, id, b)
    case CompleteTask(id) => PatchCompletion(s, id, b)
    case CreateDaily => PostDaily(s, b, now)
    case UpdateDaily(id) => PutDaily(s, id, b)
    case DeleteDaily(id) => RemoveDaily(s, id, b)
    case CreateReflection => PostReflection(s, b, now)
    case UpdateReflection(id) => PutReflection(s, id, b)
    case DeleteReflection(id) => RemoveReflection(s, id, b)
    case CreateReview => PostReview(s, b, now)
    case UpdateReview(id) => PutReview(s, id, b)
    case DeleteReview(id) => RemoveReview(s, id, b)
  }

  function PostTask(s: MemStorage.Storage, b: Body, now: int): (r: (MemStorage.Storage, Response))
    requires MemStorage.Valid(s)
    ensures Answered(s, CreateTask, b, r)
  {
    if b.task.None? then (s, Response(400, Message("Invalid task data")))
    else
      var (s', x) := MemStorage.CreateTask(s, b.task.value, now);
      (s', Respond(OneTask(x)))
  }

  function PutTask(s: MemStorage.Storage, id: Id, b: Body): (r: (MemStorage.Storage, Response))
    requires MemStorage.Valid(s)
    ensures Answered(s, UpdateTask(id), b, r)
  {
    if b.taskPatch.None? then (s, Response(400, Message("Invalid task data")))
    else
      var (s', x) := MemStorage.UpdateTask(s, id, b.taskPatch.value);
      if x.None? then (s, Response(404, Message("Task not found"))) else (s', Respond(OneTask(x.value)))
  }

  function RemoveTask(s: MemStorage.Storage, id: Id, b: Body): (r: (MemStorage.Storage, Response))
    requires MemStorage.Valid(s)
    ensures Answered(s, DeleteTask(id), b, r)
  {
    var (s', found) := MemStorage.DeleteTask(s, id);
    if found then (s', Respond(Succeeded)) else (s, Response(404, Message("Task not found")))
  }

  function PatchCompletion(s: MemStorage.Storage, id: Id, b: Body): (r: (MemStorage.Storage, Response))
    requires MemStorage.Valid(s)
    ensures Answered(s, CompleteTask(id), b, r)
  {
    var (s', x) := MemStorage.UpdateTask(s, id, CompletionPatch(b.completed));
    if x.None? then (s, Response(404, Message("Task not found"))) else (s', Respond(OneTask(x.value)))
  }

  function PostDaily(s: MemStorage.Storage, b: Body, now: int): (r: (MemStorage.Storage, Response))
    requires MemStorage.Valid(s)
    ensures Answered(s, CreateDaily, b, r)
  {
    if b.daily.None? then (s, Response(400, Message("Invalid daily entry data")))
    else
      var (s', x) := MemStorage.CreateDailyEntry(s, b.daily.value, now);
      (s', Respond(OneEntry(x)))
  }

  function PutDaily(s: MemStorage.Storage, id: Id, b: Body): (r: (MemStorage.Storage, Response))
    requires MemStorage.Valid(s)
    ensures Answered(s, UpdateDaily(id), b, r)
  {
    if b.dailyPatch.None? then (s, Response(400, Message("Invalid daily entry data")))
    else
      var (s', x) := MemStorage.UpdateDailyEntry(s, id, b.dailyPatch.value);
      if x.None? then (s, Response(404, Message("Daily entry not found"))) else (s', Respond(OneEntry(x.value)))
  }

  function RemoveDaily(s: MemStorage.Storage, id: Id, b: Body): (r: (MemStorage.Storage, Response))
    requires MemStorage.Valid(s)
    ensures Answered(s, DeleteDaily(id), b, r)
  {
    var d := MemStorage.DeleteDailyEntry(s, id);
    if d.1 then (d.0, Respond(Succeeded)) else (s, Response(404, Message("Daily entry not found")))
  }

  function PostReflection(s: MemStorage.Storage, b: Body, now: int): (r: (MemStorage.Storage, Response))
    requires MemStorage.Valid(s)
    ensures Answered(s, CreateReflection, b, r)
  {
    if b.reflection.None? then (s, Response(400, Message("Invalid reflection data")))
    else
      var (s', x) := MemStorage.CreateReflection(s, b.reflection.value, now);
      (s', Respond(OneReflection(x)))
  }

  function PutReflection(s: MemStorage.Storage, id: Id, b: Body): (r: (MemStorage.Storage, Response))
    requires MemStorage.Valid(s)
    ensures Answered(s, UpdateReflection(id), b, r)
  {
    if b.reflectionPatch.None? then (s, Response(400, Message("Invalid reflection data")))
    else
      var (s', x) := MemStorage.UpdateReflection(s, id, b.reflectionPatch.value);
      if x.None? then (s, Response(404, Message("Reflection not found"))) else (s', Respond(OneReflection(x.value)))
  }

  function RemoveReflection(s: MemStorage.Storage, id: Id, b: Body): (r: (MemStorage.Storage, Response))
    requires MemStorage.Valid(s)
    ensures Answered(s, DeleteReflection(id), b, r)
  {
    var d := MemStorage.DeleteReflection(s, id);
    if d.1 then (d.0, Respond(Succeeded)) else (s, Response(404, Message("Reflection not found")))
  }

  function PostReview(s: MemStorage.Storage, b: Body, now: int): (r: (MemStorage.Storage, Response))
    requires MemStorage.Valid(s)
    ensures Answered(s, CreateReview, b, r)
  {
    if b.review.None? then (s, Response(400, Message("Invalid weekly review data")))
    else
      var (s', x) := MemStorage.CreateWeeklyReview(s, b.review.value, now);
      (s', Respond(OneReview(x)))
  }

  function PutReview(s: MemStorage.Storage, id: Id, b: Body): (r: (MemStorage.Storage, Response))
    requires MemStorage.Valid(s)
    ensures Answered(s, UpdateReview(id), b, r)
  {
    if b.reviewPatch.None? then (s, Response(400, Message("Invalid weekly review data")))
    else
      var (s', x) := MemStorage.UpdateWeeklyReview(s, id, b.reviewPatch.value);
      if x.None? then (s, Response(404, Message("Weekly review not found"))) else (s', Respond(OneReview(x.value)))
  }

  function RemoveReview(s: MemStorage.Storage, id: Id, b: Body): (r: (MemStorage.Storage, Response))
    requires MemStorage.Valid(s)
    ensures Answered(s, DeleteReview(id), b, r)
  {
    var d := MemStorage.DeleteWeeklyReview(s, id);
    if d.1 then (d.0, Respond(Succeeded)) else (s, Response(404, Message("Weekly review not found")))
  }

  // ------------------------------------------------------------- logging

  /** The request-log line, or `None` for paths outside `/api`. `json` is the
      serialized body the handler sent, when it sent a truthy one. Lines
      longer than 80 characters are cut to 79 and end in an ellipsis. */
  function LogLine(verb: string, path: string, status: nat, duration: nat, json: Option<string>)
    : (r: Option<string>)
    ensures r.Some? <==> StartsWith(path, "/api")
    ensures r.Some? ==> |r.value| <= 80
    ensures r.Some? ==> var full := FullLogLine(verb, path, status, duration, json);
      && (|full| <= 80 ==> r.value == full)
      && (|full| > 80 ==> |r.value| == 80 && r.value[..79] == full[..79] && r.value[79] == '…')
  {
    if !StartsWith(path, "/api") then None
    else
      var full := FullLogLine(verb, path, status, duration, json);
      Some(if |full| > 80 then full[..79] + "…" else full)
  }

  /** The untruncated line: method, path, status and duration, then the
      body after ` :: ` when one was sent. */
  function FullLogLine(verb: string, path: string, status: nat, duration: nat, json: Option<string>): (r: string)
    ensures StartsWith(r, verb + " " + path + " ")
    ensures var timing := verb + " " + path + " " + NatToString(status) + " in " + NatToString(duration) + "ms";
      && (json.None? ==> r == timing)
      && (json.Some? ==> r == timing + " :: " + json.value)
  {
    var head := verb + " " + path + " ";
    var line := head + NatToString(status) + " in " + NatToString(duration) + "ms";
    var r := if json.Some? then line + " :: " + json.value else line;
    assert r[..|head|] == head;
    r
  }
}

=== FILE: seqs.dfy ===
/** Order-preserving filters and counts over sequences: the model of
    JavaScript's `Array.prototype.filter` and `.filter(...).length`. */
module Seqs {

  /** The elements of `xs` that satisfy `p`, in their original order. */
  function Filter<T>(xs: seq<T>, p: T -> bool): (r: seq<T>)
    ensures |r| <= |xs|
    ensures forall i :: 0 <= i < |r| ==> p(r[i]) && r[i] in xs
    ensures forall i :: 0 <= i < |xs| && p(xs[i]) ==> xs[i] in r
    ensures multiset(r) <= multiset(xs)
  {
    if |xs| == 0 then []
    else
      var rest := Filter(xs[1..], p);
      FilterStep(xs, p, rest);
      if p(xs[0]) then [xs[0]] + rest else rest
  }

  /** One step of `Filter`: what holds of the filtered tail holds of the
      result for the whole sequence. */
  lemma FilterStep<T>(xs: seq<T>, p: T -> bool, rest: seq<T>)
    requires |xs| > 0
    requires forall i :: 0 <= i < |rest| ==> p(rest[i]) && rest[i] in xs[1..]
    requires forall i :: 0 <= i < |xs[1..]| && p(xs[1..][i]) ==> xs[1..][i] in rest
    requires multiset(rest) <= multiset(xs[1..])
    ensures var r := if p(xs[0]) then [xs[0]] + rest else rest;
      && (forall i :: 0 <= i < |r| ==> p(r[i]) && r[i] in xs)
      && (forall i :: 0 <= i < |xs| && p(xs[i]) ==> xs[i] in r)
      && multiset(r) <= multiset(xs)
  {
    var tail := xs[1..];
    assert xs == [xs[0]] + tail;
    assert multiset(xs) == multiset{xs[0]} + multiset(tail);
    forall i | 0 <= i < |rest| ensures rest[i] in xs {
      assert rest[i] in tail;
    }
    forall i | 1 <= i < |xs| && p(xs[i]) ensures xs[i] in rest {
      assert xs[i] == tail[i - 1];
    }
  }

  /** An element of the input survives the filter exactly when it passes. */
  lemma FilterKeepsExactly<T>(xs: seq<T>, p: T -> bool)
    ensures forall i :: 0 <= i < |xs| ==> (xs[i] in Filter(xs, p) <==> p(xs[i]))
  {
    forall i | 0 <= i < |xs| ensures xs[i] in Filter(xs, p) <==> p(xs[i]) {
      FilterMembership(xs, p, xs[i]);
    }
  }

  /** What survives a filter is exactly what is in the input and passes. */
  lemma FilterMembership<T>(xs: seq<T>, p: T -> bool, x: T)
    ensures x in Filter(xs, p) <==> x in xs && p(x)
  {
    var r := Filter(xs, p);
    if x in r {
      var i :| 0 <= i < |r| && r[i] == x;
    }
    if x in xs && p(x) {
      var i :| 0 <= i < |xs| && xs[i] == x;
    }
  }

  /** Every element of `xs` satisfies `p`. */
  predicate All<T>(xs: seq<T>, p: T -> bool) {
    forall i :: 0 <= i < |xs| ==> p(xs[i])
  }

  /** The number of elements of `xs` that satisfy `p`. */
  function Count<T>(xs: seq<T>, p: T -> bool): nat {
    |Filter(xs, p)|
  }

  /** `a` is an order-preserving subsequence of `b`. */
  ghost predicate IsSubsequence<T>(a: seq<T>, b: seq<T>)
    decreases |b|
  {
    |a| == 0 || (|b| > 0 && if a[0] == b[0] then IsSubsequence(a[1..], b[1..]) else IsSubsequence(a, b[1..]))
  }

  /** A filter keeps the surviving elements in their original order. */
  lemma {:induction false} FilterIsSubsequence<T>(xs: seq<T>, p: T -> bool)
    ensures IsSubsequence(Filter(xs, p), xs)
  {
    if |xs| > 0 {
      FilterIsSubsequence(xs[1..], p);
      if !p(xs[0]) {
        SubsequenceOfTail(Filter(xs[1..], p), xs);
      }
    }
  }

  /** Anything that is a subsequence of the tail is a subsequence of the whole. */
  lemma {:induction false} SubsequenceOfTail<T>(a: seq<T>, b: seq<T>)
    requires |b| > 0
    requires IsSubsequence(a, b[1..])
    ensures IsSubsequence(a, b)
    decreases |b|, 0
  {
    if |a| > 0 && a[0] == b[0] {
      DropHead(a, b[1..]);
    }
  }

  /** Dropping the first element of a subsequence leaves a subsequence. */
  lemma {:induction false} DropHead<T>(a: seq<T>, c: seq<T>)
    requires |a| > 0
    requires IsSubsequence(a, c)
    ensures IsSubsequence(a[1..], c)
    decreases |c|, 1
  {
    if a[0] == c[0] {
      if |a[1..]| > 0 {
        SubsequenceOfTail(a[1..], c);
      }
    } else {
      DropHead(a, c[1..]);
      if |a[1..]| > 0 {
        SubsequenceOfTail(a[1..], c);
      }
    }
  }

  /** Keeping every element is the identity. */
  lemma {:induction false} FilterKeepsAll<T>(xs: seq<T>, p: T -> bool)
    requires forall i :: 0 <= i < |xs| ==> p(xs[i])
    ensures Filter(xs, p) == xs
  {
    if |xs| > 0 {
      FilterKeepsAll(xs[1..], p);
      assert xs == [xs[0]] + xs[1..];
    }
  }

  /** A stronger test never keeps more than a weaker one. */
  lemma {:induction false} CountMonotone<T>(xs: seq<T>, p: T -> bool, q: T -> bool)
    requires forall i :: 0 <= i < |xs| && p(xs[i]) ==> q(xs[i])
    ensures Count(xs, p) <= Count(xs, q)
  {
    if |xs| > 0 {
      CountMonotone(xs[1..], p, q);
    }
  }

  /** `Filter` peels off the head of a non-empty sequence. */
  lemma FilterHead<T>(xs: seq<T>, p: T -> bool)
    requires |xs| > 0
    ensures Filter(xs, p) == (if p(xs[0]) then [xs[0]] else []) + Filter(xs[1..], p)
  {
  }

  /** A test and its negation split a sequence: together the two filters
      hold every element exactly once. */
  lemma {:induction false} FilterComplement<T>(xs: seq<T>, p: T -> bool, q: T -> bool)
    requires forall i :: 0 <= i < |xs| ==> q(xs[i]) == !p(xs[i])
    ensures multiset(Filter(xs, p)) + multiset(Filter(xs, q)) == multiset(xs)
  {
    if |xs| > 0 {
      var tail := xs[1..];
      assert forall i :: 0 <= i < |tail| ==> q(tail[i]) == !p(tail[i]) by {
        forall i | 0 <= i < |tail| ensures q(tail[i]) == !p(tail[i]) {
          assert tail[i] == xs[i + 1];
        }
      }
      FilterComplement(tail, p, q);
      assert q(xs[0]) == !p(xs[0]);
      FilterHead(xs, p);
      FilterHead(xs, q);
      ComplementStep(xs, Filter(xs, p), Filter(xs, q), Filter(tail, p), Filter(tail, q));
    }
  }

  /** The multiset step of `FilterComplement`: the head goes to exactly one
      of the two sides. */
  lemma ComplementStep<T>(xs: seq<T>, fp: seq<T>, fq: seq<T>, tp: seq<T>, tq: seq<T>)
    requires |xs| > 0
    requires multiset(tp) + multiset(tq) == multiset(xs[1..])
    requires (fp == [xs[0]] + tp && fq == tq) || (fp == tp && fq == [xs[0]] + tq)
    ensures multiset(fp) + multiset(fq) == multiset(xs)
  {
    assert xs == [xs[0]] + xs[1..];
  }

  /** ... so the two counts add up to its length. */
  lemma CountComplement<T>(xs: seq<T>, p: T -> bool, q: T -> bool)
    requires forall i :: 0 <= i < |xs| ==> q(xs[i]) == !p(xs[i])
    ensures Count(xs, p) + Count(xs, q) == |xs|
    ensures multiset(Filter(xs, p)) + multiset(Filter(xs, q)) == multiset(xs)
  {
    FilterComplement(xs, p, q);
    assert |multiset(Filter(xs, p)) + multiset(Filter(xs, q))| == |multiset(xs)|;
  }

  /** Filtering twice by the same test changes nothing. */
  lemma {:induction false} FilterIdempotent<T>(xs: seq<T>, p: T -> bool)
    ensures Filter(Filter(xs, p), p) == Filter(xs, p)
  {
    FilterKeepsAll(Filter(xs, p), p);
  }

  /** Filtering by `p` and then by `q` keeps what satisfies both. */
  lemma {:induction false} FilterFilter<T>(xs: seq<T>, p: T -> bool, q: T -> bool, pq: T -> bool)
    requires forall x :: pq(x) == (p(x) && q(x))
    ensures Filter(Filter(xs, p), q) == Filter(xs, pq)
    decreases |xs|
  {
    if |xs| > 0 {
      FilterFilter(xs[1..], p, q, pq);
    }
  }

  /** Filtering distributes over concatenation. */
  lemma {:induction false} FilterAppend<T>(xs: seq<T>, ys: seq<T>, p: T -> bool)
    ensures Filter(xs + ys, p) == Filter(xs, p) + Filter(ys, p)
  {
    if |xs| == 0 {
      assert xs + ys == ys;
    } else {
      assert (xs + ys)[1..] == xs[1..] + ys;
      FilterAppend(xs[1..], ys, p);
    }
  }

  /** A test that fails on element `k` alone removes exactly that element. */
  lemma {:induction false} FilterDropsOne<T>(xs: seq<T>, p: T -> bool, k: nat)
    requires k < |xs| && !p(xs[k])
    requires forall i :: 0 <= i < |xs| && i != k ==> p(xs[i])
    ensures Filter(xs, p) == xs[..k] + xs[k + 1..]
    decreases k
  {
    var tail := xs[1..];
    if k == 0 {
      assert forall i :: 0 <= i < |tail| ==> p(tail[i]) by {
        forall i | 0 <= i < |tail| ensures p(tail[i]) { assert tail[i] == xs[i + 1]; }
      }
      FilterKeepsAll(tail, p);
      FilterHead(xs, p);
      assert xs[..0] + xs[1..] == tail;
    } else {
      assert forall i :: 0 <= i < |tail| && i != k - 1 ==> p(tail[i]) by {
        forall i | 0 <= i < |tail| && i != k - 1 ensures p(tail[i]) { assert tail[i] == xs[i + 1]; }
      }
      assert tail[k - 1] == xs[k];
      FilterDropsOne(tail, p, k - 1);
      assert p(xs[0]);
      FilterHead(xs, p);
      ConsSplice(xs, k);
    }
  }

  lemma ConsSplice<T>(xs: seq<T>, k: nat)
    requires 0 < k < |xs|
    ensures [xs[0]] + (xs[1..][..k - 1] + xs[1..][k..]) == xs[..k] + xs[k + 1..]
  {
    assert xs[..k] == [xs[0]] + xs[1..][..k - 1];
    assert xs[k + 1..] == xs[1..][k..];
  }

  /** `xs` without its element at `i` (JavaScript `splice(i, 1)`, which
      changes nothing when `i` is past the end). */
  function RemoveAt<T>(xs: seq<T>, i: nat): (r: seq<T>)
    ensures i < |xs| ==> |r| == |xs| - 1
    ensures i < |xs| ==> forall k :: 0 <= k < i ==> r[k] == xs[k]
    ensures i < |xs| ==> forall k :: i <= k < |r| ==> r[k] == xs[k + 1]
    ensures i >= |xs| ==> r == xs
  {
    if i < |xs| then xs[..i] + xs[i + 1..] else xs
  }
}

=== FILE: sorting.dfy ===
/** Stable descending sort by an integer key: the model of
    `Array.prototype.sort((a, b) => key(b) - key(a))`, which is stable in the
    JavaScript engines the application runs on. */
module Sorting {

  /** Keys never increase from left to right ("newest first"). */
  ghost predicate SortedDesc<T>(xs: seq<T>, key: T -> int) {
    forall i, j :: 0 <= i < j < |xs| ==> key(xs[i]) >= key(xs[j])
  }

  /** Inserts `x` in front of the first element whose key is not greater,
      so that `x` stays ahead of the equal-keyed elements that followed it. */
  function Insert<T>(x: T, ys: seq<T>, key: T -> int): (r: seq<T>)
    requires SortedDesc(ys, key)
    ensures SortedDesc(r, key)
    ensures multiset(r) == multiset(ys) + multiset{x}
    ensures |r| == |ys| + 1
  {
    if |ys| == 0 || key(ys[0]) <= key(x) then
      ConsSorted(x, ys, key);
      [x] + ys
    else
      var rest := Insert(x, ys[1..], key);
      HeadBoundsInsert(x, ys, rest, key);
      ConsSorted(ys[0], rest, key);
      assert ys == [ys[0]] + ys[1..];
      [ys[0]] + rest
  }

  /** The head of a sorted `ys` whose key beats `x` bounds every element of
      `x` inserted into the rest. */
  lemma HeadBoundsInsert<T>(x: T, ys: seq<T>, rest: seq<T>, key: T -> int)
    requires SortedDesc(ys, key) && |ys| > 0 && key(ys[0]) > key(x)
    requires multiset(rest) == multiset(ys[1..]) + multiset{x}
    ensures forall k :: 0 <= k < |rest| ==> key(ys[0]) >= key(rest[k])
  {
    forall k | 0 <= k < |rest|
      ensures key(ys[0]) >= key(rest[k])
    {
      assert rest[k] in multiset(rest);
      if rest[k] != x {
        assert rest[k] in ys[1..];
        var j :| 0 <= j < |ys[1..]| && ys[1..][j] == rest[k];
        assert ys[j + 1] == rest[k];
      }
    }
  }

  /** A head that bounds a sorted tail keeps the list sorted. */
  lemma ConsSorted<T>(h: T, rest: seq<T>, key: T -> int)
    requires SortedDesc(rest, key)
    requires forall k :: 0 <= k < |rest| ==> key(h) >= key(rest[k])
    ensures SortedDesc([h] + rest, key)
  {
    var r := [h] + rest;
    forall i, j | 0 <= i < j < |r| ensures key(r[i]) >= key(r[j]) {
      assert r[j] == rest[j - 1];
      if i > 0 {
        assert r[i] == rest[i - 1];
      }
    }
  }

  /** Insertion sort: a permutation of `xs` whose keys never increase. */
  function SortDesc<T>(xs: seq<T>, key: T -> int): (r: seq<T>)
    ensures SortedDesc(r, key)
    ensures multiset(r) == multiset(xs)
    ensures |r| == |xs|
  {
    if |xs| == 0 then []
    else
      assert xs == [xs[0]] + xs[1..];
      Insert(xs[0], SortDesc(xs[1..], key), key)
  }

  /** Sorting keeps any property every element had. */
  lemma SortKeepsAll<T>(xs: seq<T>, key: T -> int, p: T -> bool)
    requires forall i :: 0 <= i < |xs| ==> p(xs[i])
    ensures forall i :: 0 <= i < |SortDesc(xs, key)| ==> p(SortDesc(xs, key)[i])
  {
    var r := SortDesc(xs, key);
    forall i | 0 <= i < |r| ensures p(r[i]) {
      assert r[i] in multiset(xs);
    }
  }

  /** The first element of a sorted non-empty permutation has the greatest key. */
  lemma HeadIsMax<T>(xs: seq<T>, key: T -> int, i: nat)
    requires i < |xs|
    ensures key(SortDesc(xs, key)[0]) >= key(xs[i])
  {
    var r := SortDesc(xs, key);
    assert xs[i] in multiset(r);
    var j :| 0 <= j < |r| && r[j] == xs[i];
  }
}

=== FILE: store.dfy ===
/** `MemStorage`: the in-memory implementation of the storage interface the
    HTTP routes use. Each operation is a function from the old storage to
    the new one and the operation's result; `now` stands for `new Date()`. */
module MemStorage {
  import opened Wrappers
  import opened Seqs
  import opened Sorting
  import opened Text
  import opened Records
  import opened Tables

  datatype Storage = Storage(
    tasks: Table<Task>,
    dailyEntries: Table<DailyEntry>,
    reflections: Table<Reflection>,
    weeklyReviews: Table<WeeklyReview>)

  function TaskKey(t: Task): Id { t.id }
  function DailyKey(e: DailyEntry): Id { e.id }
  function ReflectionKey(x: Reflection): Id { x.id }
  function ReviewKey(w: WeeklyReview): Id { w.id }

  ghost predicate Valid(s: Storage) {
    && Tables.Valid(s.tasks, TaskKey)
    && Tables.Valid(s.dailyEntries, DailyKey)
    && Tables.Valid(s.reflections, ReflectionKey)
    && Tables.Valid(s.weeklyReviews, ReviewKey)
  }

  function NewStorage(): (s: Storage)
    ensures Valid(s)
    ensures |s.tasks.rows| == 0 && |s.dailyEntries.rows| == 0
    ensures |s.reflections.rows| == 0 && |s.weeklyReviews.rows| == 0
  {
    Storage(Tables.Empty(), Tables.Empty(), Tables.Empty(), Tables.Empty())
  }

  // --------------------------------------------------------------- tasks

  /** A task `getTasks(weekStart)` lists: active, and in the requested week
      when a non-empty week was requested. */
  predicate Listed(weekStart: Option<string>, t: Task) {
    IsActive(t) && (weekStart.None? || weekStart.value == "" || t.weekStart == weekStart.value)
  }

  function GetTasks(s: Storage, weekStart: Option<string>): (r: seq<Task>)
    requires Valid(s)
    ensures r == Filter(Values(s.tasks), t => Listed(weekStart, t))
    ensures forall i :: 0 <= i < |r| ==> Listed(weekStart, r[i]) && r[i] in Values(s.tasks)
  {
    var vs := Values(s.tasks);
    var active := Filter(vs, IsActive);
    if weekStart.Some? && weekStart.value != "" then
      var inWeek := (t: Task) => t.weekStart == weekStart.value;
      FilterFilter(vs, IsActive, inWeek, t => Listed(weekStart, t));
      Filter(active, inWeek)
    else
      FilterFilter(vs, IsActive, _ => true, t => Listed(weekStart, t));
      FilterKeepsAll(active, _ => true);
      active
  }

  function CreatedAt(t: Task): int { t.createdAt }

  /** Every active task, newest first. */
  function GetAllTasks(s: Storage): (r: seq<Task>)
    requires Valid(s)
    ensures SortedDesc(r, CreatedAt)
    ensures multiset(r) == multiset(GetTasks(s, None))
    ensures forall i :: 0 <= i < |r| ==> IsActive(r[i])
  {
    var active := Filter(Values(s.tasks), IsActive);
    SortKeepsAll(active, CreatedAt, IsActive);
    SortDesc(active, CreatedAt)
  }

  function GetTask(s: Storage, id: Id): (r: Option<Task>)
    requires Valid(s)
    ensures r.Some? <==> id in s.tasks.rows
    ensures r.Some? ==> r.value.id == id && r.value == s.tasks.rows[id]
  {
    Get(s.tasks, id)
  }

  /** Stores a new task under a fresh id; nothing else changes. */
  function CreateTask(s: Storage, ins: InsertTask, now: int): (r: (Storage, Task))
    requires Valid(s)
    ensures Valid(r.0)
    ensures r.1 == NewTask(r.1.id, ins, now)
    ensures r.1.id !in s.tasks.rows
    ensures r.0 == s.(tasks := Set(s.tasks, r.1.id, r.1))
  {
    var make := (id: Id) => NewTask(id, ins, now);
    AddValid(s.tasks, TaskKey, make);
    var (t, task) := Add(s.tasks, make);
    (s.(tasks := t), task)
  }

  /** Merges the patch into the task with this id, if there is one. */
  function UpdateTask(s: Storage, id: Id, p: TaskPatch): (r: (Storage, Option<Task>))
    requires Valid(s)
    ensures Valid(r.0)
    ensures id !in s.tasks.rows ==> r == (s, None)
    ensures id in s.tasks.rows ==>
      r.1 == Some(MergeTask(s.tasks.rows[id], p))
      && r.0 == s.(tasks := Set(s.tasks, id, r.1.value))
  {
    if id in s.tasks.rows then
      SetValid(s.tasks, TaskKey, id, MergeTask(s.tasks.rows[id], p));
      var (t, u) := Update(s.tasks, id, x => MergeTask(x, p));
      (s.(tasks := t), u)
    else
      (s, None)
  }

  /** Soft delete: the task stays stored with `isActive` set to false.
      The result says whether the id was known. */
  function DeleteTask(s: Storage, id: Id): (r: (Storage, bool))
    requires Valid(s)
    ensures Valid(r.0)
    ensures r.1 <==> id in s.tasks.rows
    ensures !r.1 ==> r.0 == s
    ensures r.1 ==> r.0 == s.(tasks := Set(s.tasks, id, s.tasks.rows[id].(isActive := Some(false))))
  {
    if id in s.tasks.rows then
      SetValid(s.tasks, TaskKey, id, s.tasks.rows[id].(isActive := Some(false)));
      (s.(tasks := Set(s.tasks, id, s.tasks.rows[id].(isActive := Some(false)))), true)
    else
      (s, false)
  }

  // ------------------------------------------------------- daily entries

  function OnDate(date: string): DailyEntry -> bool {
    (e: DailyEntry) => e.date == date
  }

  /** The first entry, in insertion order, recorded for `date`; `None` when
      no entry has that date. */
  function GetDailyEntry(s: Storage, date: string): (r: Option<DailyEntry>)
    requires Valid(s)
    ensures r.None? <==> NoneMatch(Values(s.dailyEntries), OnDate(date))
    ensures r.Some? ==> r.value.date == date
    ensures r.Some? ==> exists i :: FirstMatchAt(Values(s.dailyEntries), OnDate(date), i)
                                    && Values(s.dailyEntries)[i] == r.value
  {
    FindFirst(Values(s.dailyEntries), OnDate(date))
  }

  /** Every entry, latest calendar date first; `dateValue` stands for
      `new Date(date).getTime()`. */
  function GetAllDailyEntries(s: Storage, dateValue: string -> int): (r: seq<DailyEntry>)
    requires Valid(s)
    ensures SortedDesc(r, (e: DailyEntry) => dateValue(e.date))
    ensures multiset(r) == multiset(Values(s.dailyEntries))
  {
    SortDesc(Values(s.dailyEntries), (e: DailyEntry) => dateValue(e.date))
  }

  function CreateDailyEntry(s: Storage, ins: InsertDailyEntry, now: int): (r: (Storage, DailyEntry))
    requires Valid(s)
    ensures Valid(r.0)
    ensures r.1 == NewDailyEntry(r.1.id, ins, now)
    ensures r.1.id !in s.dailyEntries.rows
    ensures r.0 == s.(dailyEntries := Set(s.dailyEntries, r.1.id, r.1))
  {
    var make := (id: Id) => NewDailyEntry(id, ins, now);
    AddValid(s.dailyEntries, DailyKey, make);
    var (t, e) := Add(s.dailyEntries, make);
    (s.(dailyEntries := t), e)
  }

  function UpdateDailyEntry(s: Storage, id: Id, p: DailyPatch): (r: (Storage, Option<DailyEntry>))
    requires Valid(s)
    ensures Valid(r.0)
    ensures id !in s.dailyEntries.rows ==> r == (s, None)
    ensures id in s.dailyEntries.rows ==>
      r.1 == Some(MergeDaily(s.dailyEntries.rows[id], p))
      && r.0 == s.(dailyEntries := Set(s.dailyEntries, id, r.1.value))
  {
    if id in s.dailyEntries.rows then
      SetValid(s.dailyEntries, DailyKey, id, MergeDaily(s.dailyEntries.rows[id], p));
      var (t, u) := Update(s.dailyEntries, id, x => MergeDaily(x, p));
      (s.(dailyEntries := t), u)
    else
      (s, None)
  }

  /** Hard delete; the result says whether an entry was removed. */
  function DeleteDailyEntry(s: Storage, id: Id): (r: (Storage, bool))
    requires Valid(s)
    ensures Valid(r.0)
    ensures r.1 <==> id in s.dailyEntries.rows
    ensures r.0.dailyEntries.rows == s.dailyEntries.rows - {id}
    ensures r.0 == s.(dailyEntries := r.0.dailyEntries)
    ensures r.1 ==> IsSubsequence(r.0.dailyEntries.order, s.dailyEntries.order)
    ensures r.0.dailyEntries == Remove(s.dailyEntries, id).0
    ensures !r.1 ==> r.0 == s
  {
    RemoveValid(s.dailyEntries, DailyKey, id);
    var (t, found) := Remove(s.dailyEntries, id);
    (s.(dailyEntries := t), found)
  }

  /** Inclusive date-range test by string comparison, as the store does it. */
  predicate InWeek(weekStart: string, weekEnd: string, date: string) {
    LexLe(weekStart, date) && LexLe(date, weekEnd)
  }

  function GetDailyEntriesForWeek(s: Storage, weekStart: string, weekEnd: string): (r: seq<DailyEntry>)
    requires Valid(s)
    ensures forall i :: 0 <= i < |r| ==> InWeek(weekStart, weekEnd, r[i].date)
    ensures var vs := Values(s.dailyEntries);
      forall i :: 0 <= i < |vs| ==> (vs[i] in r <==> InWeek(weekStart, weekEnd, vs[i].date))
    ensures IsSubsequence(r, Values(s.dailyEntries))
  {
    var vs := Values(s.dailyEntries);
    var inRange := (e: DailyEntry) => InWeek(weekStart, weekEnd, e.date);
    var r := Filter(vs, inRange);
    FilterIsSubsequence(vs, inRange);
    FilterKeepsExactly(vs, inRange);
    r
  }

  // --------------------------------------------------------- reflections

  function GetReflections(s: Storage, date: Option<string>): (r: seq<Reflection>)
    requires Valid(s)
    ensures date.None? || date.value == "" ==> r == Values(s.reflections)
    ensures date.Some? && date.value != "" ==>
      && (forall i :: 0 <= i < |r| ==> r[i].date == date.value)
      && (var vs := Values(s.reflections);
          forall i :: 0 <= i < |vs| ==> (vs[i] in r <==> vs[i].date == date.value))
  {
    if date.Some? && date.value != "" then
      var onDate := (x: Reflection) => x.date == date.value;
      FilterKeepsExactly(Values(s.reflections), onDate);
      Filter(Values(s.reflections), onDate)
    else
      Values(s.reflections)
  }

  function ReflectionCreatedAt(x: Reflection): int { x.createdAt }

  function GetAllReflections(s: Storage): (r: seq<Reflection>)
    requires Valid(s)
    ensures SortedDesc(r, ReflectionCreatedAt)
    ensures multiset(r) == multiset(Values(s.reflections))
  {
    SortDesc(Values(s.reflections), ReflectionCreatedAt)
  }

  function CreateReflection(s: Storage, ins: InsertReflection, now: int): (r: (Storage, Reflection))
    requires Valid(s)
    ensures Valid(r.0)
    ensures r.1 == NewReflection(r.1.id, ins, now)
    ensures r.1.id !in s.reflections.rows
    ensures r.0 == s.(reflections := Set(s.reflections, r.1.id, r.1))
  {
    var make := (id: Id) => NewReflection(id, ins, now);
    AddValid(s.reflections, ReflectionKey, make);
    var (t, x) := Add(s.reflections, make);
    (s.(reflections := t), x)
  }

  function UpdateReflection(s: Storage, id: Id, p: ReflectionPatch): (r: (Storage, Option<Reflection>))
    requires Valid(s)
    ensures Valid(r.0)
    ensures id !in s.reflections.rows ==> r == (s, None)
    ensures id in s.reflections.rows ==>
      r.1 == Some(MergeReflection(s.reflections.rows[id], p))
      && r.0 == s.(reflections := Set(s.reflections, id, r.1.value))
  {
    if id in s.reflections.rows then
      SetValid(s.reflections, ReflectionKey, id, MergeReflection(s.reflections.rows[id], p));
      var (t, u) := Update(s.reflections, id, x => MergeReflection(x, p));
      (s.(reflections := t), u)
    else
      (s, None)
  }

  function DeleteReflection(s: Storage, id: Id): (r: (Storage, bool))
    requires Valid(s)
    ensures Valid(r.0)
    ensures r.1 <==> id in s.reflections.rows
    ensures r.0.reflections.rows == s.reflections.rows - {id}
    ensures r.0 == s.(reflections := r.0.reflections)
    ensures r.1 ==> IsSubsequence(r.0.reflections.order, s.reflections.order)
    ensures r.0.reflections == Remove(s.reflections, id).0
    ensures !r.1 ==> r.0 == s
  {
    RemoveValid(s.reflections, ReflectionKey, id);
    var (t, found) := Remove(s.reflections, id);
    (s.(reflections := t), found)
  }

  // ------------------------------------------------------ weekly reviews

  function ForWeek(weekStart: string): WeeklyReview -> bool {
    (w: WeeklyReview) => w.weekStart == weekStart
  }

  /** The first review, in insertion order, stored for `weekStart`. */
  function GetWeeklyReview(s: Storage, weekStart: string): (r: Option<WeeklyReview>)
    requires Valid(s)
    ensures r.None? <==> NoneMatch(Values(s.weeklyReviews), ForWeek(weekStart))
    ensures r.Some? ==> r.value.weekStart == weekStart
    ensures r.Some? ==> exists i :: FirstMatchAt(Values(s.weeklyReviews), ForWeek(weekStart), i)
                                    && Values(s.weeklyReviews)[i] == r.value
  {
    FindFirst(Values(s.weeklyReviews), ForWeek(weekStart))
  }

  function ReviewCreatedAt(w: WeeklyReview): int { w.createdAt }

  function GetAllWeeklyReviews(s: Storage): (r: seq<WeeklyReview>)
    requires Valid(s)
    ensures SortedDesc(r, ReviewCreatedAt)
    ensures multiset(r) == multiset(Values(s.weeklyReviews))
  {
    SortDesc(Values(s.weeklyReviews), ReviewCreatedAt)
  }

  function CreateWeeklyReview(s: Storage, ins: InsertWeeklyReview, now: int): (r: (Storage, WeeklyReview))
    requires Valid(s)
    ensures Valid(r.0)
    ensures r.1 == NewWeeklyReview(r.1.id, ins, now)
    ensures r.1.id !in s.weeklyReviews.rows
    ensures r.0 == s.(weeklyReviews := Set(s.weeklyReviews, r.1.id, r.1))
  {
    var make := (id: Id) => NewWeeklyReview(id, ins, now);
    AddValid(s.weeklyReviews, ReviewKey, make);
    var (t, w) := Add(s.weeklyReviews, make);
    (s.(weeklyReviews := t), w)
  }

  function UpdateWeeklyReview(s: Storage, id: Id, p: ReviewPatch): (r: (Storage, Option<WeeklyReview>))
    requires Valid(s)
    ensures Valid(r.0)
    ensures id !in s.weeklyReviews.rows ==> r == (s, None)
    ensures id in s.weeklyReviews.rows ==>
      r.1 == Some(MergeReview(s.weeklyReviews.rows[id], p))
      && r.0 == s.(weeklyReviews := Set(s.weeklyReviews, id, r.1.value))
  {
    if id in s.weeklyReviews.rows then
      SetValid(s.weeklyReviews, ReviewKey, id, MergeReview(s.weeklyReviews.rows[id], p));
      var (t, u) := Update(s.weeklyReviews, id, x => MergeReview(x, p));
      (s.(weeklyReviews := t), u)
    else
      (s, None)
  }

  function DeleteWeeklyReview(s: Storage, id: Id): (r: (Storage, bool))
    requires Valid(s)
    ensures Valid(r.0)
    ensures r.1 <==> id in s.weeklyReviews.rows
    ensures r.0.weeklyReviews.rows == s.weeklyReviews.rows - {id}
    ensures r.0 == s.(weeklyReviews := r.0.weeklyReviews)
    ensures r.1 ==> IsSubsequence(r.0.weeklyReviews.order, s.weeklyReviews.order)
    ensures r.0.weeklyReviews == Remove(s.weeklyReviews, id).0
    ensures !r.1 ==> r.0 == s
  {
    RemoveValid(s.weeklyReviews, ReviewKey, id);
    var (t, found) := Remove(s.weeklyReviews, id);
    (s.(weeklyReviews := t), found)
  }

  // ---------------------------------------------------------- properties

  /** A soft-deleted task can still be fetched by id but is no longer
      listed, whatever week is asked for. */
  lemma SoftDeleteHides(s: Storage, id: Id, weekStart: Option<string>)
    requires Valid(s) && id in s.tasks.rows
    ensures var s' := DeleteTask(s, id).0;
      && GetTask(s', id) == Some(s.tasks.rows[id].(isActive := Some(false)))
      && (forall i :: 0 <= i < |GetTasks(s', weekStart)| ==> GetTasks(s', weekStart)[i].id != id)
  {
    var s' := DeleteTask(s, id).0;
    var listed := GetTasks(s', weekStart);
    forall i | 0 <= i < |listed| ensures listed[i].id != id {
      ValueUnderKey(s'.tasks, TaskKey, listed[i]);
    }
  }

  /** Deleting a task twice succeeds both times and the second call changes
      nothing; deleting an unknown id fails and changes nothing. */
  lemma DeleteTaskTwice(s: Storage, id: Id)
    requires Valid(s)
    ensures DeleteTask(DeleteTask(s, id).0, id) == (DeleteTask(s, id).0, id in s.tasks.rows)
  {
    if id in s.tasks.rows {
      var s' := DeleteTask(s, id).0;
      assert s'.tasks.rows[id] == s.tasks.rows[id].(isActive := Some(false));
      assert s'.tasks.rows[id := s'.tasks.rows[id].(isActive := Some(false))] == s'.tasks.rows;
    }
  }

  /** A hard delete succeeds once; the second call finds nothing. */
  lemma HardDeleteOnce(s: Storage, id: Id)
    requires Valid(s) && id in s.dailyEntries.rows && id in s.reflections.rows && id in s.weeklyReviews.rows
    ensures DeleteDailyEntry(s, id).1 && !DeleteDailyEntry(DeleteDailyEntry(s, id).0, id).1
    ensures DeleteReflection(s, id).1 && !DeleteReflection(DeleteReflection(s, id).0, id).1
    ensures DeleteWeeklyReview(s, id).1 && !DeleteWeeklyReview(DeleteWeeklyReview(s, id).0, id).1
  {
  }

  /** `Map.delete` keeps insertion order: a hard delete takes the id out of
      its one place and every other record keeps its place relative to the
      rest, which the first-match reads and the stable sorts observe. */
  lemma DeleteSplices(s: Storage, id: Id)
    requires Valid(s)
    ensures id in s.dailyEntries.rows ==>
      SplicedOut(s.dailyEntries.order, id, DeleteDailyEntry(s, id).0.dailyEntries.order)
    ensures id in s.reflections.rows ==>
      SplicedOut(s.reflections.order, id, DeleteReflection(s, id).0.reflections.order)
    ensures id in s.weeklyReviews.rows ==>
      SplicedOut(s.weeklyReviews.order, id, DeleteWeeklyReview(s, id).0.weeklyReviews.order)
  {
    if id in s.dailyEntries.rows { RemoveSplices(s.dailyEntries, DailyKey, id); }
    if id in s.reflections.rows { RemoveSplices(s.reflections, ReflectionKey, id); }
    if id in s.weeklyReviews.rows { RemoveSplices(s.weeklyReviews, ReviewKey, id); }
  }

  /** A new task can be fetched by its id and, unless created with
      `isActive` false, is listed for its week: a missing flag defaults to
      true and a null one passes the `!== false` test. */
  lemma CreatedTaskListed(s: Storage, ins: InsertTask, now: int)
    requires Valid(s) && ins.isActive != Val(false)
    ensures var (s', t) := CreateTask(s, ins, now);
      && GetTask(s', t.id) == Some(t)
      && t in GetTasks(s', Some(ins.weekStart))
      && t in GetTasks(s', None)
  {
    var (s', t) := CreateTask(s, ins, now);
    var vs := Values(s'.tasks);
    assert vs[|vs| - 1] == t;
    assert Listed(Some(ins.weekStart), t) && Listed(None, t);
  }

  /** Creating a task and then patching one field: the patched field takes
      the new value and every other field keeps what creation stored. */
  lemma CreateThenRetitle(s: Storage, ins: InsertTask, now: int, title: string)
    requires Valid(s)
    ensures var (s1, t) := CreateTask(s, ins, now);
      var (s2, u) := UpdateTask(s1, t.id, EmptyTaskPatch.(title := Some(title)));
      && u == Some(t.(title := title))
      && GetTask(s2, t.id) == u
  {
  }
}

=== FILE: tables.dfy ===
/** The in-memory tables of `MemStorage`: a JavaScript `Map` from id to
    record, which also remembers insertion order (the order `values()`,
    `find` and a stable sort observe). */
module Tables {
  import opened Wrappers
  import opened Seqs
  import Records

  type Id = Records.Id

  datatype Table<T> = Table(order: seq<Id>, rows: map<Id, T>)

  predicate Distinct(xs: seq<Id>) {
    forall i, j :: 0 <= i < j < |xs| ==> xs[i] != xs[j]
  }

  /** The insertion order lists each stored id exactly once, and every
      record is stored under its own id. */
  ghost predicate Valid<T>(t: Table<T>, key: T -> Id) {
    && Distinct(t.order)
    && (forall id :: id in t.rows <==> id in t.order)
    && (forall id :: id in t.rows ==> key(t.rows[id]) == id)
  }

  function Empty<T>(): (t: Table<T>)
    ensures |t.order| == 0 && |t.rows| == 0
  {
    Table([], map[])
  }

  lemma EmptyValid<T>(key: T -> Id)
    ensures Valid(Empty<T>(), key)
  {
  }

  /** `Array.from(map.values())`. */
  function Values<T>(t: Table<T>): (r: seq<T>)
    requires forall id :: id in t.order ==> id in t.rows
    ensures |r| == |t.order|
    ensures forall i :: 0 <= i < |r| ==> r[i] == t.rows[t.order[i]]
    decreases |t.order|
  {
    if |t.order| == 0 then []
    else [t.rows[t.order[0]]] + Values(Table(t.order[1..], t.rows))
  }

  /** Every stored record appears among the values, and nothing else does. */
  lemma ValuesAreRows<T>(t: Table<T>, key: T -> Id, v: T)
    requires Valid(t, key)
    ensures v in Values(t) <==> exists id :: id in t.rows && t.rows[id] == v
  {
    var vs := Values(t);
    if v in vs {
      var i :| 0 <= i < |vs| && vs[i] == v;
      assert t.order[i] in t.rows;
    }
    if exists id :: id in t.rows && t.rows[id] == v {
      var id :| id in t.rows && t.rows[id] == v;
      var i :| 0 <= i < |t.order| && t.order[i] == id;
      assert vs[i] == v;
    }
  }

  /** The value listed with a given key is the one stored under it. */
  lemma ValueUnderKey<T>(t: Table<T>, key: T -> Id, v: T)
    requires Valid(t, key) && v in Values(t)
    ensures key(v) in t.rows && t.rows[key(v)] == v
  {
    ValuesAreRows(t, key, v);
  }

  /** `map.get(id)`. */
  function Get<T>(t: Table<T>, id: Id): (r: Option<T>)
    ensures r.Some? <==> id in t.rows
    ensures r.Some? ==> r.value == t.rows[id]
  {
    if id in t.rows then Some(t.rows[id]) else None
  }

  /** `map.set(id, v)`: an existing key keeps its place in the order,
      a new key goes last. */
  function Set<T>(t: Table<T>, id: Id, v: T): (r: Table<T>)
    ensures r.rows == t.rows[id := v]
    ensures id in t.rows ==> r.order == t.order
    ensures id !in t.rows ==> r.order == t.order + [id]
  {
    Table(if id in t.rows then t.order else t.order + [id], t.rows[id := v])
  }

  lemma SetValid<T>(t: Table<T>, key: T -> Id, id: Id, v: T)
    requires Valid(t, key) && key(v) == id
    ensures Valid(Set(t, id, v), key)
  {
    var r := Set(t, id, v);
    if id !in t.rows {
      forall i, j | 0 <= i < j < |r.order| ensures r.order[i] != r.order[j] {
        if j == |t.order| {
          assert r.order[i] == t.order[i];
        }
      }
    }
  }

  /** Storing a value and reading it back gives the value; other keys are
      unaffected. */
  lemma GetSet<T>(t: Table<T>, id: Id, v: T, other: Id)
    ensures Get(Set(t, id, v), id) == Some(v)
    ensures other != id ==> Get(Set(t, id, v), other) == Get(t, other)
  {
  }

  /** `map.delete(id)`: reports whether the key was present. */
  function Remove<T>(t: Table<T>, id: Id): (r: (Table<T>, bool))
    ensures r.1 <==> id in t.rows
    ensures r.0.rows == t.rows - {id}
    ensures r.1 ==> forall x :: x in r.0.order <==> x in t.order && x != id
    ensures r.1 ==> IsSubsequence(r.0.order, t.order)
    ensures !r.1 ==> r.0.order == t.order
  {
    if id in t.rows then
      FilterIsSubsequence(t.order, x => x != id);
      (Table(Filter(t.order, x => x != id), t.rows - {id}), true)
    else
      (t, false)
  }

  lemma {:induction false} FilterDistinct(xs: seq<Id>, p: Id -> bool)
    requires Distinct(xs)
    ensures Distinct(Filter(xs, p))
    decreases |xs|
  {
    if |xs| > 0 {
      var rest := Filter(xs[1..], p);
      assert Distinct(xs[1..]);
      FilterDistinct(xs[1..], p);
      if p(xs[0]) {
        forall k | 0 <= k < |rest| ensures rest[k] != xs[0] {
          assert rest[k] in xs[1..];
        }
      }
    }
  }

  lemma RemoveValid<T>(t: Table<T>, key: T -> Id, id: Id)
    requires Valid(t, key)
    ensures Valid(Remove(t, id).0, key)
  {
    if id in t.rows {
      FilterDistinct(t.order, x => x != id);
    }
  }

  /** `after` is `before` with the key `id` taken out of its one position. */
  ghost predicate SplicedOut(before: seq<Id>, id: Id, after: seq<Id>) {
    exists k :: 0 <= k < |before| && before[k] == id && after == before[..k] + before[k + 1..]
  }

  /** In a valid table a stored key occurs once in the insertion order, so
      removing it splices it out and every other key keeps its place
      relative to the rest. */
  lemma RemoveSplices<T>(t: Table<T>, key: T -> Id, id: Id)
    requires Valid(t, key) && id in t.rows
    ensures SplicedOut(t.order, id, Remove(t, id).0.order)
  {
    var k :| 0 <= k < |t.order| && t.order[k] == id;
    FilterDropsOne(t.order, x => x != id, k);
  }

  /** A second removal of the same key finds nothing and changes nothing. */
  lemma RemoveTwice<T>(t: Table<T>, id: Id)
    ensures Remove(Remove(t, id).0, id) == (Remove(t, id).0, false)
  {
  }

  /** No element of `xs` satisfies `p`. */
  predicate NoneMatch<T>(xs: seq<T>, p: T -> bool) {
    forall i :: 0 <= i < |xs| ==> !p(xs[i])
  }

  /** `xs[i]` is the first element of `xs` that satisfies `p`. */
  predicate FirstMatchAt<T>(xs: seq<T>, p: T -> bool, i: int) {
    0 <= i < |xs| && p(xs[i]) && forall j :: 0 <= j < i ==> !p(xs[j])
  }

  /** `array.find(p)`: the first element, in order, that satisfies `p`. */
  function FindFirst<T>(xs: seq<T>, p: T -> bool): (r: Option<T>)
    ensures r.None? <==> NoneMatch(xs, p)
    ensures r.Some? ==> exists i :: FirstMatchAt(xs, p, i) && xs[i] == r.value
  {
    if |xs| == 0 then None
    else if p(xs[0]) then
      assert FirstMatchAt(xs, p, 0);
      Some(xs[0])
    else
      var r := FindFirst(xs[1..], p);
      assert r.Some? ==> exists i :: FirstMatchAt(xs, p, i) && xs[i] == r.value by {
        if r.Some? {
          var i :| FirstMatchAt(xs[1..], p, i) && xs[1..][i] == r.value;
          assert FirstMatchAt(xs, p, i + 1) by {
            forall j | 0 <= j < i + 1 ensures !p(xs[j]) {
              if j > 0 {
                assert xs[j] == xs[1..][j - 1];
              }
            }
          }
        }
      }
      assert r.None? ==> NoneMatch(xs, p) by {
        if r.None? {
          forall j | 0 <= j < |xs| ensures !p(xs[j]) {
            if j > 0 {
              assert xs[j] == xs[1..][j - 1];
            }
          }
        }
      }
      r
  }

  /** `find` returns the head of what `filter` would keep. */
  lemma {:induction false} FindFirstIsFilterHead<T>(xs: seq<T>, p: T -> bool)
    ensures FindFirst(xs, p) == if |Filter(xs, p)| == 0 then None else Some(Filter(xs, p)[0])
    decreases |xs|
  {
    if |xs| > 0 && !p(xs[0]) {
      FindFirstIsFilterHead(xs[1..], p);
    }
  }

  function MaxLen(ids: seq<Id>): (m: nat)
    ensures forall i :: 0 <= i < |ids| ==> |ids[i]| <= m
  {
    if |ids| == 0 then 0
    else
      var m := MaxLen(ids[1..]);
      assert forall i :: 1 <= i < |ids| ==> |ids[i]| <= m by {
        forall i | 1 <= i < |ids| ensures |ids[i]| <= m {
          assert ids[i] == ids[1..][i - 1];
        }
      }
      if |ids[0]| > m then |ids[0]| else m
  }

  function Zeros(n: nat): (s: string)
    ensures |s| == n
  {
    if n == 0 then "" else "0" + Zeros(n - 1)
  }

  /** The id a new record receives. The application draws a random UUID;
      the model picks one longer than every id in use, so it is fresh by
      construction. Like a UUID it contains a hyphen. */
  function FreshId(ids: seq<Id>): (id: Id)
    ensures id !in ids
    ensures '-' in id
  {
    var id := "0-" + Zeros(MaxLen(ids));
    assert id[1] == '-';
    id
  }

  /** Stores `make(id)` under a fresh id and returns it. */
  function Add<T>(t: Table<T>, make: Id -> T): (r: (Table<T>, T))
    ensures r.1 == make(FreshId(t.order))
    ensures r.0.rows == t.rows[FreshId(t.order) := r.1]
    ensures r.0.order == t.order + [FreshId(t.order)]
  {
    var id := FreshId(t.order);
    (Table(t.order + [id], t.rows[id := make(id)]), make(id))
  }

  lemma AddValid<T>(t: Table<T>, key: T -> Id, make: Id -> T)
    requires Valid(t, key)
    requires key(make(FreshId(t.order))) == FreshId(t.order)
    ensures Valid(Add(t, make).0, key)
    ensures FreshId(t.order) !in t.rows
  {
    var id := FreshId(t.order);
    assert Add(t, make).0 == Set(t, id, make(id));
    SetValid(t, key, id, make(id));
  }

  /** Replaces the record under `id` by `f` of it, when there is one. */
  function Update<T>(t: Table<T>, id: Id, f: T -> T): (r: (Table<T>, Option<T>))
    ensures id !in t.rows ==> r == (t, None)
    ensures id in t.rows ==> (r.1 == Some(f(t.rows[id]))
                              && r.0.rows == t.rows[id := f(t.rows[id])]
                              && r.0.order == t.order)
  {
    if id in t.rows then (Set(t, id, f(t.rows[id])), Some(f(t.rows[id]))) else (t, None)
  }
}

=== FILE: text.dfy ===
/** String operations the application relies on, with JavaScript's meaning:
    `toLowerCase`, `trim`, `includes`, `split`, `join`, `substring`, the
    relational operators on strings, and `replace` with a global pattern. */
module Text {

  /** `toLowerCase` on one character; only the ASCII letters are mapped. */
  function LowerChar(c: char): char {
    if 'A' <= c <= 'Z' then (c as int + 32) as char else c
  }

  function ToLower(s: string): (r: string)
    ensures |r| == |s|
    ensures forall i :: 0 <= i < |s| ==> r[i] == LowerChar(s[i])
  {
    if |s| == 0 then "" else [LowerChar(s[0])] + ToLower(s[1..])
  }

  /** The characters `String.prototype.trim` removes: the ECMAScript
      WhiteSpace and LineTerminator code points. */
  predicate IsSpace(c: char) {
    var n := c as int;
    n == 0x09 || n == 0x0A || n == 0x0B || n == 0x0C || n == 0x0D || n == 0x20
    || n == 0xA0 || n == 0x1680 || (0x2000 <= n <= 0x200A) || n == 0x2028
    || n == 0x2029 || n == 0x202F || n == 0x205F || n == 0x3000 || n == 0xFEFF
  }

  function TrimStart(s: string): (r: string)
    ensures |r| <= |s| && r == s[|s| - |r|..]
    ensures |r| > 0 ==> !IsSpace(r[0])
    ensures forall k :: 0 <= k < |s| - |r| ==> IsSpace(s[k])
  {
    if |s| > 0 && IsSpace(s[0]) then TrimStart(s[1..]) else s
  }

  function TrimEnd(s: string): (r: string)
    ensures |r| <= |s| && r == s[..|r|]
    ensures |r| > 0 ==> !IsSpace(r[|r| - 1])
    ensures forall k :: |r| <= k < |s| ==> IsSpace(s[k])
  {
    if |s| > 0 && IsSpace(s[|s| - 1]) then TrimEnd(s[..|s| - 1]) else s
  }

  /** `s.trim()`: `s` without its leading and trailing white space. */
  function Trim(s: string): (r: string)
    ensures |r| <= |s|
    ensures |r| > 0 ==> !IsSpace(r[0]) && !IsSpace(r[|r| - 1])
    ensures exists i :: TrimmedAt(s, r, i)
    ensures |r| == 0 <==> forall k :: 0 <= k < |s| ==> IsSpace(s[k])
  {
    var a := TrimStart(s);
    var r := TrimEnd(a);
    TrimBetween(s, a, r);
    TrimParts(s, a, r);
    r
  }

  /** `r` occurs in `s` at `i` with nothing but white space around it. */
  predicate TrimmedAt(s: string, r: string, i: int) {
    && OccursAt(s, r, i)
    && (forall k :: 0 <= k < i ==> IsSpace(s[k]))
    && (forall k :: i + |r| <= k < |s| ==> IsSpace(s[k]))
  }

  /** What trimming removes is white space on both sides of the result. */
  lemma TrimBetween(s: string, a: string, r: string)
    requires |a| <= |s| && a == s[|s| - |a|..] && |r| <= |a| && r == a[..|r|]
    requires forall k :: 0 <= k < |s| - |a| ==> IsSpace(s[k])
    requires forall k :: |r| <= k < |a| ==> IsSpace(a[k])
    ensures TrimmedAt(s, r, |s| - |a|)
  {
    var i := |s| - |a|;
    assert r == s[i..][..|r|] == s[i..i + |r|];
    forall k | i + |r| <= k < |s| ensures IsSpace(s[k]) {
      assert s[k] == a[k - i];
    }
  }

  lemma TrimParts(s: string, a: string, r: string)
    requires a == TrimStart(s) && r == TrimEnd(a)
    ensures |r| > 0 ==> !IsSpace(r[0])
    ensures |r| == 0 <==> forall k :: 0 <= k < |s| ==> IsSpace(s[k])
  {
    if |r| == 0 {
      assert |a| == 0;
    } else {
      assert r[0] == a[0];
    }
  }

  /** `!s.trim()`: nothing but white space. */
  predicate IsBlank(s: string) {
    |Trim(s)| == 0
  }

  predicate StartsWith(s: string, prefix: string) {
    |prefix| <= |s| && s[..|prefix|] == prefix
  }

  /** `s.includes(sub)`. */
  predicate Contains(s: string, sub: string)
    decreases |s|
  {
    StartsWith(s, sub) || (|s| > 0 && Contains(s[1..], sub))
  }

  /** `sub` occurs in `s` starting at position `i`. */
  predicate OccursAt(s: string, sub: string, i: int) {
    0 <= i <= |s| - |sub| && s[i..i + |sub|] == sub
  }

  /** `Contains` holds exactly when `sub` occurs at some position. */
  lemma {:induction false} ContainsAt(s: string, sub: string)
    ensures Contains(s, sub) <==> exists i :: OccursAt(s, sub, i)
  {
    if StartsWith(s, sub) {
      assert OccursAt(s, sub, 0);
    }
    if |s| > 0 {
      ContainsAt(s[1..], sub);
      if exists i :: OccursAt(s, sub, i) {
        var i :| OccursAt(s, sub, i);
        if i > 0 {
          assert s[1..][i - 1..i - 1 + |sub|] == sub;
          assert OccursAt(s[1..], sub, i - 1);
        }
      }
      if Contains(s[1..], sub) {
        var i :| OccursAt(s[1..], sub, i);
        assert s[i + 1..i + 1 + |sub|] == sub;
        assert OccursAt(s, sub, i + 1);
      }
    }
  }

  /** An occurrence at a known position is enough to show `Contains`. */
  lemma ContainsWitness(s: string, sub: string, i: nat)
    requires OccursAt(s, sub, i)
    ensures Contains(s, sub)
  {
    ContainsAt(s, sub);
  }

  /** A string lacking one of the characters of `sub` cannot contain `sub`. */
  lemma MissingCharNotContained(s: string, sub: string, c: char)
    requires c in sub && c !in s
    ensures !Contains(s, sub)
  {
    ContainsAt(s, sub);
    var j :| 0 <= j < |sub| && sub[j] == c;
    forall i | 0 <= i <= |s| - |sub|
      ensures !OccursAt(s, sub, i)
    {
      assert s[i..i + |sub|][j] == s[i + j] != c;
    }
  }

  /** Every string contains itself and the empty string. */
  lemma ContainsSelf(s: string)
    ensures Contains(s, s) && Contains(s, "")
  {
    assert OccursAt(s, s, 0);
    ContainsWitness(s, s, 0);
    assert OccursAt(s, "", 0);
    ContainsWitness(s, "", 0);
  }

  /** `a` occurs inside `pre + a + post`. */
  lemma ContainsInfix(pre: string, a: string, post: string)
    ensures Contains(pre + a + post, a)
  {
    var s := pre + a + post;
    assert s[|pre|..|pre| + |a|] == a;
    assert OccursAt(s, a, |pre|);
    ContainsWitness(s, a, |pre|);
  }

  /** Occurrences survive putting text in front and behind. */
  lemma ContainsExtend(pre: string, s: string, post: string, sub: string)
    requires Contains(s, sub)
    ensures Contains(pre + s + post, sub)
  {
    ContainsAt(s, sub);
    var i :| OccursAt(s, sub, i);
    assert (pre + s + post)[|pre| + i..|pre| + i + |sub|] == sub;
    assert OccursAt(pre + s + post, sub, |pre| + i);
    ContainsWitness(pre + s + post, sub, |pre| + i);
  }

  /** `s.substring(0, n)`: the first `n` characters, or all of a shorter `s`. */
  function Take(s: string, n: nat): (r: string)
    ensures |r| == if |s| < n then |s| else n
    ensures r == s[..|r|]
  {
    if |s| <= n then s else s[..n]
  }

  /** `parts.join(sep)`. */
  function Join(parts: seq<string>, sep: string): string {
    if |parts| == 0 then ""
    else if |parts| == 1 then parts[0]
    else parts[0] + sep + Join(parts[1..], sep)
  }

  /** Each joined part appears in the joined string. */
  lemma {:induction false} JoinContainsPart(parts: seq<string>, sep: string, i: nat)
    requires i < |parts|
    ensures Contains(Join(parts, sep), parts[i])
  {
    if |parts| == 1 {
      ContainsSelf(parts[0]);
      assert Join(parts, sep) == "" + parts[0] + "";
    } else if i == 0 {
      ContainsInfix("", parts[0], sep + Join(parts[1..], sep));
      assert "" + parts[0] + (sep + Join(parts[1..], sep)) == Join(parts, sep);
    } else {
      JoinContainsPart(parts[1..], sep, i - 1);
      ContainsExtend(parts[0] + sep, Join(parts[1..], sep), "", parts[i]);
      assert parts[0] + sep + Join(parts[1..], sep) + "" == Join(parts, sep);
    }
  }

  /** Position of the first `c` in `s`. */
  function FirstIndex(s: string, c: char): (i: nat)
    requires c in s
    ensures i < |s| && s[i] == c && c !in s[..i]
  {
    if s[0] == c then 0 else FirstIndex(s[1..], c) + 1
  }

  /** `s.split(sep)` for a one-character separator. */
  function Split(s: string, sep: char): (parts: seq<string>)
    ensures |parts| >= 1
    ensures forall k :: 0 <= k < |parts| ==> sep !in parts[k]
    decreases |s|
  {
    if sep !in s then [s]
    else
      var i := FirstIndex(s, sep);
      [s[..i]] + Split(s[i + 1..], sep)
  }

  /** Splitting and joining again gives back the original string. */
  lemma {:induction false} SplitJoin(s: string, sep: char)
    ensures Join(Split(s, sep), [sep]) == s
    decreases |s|
  {
    if sep in s {
      var i := FirstIndex(s, sep);
      SplitJoin(s[i + 1..], sep);
      assert s == s[..i] + [sep] + s[i + 1..];
    }
  }

  /** Joining parts that contain no separator and splitting again gives
      back the parts. */
  lemma {:induction false} JoinSplit(parts: seq<string>, sep: char)
    requires |parts| >= 1
    requires forall k :: 0 <= k < |parts| ==> sep !in parts[k]
    ensures Split(Join(parts, [sep]), sep) == parts
    decreases |parts|
  {
    if |parts| > 1 {
      JoinSplit(parts[1..], sep);
      SplitAfterHead(parts[0], sep, Join(parts[1..], [sep]));
      assert parts == [parts[0]] + parts[1..];
    }
  }

  /** Splitting `a + sep + b` where `a` has no separator yields `a` and then
      the pieces of `b`. */
  lemma SplitAfterHead(a: string, sep: char, b: string)
    requires sep !in a
    ensures Split(a + [sep] + b, sep) == [a] + Split(b, sep)
  {
    var s := a + [sep] + b;
    assert s[|a|] == sep;
    assert s[..|a|] == a;
    var i := FirstIndex(s, sep);
    assert i == |a|;
    assert s[..i] == a;
    assert s[i + 1..] == b;
  }

  /** JavaScript's relational `a <= b` on strings: lexicographic order of
      characters, a proper prefix sorting first. */
  predicate LexLe(a: string, b: string)
    decreases |a|
  {
    |a| == 0 || (|b| > 0 && (a[0] < b[0] || (a[0] == b[0] && LexLe(a[1..], b[1..]))))
  }

  /** Decimal notation of a natural number (`String(n)`). */
  function NatToString(n: nat): (r: string)
    ensures |r| >= 1
    ensures forall k :: 0 <= k < |r| ==> '0' <= r[k] <= '9'
  {
    if n < 10 then [Digit(n)] else NatToString(n / 10) + [Digit(n % 10)]
  }

  function Digit(d: nat): (c: char)
    requires d < 10
    ensures '0' <= c <= '9'
  {
    ['0', '1', '2', '3', '4', '5', '6', '7', '8', '9'][d]
  }

  /** The replacement text for one match of a pattern without capture
      groups (ECMAScript GetSubstitution): `$$` is `$`, `$&` the match,
      `` $` `` the text before it and `$'` the text after it; any other `$`
      is literal. */
  function Substitution(repl: string, matched: string, before: string, after: string): string
    decreases |repl|
  {
    if |repl| == 0 then ""
    else if repl[0] == '$' && |repl| >= 2 && repl[1] in "$&`'" then
      var piece := if repl[1] == '$' then "$" else if repl[1] == '&' then matched
                   else if repl[1] == '`' then before else after;
      piece + Substitution(repl[2..], matched, before, after)
    else [repl[0]] + Substitution(repl[1..], matched, before, after)
  }

  /** Without a `$`, the replacement text is inserted verbatim. */
  lemma {:induction false} SubstitutionLiteral(repl: string, matched: string, before: string, after: string)
    requires '$' !in repl
    ensures Substitution(repl, matched, before, after) == repl
    decreases |repl|
  {
    if |repl| > 0 {
      assert '$' !in repl[1..];
      SubstitutionLiteral(repl[1..], matched, before, after);
    }
  }

  /** `s.replace(/pat/g, repl)` for a literal pattern, scanning from `i`. */
  function ReplaceAllFrom(s: string, i: nat, pat: string, repl: string): string
    requires i <= |s| && |pat| > 0
    decreases |s| - i
  {
    if i == |s| then ""
    else if StartsWith(s[i..], pat) then
      Substitution(repl, pat, s[..i], s[i + |pat|..]) + ReplaceAllFrom(s, i + |pat|, pat, repl)
    else [s[i]] + ReplaceAllFrom(s, i + 1, pat, repl)
  }

  function ReplaceAll(s: string, pat: string, repl: string): string
    requires |pat| > 0
  {
    ReplaceAllFrom(s, 0, pat, repl)
  }

  /** A stretch `s[i..j]` holding no first character of the pattern is
      copied unchanged. */
  lemma {:induction false} ReplaceAllFromSkips(s: string, i: nat, j: nat, pat: string, repl: string)
    requires i <= j <= |s| && |pat| > 0
    requires forall k :: i <= k < j ==> s[k] != pat[0]
    ensures ReplaceAllFrom(s, i, pat, repl) == s[i..j] + ReplaceAllFrom(s, j, pat, repl)
    decreases j - i
  {
    if i < j {
      assert !StartsWith(s[i..], pat) by {
        if |pat| <= |s[i..]| {
          assert s[i..][..|pat|][0] == s[i] != pat[0];
        }
      }
      assert ReplaceAllFrom(s, i, pat, repl) == [s[i]] + ReplaceAllFrom(s, i + 1, pat, repl);
      ReplaceAllFromSkips(s, i + 1, j, pat, repl);
      assert s[i..j] == [s[i]] + s[i + 1..j];
    }
  }

  /** If the pattern occurs at or after `i`, a `$`-free replacement text
      occurs in the result. */
  lemma {:induction false} ReplaceAllFromInserts(s: string, i: nat, pat: string, repl: string, at: nat)
    requires i <= at && at + |pat| <= |s| && |pat| > 0
    requires s[at..at + |pat|] == pat
    requires '$' !in repl
    ensures Contains(ReplaceAllFrom(s, i, pat, repl), repl)
    decreases |s| - i
  {
    var r := ReplaceAllFrom(s, i, pat, repl);
    if i == at {
      assert s[i..][..|pat|] == pat;
    }
    if StartsWith(s[i..], pat) {
      SubstitutionLiteral(repl, pat, s[..i], s[i + |pat|..]);
      ContainsInfix("", repl, ReplaceAllFrom(s, i + |pat|, pat, repl));
      assert "" + repl + ReplaceAllFrom(s, i + |pat|, pat, repl) == r;
    } else {
      ReplaceAllFromInserts(s, i + 1, pat, repl, at);
      ContainsExtend([s[i]], ReplaceAllFrom(s, i + 1, pat, repl), "", repl);
      assert [s[i]] + ReplaceAllFrom(s, i + 1, pat, repl) + "" == r;
    }
  }
}

=== FILE: weekly.dfy ===
/** The weekly pages: week bounds, the goal list's partition, new-goal
    validation and the swipe-to-complete gesture, the growth aggregates
    shown on the tree and saved with a weekly review, and the review form.
    Days are integers counted from 1970-01-01, a Thursday. */
module Weekly {
  import opened Wrappers
  import opened Seqs
  import opened Text
  import opened Records
  import Routes

  // ------------------------------------------------------------ weeks

  /** `getDay()`: 0 is Sunday, 1 Monday, ..., 6 Saturday. */
  function DayOfWeek(d: int): (w: int)
    ensures 0 <= w < 7
  {
    (d + 4) % 7
  }

  /** Going back `k` days, for `k` under a week, turns the weekday back by
      `k` modulo 7. */
  lemma {:induction false} DayOfWeekBack(d: int, k: int)
    requires 0 <= k < 7
    ensures DayOfWeek(d - k) == if DayOfWeek(d) >= k then DayOfWeek(d) - k else DayOfWeek(d) - k + 7
  {
    var q, w := (d + 4) / 7, DayOfWeek(d);
    assert d + 4 == 7 * q + w;
    if w >= k {
      ModUnique(d - k + 4, q, w - k);
    } else {
      ModUnique(d - k + 4, q - 1, w - k + 7);
    }
  }

  lemma ModUnique(x: int, q: int, r: int)
    requires x == 7 * q + r && 0 <= r < 7
    ensures x % 7 == r
  {
  }

  /** The goal list's week as written: `today - getDay() + 1` to
      `today - getDay() + 7`. */
  function WeekStartAsWritten(today: int): int {
    today - DayOfWeek(today) + 1
  }

  function WeekEndAsWritten(today: int): (e: int)
    ensures e == WeekStartAsWritten(today) + 6
  {
    today - DayOfWeek(today) + 7
  }

  /** The as-written week spans seven days; it holds today on every day
      but Sunday, when it is the week after. */
  lemma AsWrittenWeek(today: int)
    ensures DayOfWeek(today) != 0 ==> WeekStartAsWritten(today) <= today <= WeekEndAsWritten(today)
    ensures DayOfWeek(today) == 0 ==> WeekStartAsWritten(today) == today + 1 && today < WeekStartAsWritten(today)
  {
  }

  /** The Monday-anchored week (`startOfWeek(today, {weekStartsOn: 1})`),
      as the review pages compute it. */
  function MondayOf(today: int): (m: int)
    ensures DayOfWeek(m) == 1
    ensures m <= today <= m + 6
  {
    var w := DayOfWeek(today);
    var back := if w == 0 then 6 else w - 1;
    DayOfWeekBack(today, back);
    today - back
  }

  /** It is the only Monday whose week holds today. */
  lemma MondayUnique(today: int, m: int)
    requires DayOfWeek(m) == 1 && m <= today <= m + 6
    ensures m == MondayOf(today)
  {
    var n := MondayOf(today);
    if m < n {
      DayOfWeekBack(n, n - m);
    } else if n < m {
      DayOfWeekBack(m, m - n);
    }
  }

  /** The two computations agree except on Sundays. */
  lemma SundayDisagrees(today: int)
    ensures WeekStartAsWritten(today) == MondayOf(today) <==> DayOfWeek(today) != 0
  {
    var w := DayOfWeek(today);
    if w != 0 {
      DayOfWeekBack(today, w - 1);
      MondayUnique(today, WeekStartAsWritten(today));
    }
  }

  /** The corrected goal-list week: the Monday-anchored week, ending
      Sunday. */
  function GoalWeek(today: int): (w: (int, int))
    ensures w.1 == w.0 + 6 && DayOfWeek(w.0) == 1
    ensures w.0 <= today <= w.1
  {
    (MondayOf(today), MondayOf(today) + 6)
  }

  // ------------------------------------------------------------ goals

  function Tasks(all: Option<seq<Task>>): seq<Task> {
    if all.Some? then all.value else []
  }

  function InWeek(weekStart: string): Task -> bool {
    (t: Task) => t.weekStart == weekStart
  }

  function NotInWeek(weekStart: string): Task -> bool {
    (t: Task) => t.weekStart != weekStart
  }

  /** The goals of this week and the others: together they are all goals,
      each exactly once. */
  function SplitByWeek(all: Option<seq<Task>>, weekStart: string): (r: (seq<Task>, seq<Task>))
    ensures forall i :: 0 <= i < |r.0| ==> r.0[i].weekStart == weekStart
    ensures forall i :: 0 <= i < |r.1| ==> r.1[i].weekStart != weekStart
    ensures multiset(r.0) + multiset(r.1) == multiset(Tasks(all))
    ensures |r.0| + |r.1| == |Tasks(all)|
  {
    var xs := Tasks(all);
    CountComplement(xs, InWeek(weekStart), NotInWeek(weekStart));
    (Filter(xs, InWeek(weekStart)), Filter(xs, NotInWeek(weekStart)))
  }

  datatype TitleError = MissingTitle | TooShort

  /** `handleCreateTask`: the title must be non-blank and at least three
      characters once trimmed; the goal sent carries the trimmed title and
      the trimmed description (or `''`). */
  function NewGoal(title: Option<string>, description: Option<string>, weekStart: string)
    : (r: Result<InsertTask, TitleError>)
    ensures r == Err(MissingTitle) <==> title.None? || IsBlank(title.value)
    ensures r == Err(TooShort) <==> title.Some? && 0 < |Trim(title.value)| < 3
    ensures r.Ok? ==> (&& title.Some? && r.value.title == Trim(title.value)
                       && |r.value.title| >= 3
                       && r.value.weekStart == weekStart
                       && r.value.isCompleted.Absent? && r.value.isActive.Absent?)
    ensures r.Ok? && description.Some? ==> r.value.description == Val(Trim(description.value))
    ensures r.Ok? && description.None? ==> r.value.description == Val("")
  {
    if title.None? || IsBlank(title.value) then Err(MissingTitle)
    else if |Trim(title.value)| < 3 then Err(TooShort)
    else
      var d := if description.Some? then Trim(description.value) else "";
      Ok(InsertTask(Trim(title.value), Val(d), Absent, Absent, weekStart))
  }

  /** A goal that passes validation is stored active, not completed, with
      its trimmed title and with no description when the description was
      blank. */
  lemma NewGoalStored(title: Option<string>, description: Option<string>, weekStart: string, id: Id, now: int)
    requires NewGoal(title, description, weekStart).Ok?
    ensures var t := NewTask(id, NewGoal(title, description, weekStart).value, now);
      && t.title == Trim(title.value) && |t.title| >= 3
      && t.isActive == Some(true) && t.isCompleted == Some(false)
      && (t.description.None? <==> description.None? || IsBlank(description.value))
  {
  }

  // ------------------------------------------------------------ swipe

  /** The touch being tracked: `start` is the x where it began, 0 when no
      touch is tracked; `swiping` is the goal showing the indicator. */
  datatype Touch = Touch(start: int, swiping: Option<Id>)

  const Idle := Touch(0, None)

  function TouchStart(t: Touch, x: int): (u: Touch)
    ensures u.start == x && u.swiping == t.swiping
  {
    t.(start := x)
  }

  /** Moving shows the indicator for this goal exactly while the finger is
      more than 50 pixels right of the start. */
  function TouchMove(t: Touch, x: int, id: Id): (u: Touch)
    ensures t.start == 0 ==> u == t
    ensures t.start != 0 ==> u.start == t.start && (u.swiping == Some(id) <==> x - t.start > 50)
    ensures t.start != 0 && x - t.start <= 50 ==> u.swiping.None?
  {
    if t.start == 0 then t
    else t.(swiping := if x - t.start > 50 then Some(id) else None)
  }

  /** Lifting the finger completes the goal when it travelled more than
      100 pixels right and the goal is not yet completed; the completion
      sent is the negated flag, which is `true` there. Either way the
      gesture is over. */
  function TouchEnd(t: Touch, x: int, task: Task): (r: (Touch, Option<bool>))
    ensures t.start == 0 ==> r == (t, None)
    ensures t.start != 0 ==> r.0 == Idle
    ensures r.1.Some? <==> t.start != 0 && x - t.start > 100 && task.isCompleted != Some(true)
    ensures r.1.Some? ==> r.1.value
  {
    if t.start == 0 then (t, None)
    else
      var toggle := if x - t.start > 100 && task.isCompleted != Some(true)
                    then Some(!(task.isCompleted == Some(true))) else None;
      (Idle, toggle)
  }

  /** One gesture completes a goal at most once: a second lift without a
      new touch does nothing. */
  lemma SwipeOnce(t: Touch, x: int, y: int, task: Task)
    ensures TouchEnd(TouchEnd(t, x, task).0, y, task).1.None?
  {
  }

  /** The completion request goes to the goal's completion route. */
  function CompleteRequest(id: Id): (r: (Routes.Method, string))
    requires Routes.Param(id)
    ensures Routes.Route(r.0, r.1) == Routes.CompleteTask(id)
  {
    Routes.RouteAddress(Routes.CompleteTask(id));
    (Routes.PATCH, Routes.PathOf(["tasks", id, "complete"]))
  }

  // ------------------------------------------------------------ growth

  predicate Truthy(t: Option<string>) {
    t.Some? && t.value != ""
  }

  /** An entry counts when it has an intention, a reflection or a
      non-zero energy level. */
  predicate Substantive(e: DailyEntry) {
    Truthy(e.morningIntention) || Truthy(e.eveningReflection) || (e.energyLevel.Some? && e.energyLevel.value != 0)
  }

  predicate KeptAndSubstantive(e: DailyEntry) {
    e.promiseKept == Some("yes") && Substantive(e)
  }

  function Entries(xs: Option<seq<DailyEntry>>): seq<DailyEntry> {
    if xs.Some? then xs.value else []
  }

  /** The tree's counts: kept promises among the substantive entries, and
      the substantive entries. */
  function TreeCounts(week: Option<seq<DailyEntry>>): (c: (nat, nat))
    ensures c.0 <= c.1 <= |Entries(week)|
    ensures c.0 == Count(Entries(week), KeptAndSubstantive)
    ensures c.1 == Count(Entries(week), Substantive)
  {
    CountMonotone(Entries(week), KeptAndSubstantive, Substantive);
    (Count(Entries(week), KeptAndSubstantive), Count(Entries(week), Substantive))
  }

  /** `Math.min(5, Math.max(1, Math.ceil(kept / Math.max(total, 1) * 5)))`
      in integers: the least level whose share of five covers the kept
      fraction, clamped to 1..5. */
  function GrowthLevel(kept: nat, total: nat): (g: int)
    ensures 1 <= g <= 5
    ensures var t := if total > 0 then total else 1;
      && (g == 5 || g * t >= kept * 5)
      && (g == 1 || (g - 1) * t < kept * 5)
  {
    var t := if total > 0 then total else 1;
    var c := (kept * 5 + t - 1) / t;
    CeilDiv(kept * 5, t);
    if c < 1 then 1
    else if c > 5 then MulLe(5, c - 1, t); 5
    else c
  }

  /** `(n + t - 1) / t` is the ceiling of `n / t`. */
  lemma CeilDiv(n: nat, t: int)
    requires t > 0
    ensures var c := (n + t - 1) / t; c >= 0 && c * t >= n && (c - 1) * t < n
  {
    var c := (n + t - 1) / t;
    var r := (n + t - 1) % t;
    assert n + t - 1 == c * t + r && 0 <= r < t;
    assert (c - 1) * t == c * t - t;
    if c < 0 {
      MulLe(c, -1, t);
    }
  }

  lemma MulLe(a: int, b: int, t: int)
    requires a <= b && t >= 0
    ensures a * t <= b * t
  {
    MulNonNegative(b - a, t);
    assert b * t - a * t == (b - a) * t;
  }

  /** No kept promise is level 1; every promise kept is level 5. */
  lemma GrowthLevelEnds(kept: nat, total: nat)
    ensures kept == 0 ==> GrowthLevel(kept, total) == 1
    ensures kept == total > 0 ==> GrowthLevel(kept, total) == 5
  {
    var t := if total > 0 then total else 1;
    var g := GrowthLevel(kept, total);
    MulNonNegative(g - 1, t);
    if kept == total > 0 {
      CancelLe(5, g, t);
    }
  }

  /** Keeping more promises never lowers the level. */
  lemma GrowthMonotone(k1: nat, k2: nat, total: nat)
    requires k1 <= k2
    ensures GrowthLevel(k1, total) <= GrowthLevel(k2, total)
  {
    var t := if total > 0 then total else 1;
    var g1, g2 := GrowthLevel(k1, total), GrowthLevel(k2, total);
    if g2 < 5 && g1 > 1 {
      CancelLt(g1 - 1, g2, t);
    }
  }

  lemma MulNonNegative(a: int, t: int)
    requires a >= 0 && t >= 0
    ensures a * t >= 0
  {
  }

  lemma CancelLe(a: int, b: int, t: int)
    requires t > 0 && a * t <= b * t
    ensures a <= b
  {
    if a > b {
      MulNonNegative(a - b - 1, t);
    }
  }

  lemma CancelLt(a: int, b: int, t: int)
    requires t > 0 && a * t < b * t
    ensures a < b
  {
    if a >= b {
      MulNonNegative(a - b, t);
    }
  }

  /** Goals done and not deleted. */
  predicate DoneGoal(t: Task) {
    t.isCompleted == Some(true) && IsActive(t)
  }

  /** The goals the tree counts as completed: exactly the completed tasks
      that were not deleted, in their listed order. */
  function CompletedGoals(all: Option<seq<Task>>): (r: seq<Task>)
    ensures |r| <= |Tasks(all)|
    ensures forall i :: 0 <= i < |r| ==> r[i].isCompleted == Some(true) && r[i].isActive != Some(false)
    ensures var ts := Tasks(all);
      forall i :: 0 <= i < |ts| ==> (ts[i] in r <==> ts[i].isCompleted == Some(true) && IsActive(ts[i]))
    ensures IsSubsequence(r, Tasks(all))
  {
    FilterKeepsExactly(Tasks(all), DoneGoal);
    FilterIsSubsequence(Tasks(all), DoneGoal);
    Filter(Tasks(all), DoneGoal)
  }

  // ------------------------------------------------------------ reviews

  predicate KeptOrDone(e: DailyEntry) {
    e.promiseKept == Some("yes") || e.activityCompleted == Some(true)
  }

  /** The counts a review is saved with: entries with a kept promise or a
      completed activity, out of all entries of the week. */
  function ReviewCounts(week: Option<seq<DailyEntry>>): (c: (nat, nat))
    ensures c.0 <= c.1 == |Entries(week)|
    ensures c.0 == Count(Entries(week), KeptOrDone)
  {
    (Count(Entries(week), KeptOrDone), |Entries(week)|)
  }

  /** The counts a review page shows beside the tree: kept promises,
      substantive entries, entries with a morning intention and entries with
      an evening reflection. */
  function DisplayCounts(week: Option<seq<DailyEntry>>): (c: (nat, nat, nat, nat))
    ensures c.0 <= c.1 <= |Entries(week)|
    ensures (c.0, c.1) == TreeCounts(week)
    ensures c.0 == Count(Entries(week), KeptAndSubstantive) && c.1 == Count(Entries(week), Substantive)
    ensures c.2 <= |Entries(week)| && c.3 <= |Entries(week)|
    ensures c.2 == Count(Entries(week), (e: DailyEntry) => Truthy(e.morningIntention))
    ensures c.3 == Count(Entries(week), (e: DailyEntry) => Truthy(e.eveningReflection))
  {
    var (kept, total) := TreeCounts(week);
    (kept, total,
     Count(Entries(week), (e: DailyEntry) => Truthy(e.morningIntention)),
     Count(Entries(week), (e: DailyEntry) => Truthy(e.eveningReflection)))
  }

  /** The review form with nothing filled in yet. */
  function BlankReview(weekStart: string, weekEnd: string): (f: InsertWeeklyReview)
    ensures f.weekStart == weekStart && f.weekEnd == weekEnd
    ensures f.growthLevel == Val(1) && f.promisesKept == Val(0) && f.totalPromises == Val(0)
    ensures f.proudActions == Val("") && f.selfRespectMoments == Val("") && f.patterns == Val("")
    ensures f.nextWeekCultivate == Val("") && f.nextWeekSupport == Val("")
  {
    InsertWeeklyReview(weekStart, weekEnd, Val(""), Val(""), Val(""), Val(""), Val(""), Val(1), Val(0), Val(0))
  }

  function FieldOf<T>(o: Option<T>): (f: Field<T>)
    ensures o.None? <==> f.Null?
    ensures o.Some? ==> f == Val(o.value)
  {
    if o.Some? then Val(o.value) else Null
  }

  /** The review page's form for this week: a copy of the stored review,
      or the blank form. */
  function ReviewForm(existing: Option<WeeklyReview>, weekStart: string, weekEnd: string)
    : (f: InsertWeeklyReview)
    ensures existing.None? ==> f == BlankReview(weekStart, weekEnd)
    ensures existing.Some? ==> (&& f.weekStart == existing.value.weekStart
                                && f.weekEnd == existing.value.weekEnd
                                && f.proudActions == FieldOf(existing.value.proudActions)
                                && f.selfRespectMoments == FieldOf(existing.value.selfRespectMoments)
                                && f.patterns == FieldOf(existing.value.patterns)
                                && f.nextWeekCultivate == FieldOf(existing.value.nextWeekCultivate)
                                && f.nextWeekSupport == FieldOf(existing.value.nextWeekSupport)
                                && f.growthLevel == FieldOf(existing.value.growthLevel)
                                && f.promisesKept == FieldOf(existing.value.promisesKept)
                                && f.totalPromises == FieldOf(existing.value.totalPromises))
  {
    if existing.None? then BlankReview(weekStart, weekEnd)
    else
      var w := existing.value;
      InsertWeeklyReview(w.weekStart, w.weekEnd, FieldOf(w.proudActions), FieldOf(w.selfRespectMoments),
                         FieldOf(w.patterns), FieldOf(w.nextWeekCultivate), FieldOf(w.nextWeekSupport),
                         FieldOf(w.growthLevel), FieldOf(w.promisesKept), FieldOf(w.totalPromises))
  }

  /** `handleSave`/`handleSaveReview`: the form with the three computed
      fields replaced and everything else as the user left it. */
  function ReviewPayload(form: InsertWeeklyReview, week: Option<seq<DailyEntry>>): (p: InsertWeeklyReview)
    ensures p.promisesKept.Val? && p.totalPromises.Val? && p.growthLevel.Val?
    ensures 0 <= p.promisesKept.v <= p.totalPromises.v == |Entries(week)|
    ensures 1 <= p.growthLevel.v <= 5
    ensures p.(growthLevel := form.growthLevel, promisesKept := form.promisesKept,
               totalPromises := form.totalPromises) == form
  {
    var (kept, total) := ReviewCounts(week);
    form.(promisesKept := Val(kept), totalPromises := Val(total), growthLevel := Val(GrowthLevel(kept, total)))
  }

  /** A review saved with every entry kept is at level 5 (unless the week is
      empty), and with none kept at level 1. */
  lemma ReviewPayloadLevel(form: InsertWeeklyReview, week: Option<seq<DailyEntry>>)
    ensures var p := ReviewPayload(form, week);
      && (p.promisesKept.v == 0 ==> p.growthLevel.v == 1)
      && (p.promisesKept.v == p.totalPromises.v > 0 ==> p.growthLevel.v == 5)
  {
    var (kept, total) := ReviewCounts(week);
    GrowthLevelEnds(kept, total);
  }

  /** The save goes to the stored review when there is one, and creates a
      review otherwise. */
  function ReviewRequest(existing: Option<WeeklyReview>): (r: (Routes.Method, string))
    requires existing.Some? ==> Routes.Param(existing.value.id)
    ensures existing.Some? ==> Routes.Route(r.0, r.1) == Routes.UpdateReview(existing.value.id)
    ensures existing.None? ==> Routes.Route(r.0, r.1) == Routes.CreateReview
  {
    if existing.Some? then
      Routes.RouteAddress(Routes.UpdateReview(existing.value.id));
      (Routes.PUT, Routes.PathOf(["weekly-review", existing.value.id]))
    else
      Routes.RouteAddress(Routes.CreateReview);
      (Routes.POST, Routes.PathOf(["weekly-review"]))
  }
}

=== FILE: welcome.dfy ===
/** The welcome carousel: seven pages that loop, an autoplay interval that
    stops for good once the user navigates by hand, and a transition delay
    after which the queued page change lands. Timers are events here: a
    `Tick` is the four-second interval, a `Land` is one 400 ms timeout. */
module Welcome {

  const PageIds: seq<string> := ["welcome", "purpose", "philosophy", "why-ten", "science", "reward", "journey"]

  const PageCount := 7

  datatype Move = Forward | Back

  /** `(prev + 1) % n` and `(prev - 1 + n) % n`: wrap around both ends. */
  function Step(p: nat, m: Move): (q: nat)
    requires p < PageCount
    ensures q < PageCount
    ensures m == Forward ==> q == if p == PageCount - 1 then 0 else p + 1
    ensures m == Back ==> q == if p == 0 then PageCount - 1 else p - 1
  {
    match m
    case Forward => (p + 1) % PageCount
    case Back => (p - 1 + PageCount) % PageCount
  }

  /** Next then previous, or previous then next, comes back to the page. */
  lemma StepsInverse(p: nat)
    requires p < PageCount
    ensures Step(Step(p, Forward), Back) == p
    ensures Step(Step(p, Back), Forward) == p
  {
  }

  /** `k` forward steps from page `p`. */
  function Advance(p: nat, k: nat): (q: nat)
    requires p < PageCount
    ensures q < PageCount
  {
    if k == 0 then p else Step(Advance(p, k - 1), Forward)
  }

  lemma ModUnique(x: int, q: int, r: int)
    requires x == 7 * q + r && 0 <= r < 7
    ensures x % 7 == r
  {
  }

  /** Forward steps add up modulo the page count. */
  lemma {:induction false} AdvanceIsModular(p: nat, k: nat)
    requires p < PageCount
    ensures Advance(p, k) == (p + k) % PageCount
  {
    if k > 0 {
      AdvanceIsModular(p, k - 1);
      var r := Advance(p, k - 1);
      var q := (p + k - 1) / 7;
      assert p + k - 1 == 7 * q + r;
      if r + 1 < 7 {
        ModUnique(p + k, q, r + 1);
      } else {
        ModUnique(p + k, q + 1, 0);
      }
    }
  }

  /** Seven nexts bring the carousel back to where it started. */
  lemma {:induction false} FullCircle(p: nat)
    requires p < PageCount
    ensures Advance(p, PageCount) == p
  {
    AdvanceIsModular(p, PageCount);
    ModUnique(p + PageCount, 1, p);
  }

  datatype Carousel = Carousel(page: nat, autoPlaying: bool, transitioning: bool, queued: seq<Move>)

  predicate Valid(c: Carousel) {
    c.page < PageCount
  }

  const Start := Carousel(0, true, false, [])

  datatype Event = Tick | PressNext | PressPrev | Land

  /** One event. A tick only does something while autoplaying (the
      interval is cleared otherwise); a press stops autoplay; every tick or
      press queues one move, and each `Land` applies the oldest one. */
  function Handle(c: Carousel, e: Event): (d: Carousel)
    requires Valid(c)
    ensures Valid(d)
    ensures d.autoPlaying ==> c.autoPlaying
    ensures e == PressNext || e == PressPrev ==> !d.autoPlaying && d.transitioning && d.page == c.page
    ensures e == PressNext ==> d.queued == c.queued + [Forward]
    ensures e == PressPrev ==> d.queued == c.queued + [Back]
    ensures e == Tick ==> d == (if c.autoPlaying then c.(transitioning := true, queued := c.queued + [Forward]) else c)
    ensures e == Land && c.queued != [] ==> d == c.(page := Step(c.page, c.queued[0]), queued := c.queued[1..], transitioning := false)
    ensures e == Land && c.queued == [] ==> d == c
  {
    match e
    case Tick => if c.autoPlaying then c.(transitioning := true, queued := c.queued + [Forward]) else c
    case PressNext => c.(autoPlaying := false, transitioning := true, queued := c.queued + [Forward])
    case PressPrev => c.(autoPlaying := false, transitioning := true, queued := c.queued + [Back])
    case Land =>
      if c.queued == [] then c
      else c.(page := Step(c.page, c.queued[0]), queued := c.queued[1..], transitioning := false)
  }

  function Run(c: Carousel, es: seq<Event>): (d: Carousel)
    requires Valid(c)
    ensures Valid(d)
    ensures d.autoPlaying ==> c.autoPlaying
    decreases |es|
  {
    if es == [] then c else Run(Handle(c, es[0]), es[1..])
  }

  /** Once the user presses a button, no later event turns autoplay back on. */
  lemma {:induction false} ManualStopsAutoplay(c: Carousel, press: Event, es: seq<Event>)
    requires Valid(c)
    requires press == PressNext || press == PressPrev
    ensures !Run(c, [press] + es).autoPlaying
  {
    assert ([press] + es)[1..] == es;
    assert !Handle(c, press).autoPlaying;
  }

  /** From a settled carousel, next-and-land then prev-and-land is a round
      trip, with autoplay off. */
  lemma NextThenPrev(c: Carousel)
    requires Valid(c) && c.queued == []
    ensures Run(c, [PressNext, Land, PressPrev, Land]) == c.(autoPlaying := false, transitioning := false)
  {
    var c1 := Handle(c, PressNext);
    var c2 := Handle(c1, Land);
    assert c2.page == Step(c.page, Forward);
    var c3 := Handle(c2, PressPrev);
    var c4 := Handle(c3, Land);
    StepsInverse(c.page);
    assert c4.page == c.page;
    assert Run(c4, []) == c4;
    assert Run(c, [PressNext, Land, PressPrev, Land]) == c4;
  }

  datatype Controls = Controls(journeySteps: bool, beginButton: bool)

  /** The journey steps and the begin button appear on the last page only. */
  function ControlsOf(c: Carousel): (ctl: Controls)
    ensures ctl.journeySteps <==> c.page == |PageIds| - 1
    ensures ctl.beginButton <==> c.page == |PageIds| - 1
  {
    var last := c.page == PageCount - 1;
    Controls(last, last)
  }
}

=== FILE: wrappers.dfy ===
/** Optional values: the JavaScript `null`/`undefined` of a stored field, and
    the "not found" result of a lookup. */
module Wrappers {

  datatype Option<+T> = None | Some(value: T) {

    /** The value, or `default` when there is none (JavaScript `x ?? default`). */
    function GetOr(default: T): T {
      match this
      case Some(v) => v
      case None => default
    }
  }

  /** A value that is either a success or an error, for operations whose
      source reports a failure to the user instead of throwing. */
  datatype Result<+R, +E> = Ok(value: R) | Err(error: E)
}
